=== FILE: README.md ===
# A verified model of the void / TeaDB key-value servers

The repository holds several generations of one TTL key/value server. This
project models the core of each as pure Dafny functions over immutable data
and proves what the code promises about them.

- **The Go server** (`main.go`), in modules `TeaStore` and `TeaSession`.
  - The store is an ordered slice of `{Key, Value, TTL}` records.
  - The HTTP handlers create, get, delete, count and list entries.
  - The background sweep `checkExpired` removes expired entries.
  - The TCP line session runs `SET key value ttl` and `GET key`.
- **The binary Rust server** (`server/src/connection/…`), in modules
  `Dispatcher`, `Frame`, `Compression`, `ConnError`, `Table`, `Base64` and
  `PingPayload`.
  - `Dispatcher` is the request loop, gated by authentication, over a
    database of named tables with lazy expiry.
  - `Frame` is the length-prefixed TCP frame.
  - `Compression` is the compression-mode byte.
  - `ConnError` classifies I/O and WebSocket errors.
  - `Table` is the Unix-seconds expiry codec.
  - `Base64` and `PingPayload` are the bounded Base 64 ping payload (section
    4 of RFC 4648).
- **The auth-only Rust server** (`server/src/connection.rs`,
  `server/src/actions.rs`, `server/src/util.rs`), in modules `AuthSession`,
  `ServerActions` and `GlobalCell`.
- **The first Rust generation** (`src/…`), in modules `LegacyResponse`,
  `LegacyActions`, `ArgParser` and `DateTime`.

The snapshots cannot coexist in one program. Each is its own module, and
only the shared vocabulary in `Common` connects them: `Option`, `Result`,
bytes, integer wrap-around, UTF-8 and decimal digits.

## Conventions

- Clocks are the integer nanoseconds since the Unix epoch. They are passed in
  as `now`, or as `clock(n)` for the n-th command of a TCP session.
- Where the source writes out to the peer, the model returns a datatype with
  what each write carries.
- Code the model cannot see is a function parameter:
  - serialisers and deserialisers;
  - decompressors;
  - the request parser and the UTF-8 decoder;
  - the I/O kind and status display texts.
- Where a property needs a round trip through such code, the round trip is a
  `requires`.

## Behaviour worth knowing

- A duplicate HTTP create answers 400 Bad Request (`main.go:269-274`).
- A TCP `SET` with a TTL that `strconv.Atoi` rejects, or with a key that is
  already present, writes one message and returns from the handler. That
  ends the session (`main.go:120-130`).
- The TCP session asks for no credentials. The username and password prompts
  are commented out (`main.go:89-100`).
- HTTP get and TCP `GET` return an entry whatever its TTL
  (`main.go:142-154`, `main.go:171-182`). Only the sweep removes expired
  entries. It removes an entry when the clock is strictly after its TTL
  (`main.go:306`).
- Both create paths accept a negative TTL (`main.go:120`, `main.go:279`). The
  entry they add has already expired.

## Model

| member | source | states |
|---|---|---|
| Common.TruncU32 | server/src/connection/tcp.rs:30 | `len as u32` keeps the value below 2^32, is the identity on lengths below 2^32, and differs from the length by a multiple of 2^32 |
| Common.WrapInt64 | main.go:135 | the int64 product wraps: the result is in the int64 range, equals its input when that is in range, and is congruent to it modulo 2^64 |
| Common.Utf8Ascii | protocol/src/lib.rs:13 | `str::len` of an ASCII string is its number of characters, byte for character |
| Common.Utf8ZeroFree | src/response.rs:32 | `as_bytes` contains a zero byte exactly when the string contains NUL |
| Common.NatDigits | src/datetime.rs:49-50 | the decimal digits of a number are non-empty, all digits, and read back as the number |
| TeaStore.Expiry | main.go:135 | an expiry is `now + ttl` seconds whenever `ttl * 1e9` fits an int64, and always lies within 2^63 ns of `now` |
| TeaStore.FirstIndex | main.go:216-222 | the scan finds nothing exactly when no entry has the key; otherwise it finds an entry with the key, and no earlier entry has it |
| TeaStore.RemoveAt | main.go:229 | the splice drops exactly position i: one entry fewer, the entries before i in place, the entries after i shifted down by one |
| TeaStore.Create | main.go:125-136 | create fails exactly when some entry has the key; otherwise it keeps the store as a prefix and appends one entry with expiry `now + ttl` |
| TeaStore.CreatePreservesUniqueKeys | main.go:269-280 | a successful create keeps the keys unique |
| TeaStore.HttpCreate | main.go:253-300 | a non-POST is 405 and changes nothing; a duplicate key keeps the store; otherwise the entry is appended; a failed read or decode is 500 and does not stop the handler; a clean create is 200 with `{created, key}` |
| TeaStore.HttpGet | main.go:163-188 | non-GET is 405; an empty key is 400; an absent key is 404; 200 exactly for a present key, with the value of its first entry; expiry is not consulted |
| TeaStore.HttpDelete | main.go:205-236 | any status but 200 leaves the store unchanged; 405, 400 and 404 as for get; on 200 exactly the first entry with the key is spliced out |
| TeaStore.HttpCount | main.go:238-251 | a GET answers the length of the slice, expired entries included |
| TeaStore.HttpList | main.go:190-203 | a GET answers the whole slice in order, expired entries included |
| TeaStore.CreateThenGet | main.go:163-184 | a fresh key created over HTTP is returned by the next get, whatever its TTL |
| TeaStore.DuplicateCreateKeepsValue | main.go:269-274 | a second create of a present key is 400, and get still returns the first value |
| TeaStore.DeleteThenGet | main.go:214-229 | with unique keys, after a delete no entry has the key and get is 404 |
| TeaStore.Expired | main.go:306 | an entry has expired when the clock is strictly after its TTL |
| TeaStore.SweepPass | main.go:305-309 | one pass keeps no more entries than it was given |
| TeaStore.SweepPassFromStore | main.go:305-309 | one pass only removes: every entry it keeps comes from the store |
| TeaStore.SweepStep | main.go:305-309 | one iteration of the sweep keeps `store == kept + rest-to-examine` and agrees with the one-pass result |
| TeaStore.Sweep | main.go:305-310 | the sweep loop as written, index advancing after every splice, computes the one-pass result `SweepPass` |
| TeaStore.SweepDropsOnlyExpired | main.go:305-309 | the sweep deletes only entries whose TTL `now` is strictly after, and keeps the survivors in order |
| TeaStore.SweepKeepsLive | main.go:305-309 | every entry that has not expired survives the sweep |
| TeaStore.SweepSkipsAfterSplice | main.go:305-309 | wherever the loop splices out an expired entry it examined, the entry right after it is not examined in that pass and survives it, expired or not |
| TeaStore.SweepTwoExpired | main.go:305-309 | a store of exactly two expired entries keeps the second after one pass |
| TeaStore.SweepAll | main.go:302-311 | the intended sweep keeps exactly the live entries, in order |
| TeaSession.Fields | main.go:115 | `strings.Fields` yields non-empty fields with no white space |
| TeaSession.FieldsUnwords | main.go:115 | splitting space-joined words gives the words back |
| TeaSession.Atoi | main.go:120 | `strconv.Atoi`: digits, or a `+` or `-` and then digits, read as their value, and accepted exactly when that value is an int64; an empty token, a lone sign, a non-digit after the optional sign, or an out-of-range value is an error |
| TeaSession.AtoiItoa | main.go:120 | `Atoi` reads back every int64 that `Itoa` writes |
| TeaSession.MatchingValues | main.go:142-154 | TCP `GET` writes at most one line per entry, and nothing exactly when no entry has the key |
| TeaSession.MatchingValuesAppend | main.go:142-154 | `GET` answers in store order: the values for a concatenation are those of the front followed by those of the back |
| TeaSession.MatchingValuesSnoc | main.go:142-154 | appending an entry adds its value at the end of the answer exactly when its key matches |
| TeaSession.MatchingValuesMembers | main.go:142-154 | `GET` writes the value of every entry holding the key, and only such values |
| TeaSession.MatchingValuesUnique | main.go:142-154 | with unique keys, `GET` writes exactly the value of the first entry with the key |
| TeaSession.Command | main.go:114-158 | an iteration that ends or panics leaves the store unchanged, and a panic writes nothing |
| TeaSession.CommandPanics | main.go:117-140 | a line panics exactly when it is blank, or is `SET` with fewer than four fields or `GET` with fewer than two |
| TeaSession.CommandUnknown | main.go:156-158 | an unknown first field is answered "Invalid command" and the loop goes on |
| TeaSession.CommandSet | main.go:117-138 | `SET`: a bad TTL or a present key ends the session with the store unchanged; otherwise the entry is appended with expiry `now + ttl` s and the loop goes on |
| TeaSession.CommandGet | main.go:139-154 | `GET`: one value line per matching entry, in store order; none for an absent key; the store is unchanged and the loop goes on |
| TeaSession.ReadLine | main.go:103 | what remains after a line is shorter than the stream |
| TeaSession.ReadLineSplits | main.go:103-114 | `ReadString('\n')` fails exactly when no newline remains; otherwise the stream is the line, a newline, and the rest, and the line holds no newline |
| TeaSession.ReadLineOf | main.go:103 | the read stops at the first newline |
| TeaSession.Serve | main.go:102-160 | the loop always ends: at the end of the stream, by an ending command, or by a panic |
| TeaSession.ServeExtendsStore | main.go:125-136 | a session only appends to the store and keeps its keys unique |
| TeaSession.CreatePreservesUniqueKeysAny | main.go:125-136 | a command that lets the loop go on only extends the store, with keys kept unique |
| TeaSession.HandleConnection | main.go:81-84 | the first thing written is the greeting |
| TeaSession.UnterminatedLineIgnored | main.go:103-111 | a final line without a newline is never run: the session ends after the greeting with the store unchanged |
| TeaSession.TwoCommands | main.go:102-160 | two continuing commands run in order, then the session ends at the end of the stream |
| TeaSession.SetLine | main.go:117-138 | the line `SET k v ttl`, for a fresh key and a TTL whose nanoseconds fit an int64, appends `k` with expiry `now + ttl` s, reports it and goes on |
| TeaSession.GetLine | main.go:139-154 | the line `GET k` writes the matching value and changes nothing |
| TeaSession.SetThenGet | main.go:81-160 | end to end: a session `SET k v ttl`, `GET k` writes greeting, confirmation and value, and the store gains exactly the entry |
| TeaSession.GetAdded | main.go:139-154 | `GET k` right after `k` was appended to a store with unique keys writes back exactly the appended value and changes nothing |
| TeaSession.AddedKeyMatches | main.go:142-154 | after appending a fresh key to a store with unique keys, `GET` finds exactly its value |
| Compression.Discriminant | server/src/compression/mod.rs:11-20 | every mode's discriminant has exactly one bit set, and `try_from` maps it back to the mode |
| Compression.TryFrom | server/src/compression/mod.rs:44-55 | `try_from` succeeds exactly on the single-bit bytes; every other byte gives "Too many compression modes selected" |
| Compression.DiscriminantInjective | server/src/compression/mod.rs:11-20 | distinct modes have distinct discriminants, and an accepted byte is the discriminant of its mode |
| Compression.TcpSetAsWritten | server/src/compression/mod.rs:27-38 | as written, `Lz4` is in the set exactly when bit 0 is set, and no other mode is ever included |
| Compression.TcpSet | server/src/compression/mod.rs:27-38 | the intended reader includes a mode exactly when its bit is set |
| Compression.TcpSetOfDiscriminant | server/src/compression/mod.rs:29-36 | the corrected reader maps each mode's byte to that mode alone; as written, every mode but `Lz4` reads as the empty set |
| Compression.TcpSetAsWrittenDropsZstd | server/src/compression/mod.rs:30 | the byte 0b10 reads as `{}` as written, and as `{Zstd}` when corrected |
| ConnError.FromKind | server/src/connection/error.rs:90-98 | an error from a kind carries that kind and no reason |
| ConnError.NewError | server/src/connection/error.rs:52-57 | `Error::new` always carries the reason |
| ConnError.FromStatusAsWritten | server/src/connection/error.rs:100-105 | as written: the conversion calls itself, unfolded to a given depth |
| ConnError.FromStatusNeverReturns | server/src/connection/error.rs:100-105 | as written, no depth of the self-call ever produces an error: the conversion does not return |
| ConnError.FromStatus | server/src/connection/error.rs:100-105 | corrected: a status becomes the error of that status kind with no reason, which the loop answers with that status |
| ConnError.FromIo | server/src/connection/error.rs:60-75 | an I/O error keeps a reason exactly when its kind is `InvalidInput`, and the reason is its message |
| ConnError.IoEffect | server/src/connection/error.rs:63-72 | the session skips an I/O error exactly for `Interrupted` and `TimedOut`, answers `ServerError` exactly for `InvalidInput`, and otherwise stops; the five peer-gone kinds become `Closed`; `OutOfMemory` and `WriteZero` become `Io(kind)` |
| ConnError.FromWs | server/src/connection/error.rs:77-88 | a WebSocket I/O error converts exactly as the I/O error beneath it |
| ConnError.WsEffect | server/src/connection/error.rs:80-86 | closed sockets stop the session; `Capacity` is `RequestTooLarge` (through the corrected status conversion); `WriteBufferFull` is `ServerError` with a reason; anything else is `BadRequest` with a reason; apart from I/O, a WebSocket error stops the session exactly when the socket is closed |
| ConnError.FromWsAsWritten | server/src/connection/error.rs:77-105 | as written, every WebSocket error but `Capacity` converts as `FromWs` says |
| ConnError.CapacityNeverConverted | server/src/connection/error.rs:77-105 | as written, converting a `Capacity` error goes through the status conversion and never returns |
| ConnError.EffectOf | server/src/connection/mod.rs:116-132 | the loop stops on `Closed` and on an I/O kind, skips `Ignored` and `Continue`, and answers a status kind with that status |
| ConnError.KindText | server/src/connection/error.rs:26-38 | `Closed`, `Ignored` and `Continue` display their fixed texts; an I/O kind shows "I/O error: " and then the kind's text; `ServerError` shows "Internal error (this is a bug!)"; any other status shows "Request failed \| status: " and then the status text |
| ConnError.KindTextLead | server/src/connection/error.rs:26-38 | every kind's text has at least two characters, and the first two tell the variants apart |
| ConnError.KindTextInjective | server/src/connection/error.rs:26-38 | two kinds with the same text are the same kind, whenever the I/O kinds and the statuses display distinct texts |
| ConnError.Text | server/src/connection/error.rs:107-117 | the display starts with the kind's text and is longer exactly when a reason is present |
| ConnError.TextReason | server/src/connection/error.rs:107-117 | after the kind's text come `" \| reason: "` and then the reason, so the reason can be read back |
| Table.ToUnix | protocol/src/table.rs:23-36 | none writes none; an instant before the epoch fails; otherwise the result is the whole seconds, rounded down |
| Table.FromUnix | protocol/src/table.rs:12-21 | none reads as none; s seconds read as a whole-second instant at or after the epoch |
| Table.ToUnixFromUnix | protocol/src/table.rs:12-36 | reading back what was written gives the instant exactly when it is a whole second at or after the epoch |
| Table.FromUnixToUnix | protocol/src/table.rs:12-36 | every written seconds value is written again unchanged after reading |
| Table.EncodeValue | protocol/src/table.rs:57-64 | a table value serialises exactly when its expiry does, and keeps its value |
| Table.DecodeValue | protocol/src/table.rs:57-64 | deserialising keeps the value, and the presence of an expiry |
| Table.ValueRoundTrip | protocol/src/table.rs:57-64 | a value with a whole-second expiry survives the round trip, and every wire value does |
| Base64.Sym | protocol/src/lib.rs:32 | every sextet has an ASCII symbol that is not the pad, and decoding the symbol gives the sextet back |
| Base64.SymIndex | protocol/src/lib.rs:18 | every symbol the decoder accepts is the symbol of its sextet |
| Base64.Encode | protocol/src/lib.rs:32 | the padded encoding has `4 * ceil(n / 3)` characters |
| Base64.Decode | protocol/src/lib.rs:18 | an accepted text has a length divisible by four, and at most three bytes per four characters |
| Base64.DecodeEncode | protocol/src/lib.rs:18 | decoding an encoding gives the bytes back |
| Base64.EncodeDecode | protocol/src/lib.rs:18 | every text the decoder accepts is the encoding of what it decodes to, so padding and trailing bits are canonical |
| Base64.EncodeAscii | protocol/src/lib.rs:32 | the encoding is ASCII |
| PingPayload.ToB64 | protocol/src/lib.rs:25-33 | encoding succeeds exactly for at most 125 bytes, and the text decodes back to the payload |
| PingPayload.FromB64AsWritten | protocol/src/lib.rs:8-23 | as written, decoding succeeds exactly for a valid text of at most 18 bytes, and the payload then has at most 12 bytes |
| PingPayload.FromB64 | protocol/src/lib.rs:8-23 | corrected, with the length limit at 168: decoding succeeds exactly for a valid text that decodes to at most 125 bytes, and re-encoding gives the text back |
| PingPayload.DecodedLength | protocol/src/lib.rs:13-21 | a valid text of at most `limit` characters decodes to at most `3 * floor(limit / 4)` bytes, so the 125-byte check after the 18-byte limit never fires |
| PingPayload.LongTextRejected | protocol/src/lib.rs:13-16 | a text longer than 168 bytes is never a valid payload of at most 125 bytes |
| PingPayload.PayloadTextLength | protocol/src/lib.rs:29-32 | the text of a payload of at most 125 bytes has at most 168 bytes |
| PingPayload.RoundTripAsWritten | protocol/src/lib.rs:8-33 | as written, a payload survives `to_b64` then `from_b64` exactly when it has at most 12 bytes |
| PingPayload.ThirteenBytesRejected | protocol/src/lib.rs:13-16 | a 13-byte payload encodes, but its text is rejected as too large |
| PingPayload.RoundTrip | protocol/src/lib.rs:8-33 | corrected: every payload of at most 125 bytes comes back, and every accepted text re-encodes to itself |
| Frame.Le32 | server/src/connection/tcp.rs:30 | `to_le_bytes` gives four bytes |
| Frame.FromLe32 | server/src/connection/tcp.rs:40 | a little-endian u32 is below 2^32 |
| Frame.Le32RoundTrip | server/src/connection/tcp.rs:30-40 | the little-endian encoding and decoding of a u32 are inverse, both ways |
| Frame.Send | server/src/connection/tcp.rs:23-36 | a serialiser error is `ServerError` with its text; a body over the limit is `ResponseTooLarge` (through the corrected status conversion); a write error becomes the connection error of that I/O error; a frame written is `5 + len` bytes: the body length as a little-endian u32, compression byte 0, then the body |
| Frame.ReadU32 | server/src/connection/tcp.rs:40 | reading a u32 succeeds exactly with four bytes left; otherwise it is the early-EOF error |
| Frame.Recv | server/src/connection/tcp.rs:39-55 | fewer than four bytes is the EOF error; a declared length over the limit is `RequestTooLarge` (through the corrected status conversion) with only the four length bytes consumed; after every EOF error the stream has been read to its end |
| Frame.SendAsWritten | server/src/connection/tcp.rs:23-27 | as written, `send` behaves as `Frame.Send` except for a body over the limit |
| Frame.OversizedResponseNeverSent | server/src/connection/tcp.rs:25-27 | as written, `send` of a body over the limit never returns |
| Frame.RecvAsWritten | server/src/connection/tcp.rs:39-43 | as written, `recv` behaves as `Frame.Recv` except for a length prefix over the limit |
| Frame.OversizedRequestNeverAnswered | server/src/connection/tcp.rs:40-43 | as written, `recv` of a frame whose length prefix is over the limit never returns, so the request is never answered |
| Frame.Deserialised | server/src/connection/tcp.rs:48 | a deserialiser failure is `BadRequest` carrying its text; a success passes through |
| Frame.RecvUncompressed | server/src/connection/tcp.rs:45-48 | with compression byte 0, exactly the next `len` bytes are deserialised and the rest is left unread |
| Frame.RecvBadMode | server/src/connection/tcp.rs:49-50 | a non-zero compression byte with other than one bit set is `BadRequest` "Too many compression modes selected", and nothing after it is read |
| Frame.RecvCompressed | server/src/connection/tcp.rs:49-53 | a single-bit compression byte selects its mode, and the decompressor gets the bytes after the second length with both lengths; its error is `BadRequest` with its text, and its output is deserialised with the rest left unread |
| Frame.RecvCompressedShort | server/src/connection/tcp.rs:49-51 | a compressed frame cut off before its second length is the early-EOF error, with the stream read to its end |
| Frame.RecvNoModeByte | server/src/connection/tcp.rs:40-45 | a stream that ends after an acceptable length prefix, before the compression byte, is the EOF error, with nothing left |
| Frame.RecvUncompressedShort | server/src/connection/tcp.rs:45-47 | an uncompressed frame whose body is shorter than its length prefix is the EOF error, with the stream read to its end |
| Frame.SendRecv | server/src/connection/tcp.rs:23-48 | when the deserialiser undoes the serialiser, `recv` on a frame `send` wrote gives the message back and leaves the following bytes unread |
| Dispatcher.ExpiryOf | server/src/connection/mod.rs:251 | a lifetime gives the expiry `now + lifetime` seconds; no lifetime gives no expiry |
| Dispatcher.BuildTable | server/src/connection/mod.rs:166-178 | the new table has exactly the keys sent, each value with its expiry from `now`, and is empty without contents |
| Dispatcher.Dispatch | server/src/connection/mod.rs:135-263 | the flag becomes set exactly on good credentials and is never cleared; a request that names no table leaves the database alone; only a successful `Insert` gets no reply; a failure changes nothing, except that a `Get` of an expired key drops it |
| Dispatcher.Handle | server/src/connection/mod.rs:135-263 | unauthenticated, anything but `Ping`/`Auth` is `Unauthorized` and changes nothing; the flag becomes set exactly on good credentials and is never cleared; there is no reply exactly for a successful `Insert` |
| Dispatcher.OnlyTargetChanges | server/src/connection/mod.rs:135-263 | a request changes no table except the one it names |
| Dispatcher.AuthReply | server/src/connection/mod.rs:141-151 | `Auth` is OK exactly for the configured username and password, `Unauthorized` otherwise, and never touches the database |
| Dispatcher.InsertTableEffect | server/src/connection/mod.rs:164-184 | an absent table is created from the contents and answered OK; an existing one is `AlreadyExists` with nothing changed |
| Dispatcher.GetEffect | server/src/connection/mod.rs:218-236 | `Get` gives `NoSuchTable`, then `NoSuchKey`; an expiry at or before `now` removes the key and answers `KeyExpired`; otherwise the stored value, nothing changed |
| Dispatcher.InsertEffect | server/src/connection/mod.rs:246-259 | `Insert` gives `NoSuchTable`; an occupied key is `AlreadyExists` and keeps the old value; a vacant key is filled with no reply |
| Dispatcher.DeleteAlwaysOk | server/src/connection/mod.rs:197-244 | `Delete` and `DeleteTable` answer OK whether or not the target existed, and afterwards it is gone |
| Dispatcher.ListingsExact | server/src/connection/mod.rs:153-216 | `ListTables` names exactly the tables, and `List` exactly the keys of the table |
| Dispatcher.InsertThenGet | server/src/connection/mod.rs:218-259 | an inserted value is returned as stored until its expiry, and at or after it is reported expired and dropped |
| Dispatcher.ExpiredGetTwice | server/src/connection/mod.rs:220-232 | an expired key answers `KeyExpired` once, and `NoSuchKey` after that |
| Dispatcher.Step | server/src/connection/mod.rs:113-133 | a receive error changes nothing; one whose effect is a status is answered with exactly that status, any other sends nothing; the loop goes on after it exactly when it is skipped, or when it is answered and the send succeeds; a request gets `Handle`'s reply and state, and the loop goes on exactly when there is no reply or it was sent |
| Dispatcher.Run | server/src/connection/mod.rs:113-264 | no more replies are delivered than passes run, and receive errors alone never change the state |
| Dispatcher.RunKeepsAuth | server/src/connection/mod.rs:111-151 | once authenticated, a session stays authenticated |
| Dispatcher.RunWithoutCredentials | server/src/connection/mod.rs:135-262 | a session that never presents the credentials never changes the state |
| ServerActions.Auth | server/src/actions.rs:9-23 | authenticated exactly when both strings equal the configured ones; success is "Authenticated"; failure is the error "Incorrect username or password" |
| ServerActions.AuthFailureUniform | server/src/actions.rs:12-17 | every failed attempt gets the same result, whichever string was wrong |
| AuthSession.Fatal | server/src/connection.rs:26-34 | `fatal()` holds exactly for `MalformedRequest(true)` |
| AuthSession.Display | server/src/connection.rs:36-50 | a connection error shows its message after "Connection error: "; a malformed request shows " (response failed!)" after its text exactly when its flag is set |
| AuthSession.WrapMalformedAsWritten | server/src/connection.rs:76-91 | as written, the flag is set exactly when the error reply was delivered |
| AuthSession.WrapMalformedInverted | server/src/connection.rs:81-82 | as written, a delivered reply makes the error fatal and displays it as failed, and a failed reply is not fatal |
| AuthSession.WrapMalformed | server/src/connection.rs:76-91 | corrected: the flag is set exactly when the reply failed |
| AuthSession.WrapMalformedFatal | server/src/connection.rs:81-82 | corrected: a malformed request ends the session, and is displayed as failed, exactly when its reply failed |
| AuthSession.TrimStart | server/src/connection.rs:130 | `trim_start` removes exactly the leading white space |
| AuthSession.TrimEnd | server/src/connection.rs:130 | `trim_end` removes exactly the trailing white space |
| AuthSession.Trim | server/src/connection.rs:130 | `trim` never lengthens the text |
| AuthSession.TrimSlice | server/src/connection.rs:130 | `trim` gives a slice of the text that starts right after the leading white space |
| AuthSession.TrimRemovesWhite | server/src/connection.rs:130 | everything `trim` removes, before and after the slice it keeps, is white space |
| AuthSession.TrimEnds | server/src/connection.rs:130 | the trimmed text neither starts nor ends with white space |
| AuthSession.TrimKeepsLast | server/src/connection.rs:130 | a text that ends in a non-white-space character still ends in it after `trim` |
| AuthSession.TrimStartKeepsLast | server/src/connection.rs:130 | `trim_start` of a text that ends in a character that is not white space still ends in it |
| AuthSession.Buffer | server/src/connection.rs:117-121 | the buffer is `max_body_size` bytes: the bytes read, then zeros |
| AuthSession.Recv | server/src/connection.rs:76-131 | as written: an empty read is `ConnectionClosed`; a read error is `ConnectionError` with that error; a reply is sent exactly for a malformed request; a non-empty buffer that decodes and parses is returned as the request the parser makes of the trimmed text of the whole buffer, with no reply; a malformed request is fatal exactly when its error reply was delivered |
| AuthSession.RecvCorrected | server/src/connection.rs:76-131 | corrected: the same, except that a malformed request is fatal exactly when its error reply failed |
| AuthSession.RecvPass | server/src/connection.rs:76-131 | one pass's `recv`, as written, meets every promise of `AuthSession.Recv` |
| AuthSession.MalformedDeliveredEndsSession | server/src/connection.rs:76-212 | as written, a session whose first buffer does not decode delivers "Malformed request" and ends with an early return, whatever follows; corrected, the loop goes on |
| AuthSession.ParserSeesPadding | server/src/connection.rs:117-130 | unless the read fills the buffer, the trimmed text the parser gets still ends in a NUL |
| AuthSession.Step | server/src/connection.rs:183-209 | a receive error sends nothing; `ConnectionClosed` alone breaks the loop, a fatal error returns and any other loops; a request other than `Auth` panics; an `Auth` before authentication sends the credential check's response and takes its flag, one after it is answered "Already authenticated"; a failed send returns; the flag is never cleared |
| AuthSession.RunWithoutCredentials | server/src/connection.rs:183-209 | a session in which no request `recv` returns is an `Auth` with the configured credentials never becomes authenticated |
| AuthSession.Run | server/src/connection.rs:76-212 | each pass is a `recv` and then the loop body, and the replies include the "Malformed request" reply `recv` sends; a pass delivers at most one reply; a session whose reads all fail or read nothing sends nothing and leaves the flag as it was |
| AuthSession.RunKeepsAuth | server/src/connection.rs:181-210 | once authenticated, a session stays authenticated |
| AuthSession.DisconnectOnlyOnClose | server/src/connection.rs:184-212 | `disconnect()` is reached only after a read that gave no bytes, the one `recv` reports as `ConnectionClosed` |
| AuthSession.AuthTwice | server/src/connection.rs:192-206 | a second `Auth` after a successful one is answered "Already authenticated", whatever it carries; both requests come through `recv`, which sends nothing for them |
| AuthSession.ParsedPass | server/src/connection.rs:116-131 | a non-empty read whose buffer decodes and parses gives exactly that request, and `recv` sends nothing |
| DateTime.ClockOf | src/datetime.rs:13-16 | hours < 24, minutes < 60, seconds < 60, and days, hours, minutes and seconds recompose the epoch seconds |
| DateTime.DaysPerMonth | src/datetime.rs:22-39 | twelve months of 28 to 31 days; February has 29 exactly in Gregorian leap years |
| DateTime.YearLength | src/datetime.rs:22-39 | the month table sums to 366 in a leap year and 365 otherwise |
| DateTime.MonthLoop | src/datetime.rs:40-46 | the loop stops in a month at a day that month has, and months skipped plus the day equal the day of the year |
| DateTime.CalendarOf | src/datetime.rs:13-46 | year = 1970 + days / 365 with no leap-day correction; 1 <= month <= 12; 1 <= day <= that month's length; the date and the clock recompose the input |
| DateTime.CalendarDrift | src/datetime.rs:18-21 | midnight of 1 January 2000 is shown as 8 January 2000 |
| DateTime.Padded | src/datetime.rs:49-50 | `{:0w}` gives digits that read back as the number: as many as the number needs, or `w` when that is more |
| DateTime.New | src/datetime.rs:9-52 | a clock before the epoch panics with "Time went backwards"; otherwise the time is `HH:MM:SS` with the calendar's hours, minutes and seconds, and before the year 10000 the date is `DD/MM/YYYY` with its day, month and year |
| DateTime.Joined | src/datetime.rs:49-50 | two numbers below 100 and a third, joined by a separator, sit at fixed places and read back |
| DateTime.FormatReadsBack | src/datetime.rs:49-50 | before the year 10000, the stamp is `DD/MM/YYYY` and `HH:MM:SS`, and each field reads back as the number it shows |
| ArgParser.ParseFrom | src/arg_parser.rs:15-25 | the loop succeeds exactly when every argument is `--verbose`, at most once in all; an error is the repeat message or names an argument that is not the flag |
| ArgParser.New | src/arg_parser.rs:9-28 | after skipping the program name, parsing succeeds exactly for no arguments or a single `--verbose`, and `verbose` is set exactly in the second case |
| ArgParser.FirstUnknownReported | src/arg_parser.rs:23 | an argument that is not the flag, with no repeated flag before it, is named in the error |
| ArgParser.RepeatReported | src/arg_parser.rs:18-19 | a second `--verbose` is the error "--verbose was used more than once", whatever follows it |
| GlobalCell.New | server/src/util.rs:31-33 | a new global reads as empty |
| GlobalCell.Set | server/src/util.rs:41-43 | `set` succeeds exactly on an empty cell and then reads back the value; otherwise the `unwrap` panics |
| GlobalCell.Deref | server/src/util.rs:46-55 | `deref` gives the value of a set cell, and is fatal with "Global deref failed" on an empty one |
| GlobalCell.SetOnce | server/src/util.rs:31-55 | a fresh global once set reads back the value through `get` and `deref`, and a second `set` panics; `deref` of a fresh one is fatal |
| GlobalCell.WrapFatal | server/src/util.rs:12-22 | `wrap_fatal!` gives the value of an `Ok` and is fatal with the formatted error otherwise |
| LegacyResponse.ErrorResponse | src/response.rs:8-14 | an error response has the flag set, the message, and no data |
| LegacyResponse.OkResponse | src/response.rs:16-25 | an OK response has the flag clear and passes message and data through |
| LegacyResponse.ToBytes | src/response.rs:27-43 | the output has `2 + \|msg\| + \|data\|` bytes, the flag byte first, and a zero after the message |
| LegacyResponse.SplitToBytes | src/response.rs:27-43 | when the message holds no NUL, the first zero after the flag separates message and data, so all three are recovered |
| LegacyResponse.NulInMessageTruncates | src/response.rs:30-35 | a message holding a NUL reads back only up to the NUL |
| LegacyActions.Auth | src/actions.rs:8-32 | a missing field gives "Missing username or password"; a mismatch gives "Incorrect username or password"; authenticated exactly when both fields are present and equal to the configured ones, with "Authenticated" |
| LegacyActions.AuthOnTheWire | src/actions.rs:8-32 | on the wire, the first byte is 0 exactly for a success, and the message follows it intact |

## Left out

- Concurrency is not modelled: the goroutines and the unsynchronised shared
  slice of `main.go`, the atomic connection counters, and the accept loops.
  Each model is one sequential session or one handler call over an explicit
  store.
- Persistence is not modelled: `saveToDisk`/`loadFromDisk`, `store.json` and
  the JSON encoding.
- The Go `GET` reply and the HTTP bodies are modelled as the value they carry,
  not as rendered text. The `json.Marshal` error branches are not modelled.
  A string always marshals. `getAllKeys` also marshals each entry's
  `time.Time` TTL, which fails for a year outside 0–9999. Every stored TTL
  lies within 2^63 ns (about 292 years) of the clock when it was created
  (see `TeaStore.Expiry`), so with a present-day clock that marshal cannot
  fail either.
- The compression codecs (brotli, zstd, lz4 and the rest) are the parameter
  `Inflate`. `read_to_bytes` takes both lengths in `tcp.rs` but only the
  uncompressed length in `mod.rs`; the parameter receives both.
- The MessagePack serialiser, the request parser and the UTF-8 decoder are
  parameters, and a round trip through them is a `requires`.
- An I/O error in the middle of a read is not modelled. A frame read ends only
  when the stream runs out, which is the `UnexpectedEof` error.
- `PrimitiveValue::Float` is kept as its bit pattern, with no arithmetic.
  `Int`/`Uint` are unbounded integers, since nothing computes on them.
- `SystemTime + Duration` overflow is not modelled. Rust expiries are exact
  integer sums.
- Go `time.Time.Add` is modelled as exact addition of nanoseconds. Only the
  int64 product `Duration(ttl) * Second` wraps.
- ConnError.FromStatus: the source's body converts the status into an `Error`
  again, which resolves to the same function and never returns. The model
  gives the conversion through `ErrorKind` that is evidently meant; the
  as-written conversion is `ConnError.FromStatusAsWritten` (see Findings).
- Frame.Send: a body over the limit is stated as `ResponseTooLarge` through
  the corrected conversion. As written, that `send` never returns
  (`Frame.OversizedResponseNeverSent`).
- Frame.Recv: a length prefix over the limit is stated as `RequestTooLarge`
  through the corrected conversion, and `Dispatcher.Step` answers it. As
  written, that `recv` never returns (`Frame.OversizedRequestNeverAnswered`).
- ConnError.WsEffect: `Capacity` is stated as `RequestTooLarge` through the
  corrected conversion. As written, that conversion never returns
  (`ConnError.CapacityNeverConverted`).
- The recursion of the as-written status conversion is followed to a given
  depth. Whether it overflows the stack or loops for ever is not modelled;
  either way it does not return.
- The WebSocket transports (`websocket.rs`, the WebSocket half of
  `connection.rs`), TLS, logging and configuration loading are not modelled.
- The display texts of an I/O kind and of a status are parameters of
  `ConnError.KindText`.
- Dispatcher: table names and keys come in the database's iteration order,
  which is unspecified. They are modelled as sets.
- Dispatcher: each request is handled at one instant `now`. The source reads
  the clock separately for each inserted value.
- `Response::success` and the request payload of the first generation are not
  part of the source modelled here. A success is taken as an OK response with
  the message and no data.
- DateTime: the year is 1970 plus whole 365-day periods, as in the code, so
  dates drift by the leap days elapsed (see `DateTime.CalendarDrift`).
  DateTime.FormatReadsBack is stated for years below 10000 only, because
  `{:04}` of a longer year is wider.
- TeaStore.Sweep: the whole pass is judged at one instant `now`. The code
  reads the clock again for every element (`main.go:306`), so an entry whose
  TTL passes during the pass is judged later than modelled.
- Go strings are byte strings. `strings.Fields` reads an invalid UTF-8 byte as
  U+FFFD, which is not white space. The model's strings are sequences of
  Unicode scalar values, so a line holding invalid UTF-8 cannot be expressed.
- The Go TCP session's `fields[i]` index out of range is a panic that ends
  the process. It is modelled as the outcome `Panicked`, with no replies and
  the store unchanged.

## Findings

| source | as written | input that shows it | evidently intended | confidence | as-written member | corrected member |
|---|---|---|---|---|---|---|
| main.go:305-309 | after splicing out `store[i]` the loop still does `i++`, so the entry that slid into position i is not examined in that pass | two adjacent expired entries where the first is examined (for instance the whole store is two expired entries): one pass leaves the second | every expired entry goes in one pass | not executed | TeaStore.SweepSkipsAfterSplice | TeaStore.SweepAll |
| server/src/compression/mod.rs:29-36 | each test is `value & bit == 1`, which only the lowest bit can meet | the byte 0b10 (Zstd) gives the empty set | a mode is included when its bit is set | not executed | Compression.TcpSetAsWrittenDropsZstd | Compression.TcpSet |
| protocol/src/lib.rs:13-16 | texts longer than 18 bytes are rejected before decoding | a 13-byte payload: `to_b64` gives 20 characters, which `from_b64` rejects | the limit is 168, the length of the text of a 125-byte payload | not executed | PingPayload.ThirteenBytesRejected | PingPayload.FromB64 |
| server/src/connection/error.rs:100-105 | `From<Status> for Error` is `s.into()`, which resolves to the same conversion, so it calls itself and never returns; `send`, `recv` and the WebSocket conversion use it for `ResponseTooLarge`, `RequestTooLarge` and `Capacity` | a frame whose length prefix is over `max_message_size`: `recv` never returns and the request is never answered | the status becomes the error of that status kind with no reason, and the loop answers it with the status | not executed | Frame.OversizedRequestNeverAnswered | ConnError.FromStatus |
| server/src/connection.rs:81-82 | `send` returns true on failure, but its result is named `responded` and `MalformedRequest(!responded)` stores the negation in the "response failed?" flag | a malformed request whose error reply is delivered becomes fatal and ends the session | the flag is set exactly when the reply failed | not executed | AuthSession.MalformedDeliveredEndsSession | AuthSession.RecvCorrected |

=== FILE: arg_parser.dfy ===
/** The command line of the first server generation (src/arg_parser.rs):
    the only argument it knows is `--verbose`, at most once. */
module ArgParser {
  import opened Common

  const VerboseFlag: string := "--verbose"
  const RepeatedVerbose: string := "--verbose was used more than once"
  const UnknownPrefix: string := "unknown argument: "

  datatype Args = Args(verbose: bool)

  /** The loop over the arguments after the program name, with the flag
      seen so far. */
  function ParseFrom(args: seq<string>, verbose: bool): (r: Result<bool, string>)
    ensures r.Ok? <==>
      (forall i :: 0 <= i < |args| ==> args[i] == VerboseFlag) && |args| + (if verbose then 1 else 0) <= 1
    ensures r.Ok? ==> r.value == (verbose || |args| == 1)
    ensures r.Err? ==>
      r.error == RepeatedVerbose ||
      exists i :: 0 <= i < |args| && args[i] != VerboseFlag && r.error == UnknownPrefix + args[i]
    decreases |args|
  {
    if |args| == 0 then Ok(verbose)
    else if args[0] == VerboseFlag then
      if verbose then Err(RepeatedVerbose)
      else
        var r := ParseFrom(args[1..], true);
        assert forall i :: 0 <= i < |args[1..]| ==> args[1..][i] == args[i + 1];
        r
    else Err(UnknownPrefix + args[0])
  }

  /** `ArgParser::new` over the whole argument list, the program name
      first. */
  function New(argv: seq<string>): (r: Result<Args, string>)
    ensures r.Ok? <==> |argv| <= 1 || (|argv| == 2 && argv[1] == VerboseFlag)
    ensures r.Ok? ==> (r.value.verbose <==> |argv| == 2)
  {
    var args := if |argv| == 0 then [] else argv[1..];
    match ParseFrom(args, false)
    case Ok(v) => Ok(Args(v))
    case Err(e) => Err(e)
  }

  /** The error names the first argument that is not the flag, unless a
      second flag comes before it. */
  lemma {:induction false} FirstUnknownReported(args: seq<string>, k: nat)
    requires k < |args| && args[k] != VerboseFlag
    requires forall i :: 0 <= i < k ==> args[i] == VerboseFlag
    requires k <= 1
    ensures ParseFrom(args, false) == Err(UnknownPrefix + args[k])
  {
    if k == 1 {
      assert args[1..][0] == args[1];
    }
  }

  /** A repeated flag is reported as such, whatever follows it. */
  lemma RepeatReported(args: seq<string>)
    requires |args| >= 2 && args[0] == VerboseFlag && args[1] == VerboseFlag
    ensures ParseFrom(args, false) == Err(RepeatedVerbose)
  {
    assert args[1..][0] == VerboseFlag;
  }
}

=== FILE: auth_session.dfy ===
/** The earlier, auth-only connection handler of the server
    (server/src/connection.rs): receive errors and their display, the raw
    TCP receive path that parses one buffer per read, and the loop that only
    knows `Auth`.

    The read, the UTF-8 decoding of the buffer and the request parser are
    code outside this model and are parameters, as is whether each reply
    could be sent. */
module AuthSession {
  import opened Common
  import opened ConnError
  import opened ServerActions

  /** The requests of this protocol generation. Only `Auth` is handled; the
      other requests are distinguished by their key alone, since the loop
      never looks inside them. */
  datatype Request =
    | Auth(username: string, password: string)
    | Get(key: string)
    | Set(key: string)
    | Delete(key: string)

  /** `ReceiveError`. The flag of `MalformedRequest` means "the response
      failed". */
  datatype ReceiveError =
    | ConnectionClosed
    | ConnectionError(error: IoError)
    | MalformedRequest(failed: bool)

  /** `ReceiveError::fatal`. */
  function Fatal(e: ReceiveError): (r: bool)
    ensures r <==> e == MalformedRequest(true)
  {
    match e
    case MalformedRequest(failed) => failed
    case _ => false
  }

  const ClosedText: string := "Connection closed"
  const ConnectionErrorText: string := "Connection error: "
  const MalformedText: string := "Malformed request from client"
  const FailedSuffix: string := " (response failed!)"

  /** `Display for ReceiveError`; an I/O error displays its message. */
  function Display(e: ReceiveError): (t: string)
    ensures e.ConnectionError? ==> ConnectionErrorText <= t && t[|ConnectionErrorText|..] == e.error.message
    ensures e.MalformedRequest? ==> MalformedText <= t
    ensures e.MalformedRequest? ==> (|t| > |MalformedText| <==> e.failed)
    ensures e.MalformedRequest? && e.failed ==> t[|MalformedText|..] == FailedSuffix
  {
    match e
    case ConnectionClosed => ClosedText
    case ConnectionError(io) => ConnectionErrorText + io.message
    case MalformedRequest(failed) => if failed then MalformedText + FailedSuffix else MalformedText
  }

  /** The reply sent for a request that cannot be decoded or parsed. */
  const MalformedReply: Reply := ErrorReply("Malformed request")

  /** `wrap_malformed_req` as written: `send` reports `true` when it FAILED,
      but the result is named `responded` and its negation is stored in the
      "response failed?" flag. */
  function WrapMalformedAsWritten(sendFailed: bool): (e: ReceiveError)
    ensures e.MalformedRequest? && (e.failed <==> !sendFailed)
  {
    var responded := sendFailed;
    MalformedRequest(!responded)
  }

  /** As written, a malformed request whose error reply WAS delivered is
      fatal and is displayed as a failed response, and one whose reply failed
      is neither. */
  lemma WrapMalformedInverted()
    ensures Fatal(WrapMalformedAsWritten(false)) && !Fatal(WrapMalformedAsWritten(true))
    ensures Display(WrapMalformedAsWritten(false)) == MalformedText + FailedSuffix
  {
  }

  /** `wrap_malformed_req` with the flag meaning what its declaration says. */
  function WrapMalformed(sendFailed: bool): (e: ReceiveError)
    ensures e.MalformedRequest? && (e.failed <==> sendFailed)
  {
    MalformedRequest(sendFailed)
  }

  /** With the flag stored as declared, a malformed request ends the session
      exactly when its error reply could not be sent. */
  lemma WrapMalformedFatal(sendFailed: bool)
    ensures Fatal(WrapMalformed(sendFailed)) <==> sendFailed
    ensures Display(WrapMalformed(sendFailed)) == MalformedText + FailedSuffix <==> sendFailed
  {
  }

  /** Every character of `s[lo..hi]` is white space. */
  predicate WhiteBetween(s: string, lo: int, hi: int)
  {
    forall j :: 0 <= lo <= j < hi <= |s| ==> IsWhiteSpace(s[j])
  }

  /** `str::trim_start`. */
  function TrimStart(s: string): (r: string)
    ensures |r| <= |s| && r == s[|s| - |r|..]
    ensures WhiteBetween(s, 0, |s| - |r|)
    ensures |r| > 0 ==> !IsWhiteSpace(r[0])
  {
    if |s| > 0 && IsWhiteSpace(s[0]) then TrimStart(s[1..]) else s
  }

  /** `str::trim_end`. */
  function TrimEnd(s: string): (r: string)
    ensures |r| <= |s| && r == s[..|r|]
    ensures WhiteBetween(s, |r|, |s|)
    ensures |r| > 0 ==> !IsWhiteSpace(r[|r| - 1])
  {
    if |s| > 0 && IsWhiteSpace(s[|s| - 1]) then TrimEnd(s[..|s| - 1]) else s
  }

  /** `str::trim`. */
  function Trim(s: string): (r: string)
    ensures |r| <= |s|
  {
    TrimEnd(TrimStart(s))
  }

  /** `trim` gives a slice of the text, starting after the leading white
      space. */
  lemma TrimSlice(s: string)
    ensures var r, i := Trim(s), |s| - |TrimStart(s)|; i <= |s| && r <= s[i..]
  {
    assert TrimEnd(TrimStart(s)) <= TrimStart(s);
  }

  /** What `trim` removes is white space: everything before the slice and
      everything after it. */
  lemma TrimRemovesWhite(s: string)
    ensures var r, i := Trim(s), |s| - |TrimStart(s)|;
      i + |r| <= |s| && WhiteBetween(s, 0, i) && WhiteBetween(s, i + |r|, |s|)
  {
    TrimEndInside(s, TrimStart(s), |s| - |TrimStart(s)|);
  }

  /** `trim` leaves a text that neither starts nor ends with white space. */
  lemma TrimEnds(s: string)
    ensures var r := Trim(s); |r| > 0 ==> !IsWhiteSpace(r[0]) && !IsWhiteSpace(r[|r| - 1])
  {
    if |Trim(s)| > 0 {
      assert Trim(s)[0] == TrimStart(s)[0];
    }
  }

  /** Trimming the end of a suffix `s[i..]` leaves a slice of `s` followed
      by white space up to the end of `s`. */
  lemma TrimEndInside(s: string, a: string, i: nat)
    requires i <= |s| && a == s[i..]
    ensures var b := TrimEnd(a);
      i + |b| <= |s| && b == s[i..i + |b|] && WhiteBetween(s, i + |b|, |s|)
  {
    var b := TrimEnd(a);
    assert b == a[..|b|];
    forall j | i + |b| <= j < |s| ensures IsWhiteSpace(s[j]) {
      assert s[j] == a[j - i];
      assert WhiteBetween(a, |b|, |a|);
    }
  }

  /** Trimming keeps the middle of the text: a string that ends in a
      character that is not white space still ends in it afterwards. */
  lemma TrimKeepsLast(s: string)
    requires |s| > 0 && !IsWhiteSpace(s[|s| - 1])
    ensures |Trim(s)| > 0 && Trim(s)[|Trim(s)| - 1] == s[|s| - 1]
  {
    TrimStartKeepsLast(s);
    var a := TrimStart(s);
    assert TrimEnd(a) == a;
  }

  /** `trim_start` of a text that ends in a character that is not white
      space still ends in it. */
  lemma {:induction false} TrimStartKeepsLast(s: string)
    requires |s| > 0 && !IsWhiteSpace(s[|s| - 1])
    ensures |TrimStart(s)| > 0 && TrimStart(s)[|TrimStart(s)| - 1] == s[|s| - 1]
    decreases |s|
  {
    if IsWhiteSpace(s[0]) {
      assert s[1..][|s| - 2] == s[|s| - 1];
      TrimStartKeepsLast(s[1..]);
    }
  }

  /** The buffer `recv` hands to the decoder: `max_body_size` bytes, the
      ones read first and zeros after them. `shrink_to` only lowers the
      capacity, so the unread tail is never cut off. */
  function Buffer(maxBodySize: nat, data: seq<byte>): (b: seq<byte>)
    requires |data| <= maxBodySize
    ensures |b| == maxBodySize && b[..|data|] == data
    ensures forall i :: |data| <= i < |b| ==> b[i] == 0
  {
    data + seq(maxBodySize - |data|, _ => 0)
  }

  /** What the read gave: some bytes (no more than the buffer holds) or an
      I/O error. */
  datatype ReadResult = ReadBytes(data: seq<byte>) | ReadFailed(error: IoError)

  /** What `recv` returns and the reply it sent on the way, if any. */
  datatype Received = Received(result: Result<Request, ReceiveError>, sent: Option<Reply>)

  /** What `recv` promises whatever error `wrap_malformed_req!` builds for
      a malformed request: an empty read is a closed connection, a failed
      read is a connection error carrying it, a buffer that does not decode
      or parse is answered with the error reply and reported as `malformed`,
      and one that decodes and parses is returned as the request the parser
      makes of the trimmed text of the whole buffer, with no reply. */
  predicate Receives(maxBodySize: nat, read: ReadResult, fromUtf8: seq<byte> -> Option<string>,
                     parse: string -> Option<Request>, malformed: ReceiveError, r: Received)
    requires read.ReadBytes? ==> |read.data| <= maxBodySize
  {
    && (read == ReadBytes([]) <==> r.result == Err(ConnectionClosed))
    && (read.ReadFailed? <==> r.result.Err? && r.result.error.ConnectionError?)
    && (read.ReadFailed? ==> r.result == Err(ConnectionError(read.error)))
    && (r.sent.Some? <==> read.ReadBytes? && |read.data| > 0 && r.result.Err?)
    && (r.sent.Some? ==> r.sent.value == MalformedReply && r.result == Err(malformed))
    && (r.result.Ok? ==> read.ReadBytes?)
    && (r.result.Ok? && read.ReadBytes? ==>
          fromUtf8(Buffer(maxBodySize, read.data)).Some? &&
          parse(Trim(fromUtf8(Buffer(maxBodySize, read.data)).value)) == Some(r.result.value))
    && (read.ReadBytes? && |read.data| > 0 && fromUtf8(Buffer(maxBodySize, read.data)).None? ==> r.sent.Some?)
    && (read.ReadBytes? && |read.data| > 0 && fromUtf8(Buffer(maxBodySize, read.data)).Some? &&
        parse(Trim(fromUtf8(Buffer(maxBodySize, read.data)).value)).Some? ==>
          r == Received(Ok(parse(Trim(fromUtf8(Buffer(maxBodySize, read.data)).value)).value), None))
  }

  /** The body of `recv`, with the error for a malformed request given. */
  function RecvWith(maxBodySize: nat, read: ReadResult, fromUtf8: seq<byte> -> Option<string>,
                    parse: string -> Option<Request>, malformed: ReceiveError): Received
    requires read.ReadBytes? ==> |read.data| <= maxBodySize
  {
    match read
    case ReadFailed(e) => Received(Err(ConnectionError(e)), None)
    case ReadBytes(data) =>
      if |data| == 0 then Received(Err(ConnectionClosed), None)
      else
        match fromUtf8(Buffer(maxBodySize, data))
        case None => Received(Err(malformed), Some(MalformedReply))
        case Some(text) =>
          match parse(Trim(text))
          case None => Received(Err(malformed), Some(MalformedReply))
          case Some(req) => Received(Ok(req), None)
  }

  /** `TcpConnection::recv` as written: the malformed-request error carries
      the negation of `send`'s failure result, so it is fatal exactly when
      the error reply was delivered. */
  function Recv(maxBodySize: nat, read: ReadResult, fromUtf8: seq<byte> -> Option<string>,
                parse: string -> Option<Request>, sendFailed: bool): (r: Received)
    requires read.ReadBytes? ==> |read.data| <= maxBodySize
    ensures Receives(maxBodySize, read, fromUtf8, parse, WrapMalformedAsWritten(sendFailed), r)
    ensures r.sent.Some? ==> (Fatal(r.result.error) <==> !sendFailed)
  {
    RecvWith(maxBodySize, read, fromUtf8, parse, WrapMalformedAsWritten(sendFailed))
  }

  /** `recv` with the flag corrected: a malformed request is fatal exactly
      when the error reply could not be sent. */
  function RecvCorrected(maxBodySize: nat, read: ReadResult, fromUtf8: seq<byte> -> Option<string>,
                         parse: string -> Option<Request>, sendFailed: bool): (r: Received)
    requires read.ReadBytes? ==> |read.data| <= maxBodySize
    ensures Receives(maxBodySize, read, fromUtf8, parse, WrapMalformed(sendFailed), r)
    ensures r.sent.Some? ==> (Fatal(r.result.error) <==> sendFailed)
  {
    WrapMalformedFatal(sendFailed);
    RecvWith(maxBodySize, read, fromUtf8, parse, WrapMalformed(sendFailed))
  }

  /** The UTF-8 encoding of a string ends with the encoding of its last
      character. */
  lemma {:induction false} Utf8Last(s: string)
    requires |s| > 0
    ensures Utf8(s) == Utf8(s[..|s| - 1]) + Utf8Char(s[|s| - 1])
  {
    if |s| > 1 {
      Utf8Last(s[1..]);
      assert s[1..][..|s[1..]| - 1] == s[..|s| - 1][1..];
      assert s[1..][|s[1..]| - 1] == s[|s| - 1];
    } else {
      assert s[..0] == [];
    }
  }

  /** Unless a read fills the whole buffer, the text handed to the parser
      still ends in the NUL padding: trimming does not remove it. */
  lemma ParserSeesPadding(maxBodySize: nat, data: seq<byte>, text: string)
    requires |data| < maxBodySize
    requires Utf8(text) == Buffer(maxBodySize, data)
    ensures |Trim(text)| > 0 && Trim(text)[|Trim(text)| - 1] == 0 as char
  {
    var b := Buffer(maxBodySize, data);
    assert b[|b| - 1] == 0;
    Utf8Last(text);
    var last := Utf8Char(text[|text| - 1]);
    assert last[|last| - 1] == b[|b| - 1];
    TrimKeepsLast(text);
  }

  /** What the loop does after one pass. */
  datatype Next = Loop | Break | Return | Panic

  /** The reply sent in one pass, the flag afterwards, and what comes
      next. */
  datatype Turn = Turn(reply: Option<Reply>, authenticated: bool, next: Next)

  /** One pass: what `recv` returned, and whether the reply sent in the
      pass (if any) fails. */
  datatype Event = Event(received: Result<Request, ReceiveError>, sendFailed: bool)

  const AlreadyAuthenticated: string := "Already authenticated"

  /** One pass of `handle_conn`'s loop. A request other than `Auth` reaches
      the `todo!()` arm and panics. */
  function Step(authenticated: bool, cfg: Config, ev: Event): (t: Turn)
    ensures ev.received.Err? ==> t.reply.None? && t.authenticated == authenticated
    ensures ev.received.Ok? && !ev.received.value.Auth? ==> t.next == Panic
    ensures authenticated ==> t.authenticated
    ensures t.next == Break <==> ev.received == Err(ConnectionClosed)
    ensures ev.received.Ok? && ev.received.value.Auth? ==> t.reply.Some? && (t.next == Return <==> ev.sendFailed)
    ensures ev.received.Err? && ev.received.error != ConnectionClosed ==> (t.next == Return <==> Fatal(ev.received.error))
    ensures ev.received.Err? && ev.received.error != ConnectionClosed ==> (t.next == Loop <==> !Fatal(ev.received.error))
    ensures ev.received.Ok? && ev.received.value.Auth? && !authenticated ==>
      var res := ServerActions.Auth(cfg, ev.received.value.username, ev.received.value.password);
      t.reply == Some(res.response) && t.authenticated == res.isAuthenticated
    ensures ev.received.Ok? && ev.received.value.Auth? && authenticated ==>
      t.reply == Some(ErrorReply(AlreadyAuthenticated)) && t.authenticated
  {
    match ev.received
    case Err(e) =>
      if e == ConnectionClosed then Turn(None, authenticated, Break)
      else if Fatal(e) then Turn(None, authenticated, Return)
      else Turn(None, authenticated, Loop)
    case Ok(Auth(u, p)) =>
      if authenticated then
        Turn(Some(ErrorReply(AlreadyAuthenticated)), true, if ev.sendFailed then Return else Loop)
      else
        var res := ServerActions.Auth(cfg, u, p);
        Turn(Some(res.response), res.isAuthenticated, if ev.sendFailed then Return else Loop)
    case Ok(_) => Turn(None, authenticated, Panic)
  }

  /** How the handler ends: by `break` and `disconnect()`, by an early
      `return` that skips `disconnect()`, by a panic, or not yet (the passes
      ran out while it waits for the next request). */
  datatype End = Disconnected | Returned | Panicked | Waiting

  /** The replies delivered, the flag, and how the handler ended. */
  datatype Outcome = Outcome(replies: seq<Reply>, authenticated: bool, end: End)

  function EndOf(next: Next): End
  {
    match next
    case Break => Disconnected
    case Return => Returned
    case Panic => Panicked
    case Loop => Waiting
  }

  /** What `recv` works with for the whole session: the buffer size, the
      UTF-8 decoder and the request parser. */
  datatype Wire = Wire(maxBodySize: nat, fromUtf8: seq<byte> -> Option<string>,
                       parse: string -> Option<Request>)

  /** One pass of the loop: what the read gave, and whether the reply sent
      in the pass (by `recv` or by the loop body; never both) fails. */
  datatype Pass = Pass(read: ReadResult, sendFailed: bool)

  /** A read never gives more bytes than the buffer holds. */
  predicate Fits(w: Wire, p: Pass)
  {
    p.read.ReadBytes? ==> |p.read.data| <= w.maxBodySize
  }

  /** `recv` in one pass, as written. */
  function RecvPass(w: Wire, p: Pass): (r: Received)
    requires Fits(w, p)
    ensures Receives(w.maxBodySize, p.read, w.fromUtf8, w.parse, WrapMalformedAsWritten(p.sendFailed), r)
  {
    Recv(w.maxBodySize, p.read, w.fromUtf8, w.parse, p.sendFailed)
  }

  /** The replies a pass delivers: the one `recv` sends for a malformed
      request, then the one the loop body sends. */
  function Delivered(r: Received, t: Turn, sendFailed: bool): seq<Reply>
  {
    (if r.sent.Some? && !sendFailed then [r.sent.value] else []) +
    (if t.reply.Some? && !sendFailed then [t.reply.value] else [])
  }

  /** `handle_conn` over a sequence of passes, each a `recv` and then the
      loop body. */
  function Run(authenticated: bool, cfg: Config, w: Wire, passes: seq<Pass>): (r: Outcome)
    requires forall i :: 0 <= i < |passes| ==> Fits(w, passes[i])
    ensures |r.replies| <= |passes|
    ensures (forall i :: 0 <= i < |passes| ==> passes[i].read.ReadFailed? || passes[i].read == ReadBytes([])) ==>
      r.replies == [] && r.authenticated == authenticated
    decreases |passes|
  {
    if |passes| == 0 then Outcome([], authenticated, Waiting)
    else
      var rcv := RecvPass(w, passes[0]);
      var t := Step(authenticated, cfg, Event(rcv.result, passes[0].sendFailed));
      var delivered := Delivered(rcv, t, passes[0].sendFailed);
      assert |delivered| <= 1 by {
        if rcv.sent.Some? { assert rcv.result.Err?; }
      }
      if t.next != Loop then Outcome(delivered, t.authenticated, EndOf(t.next))
      else
        var rest := Run(t.authenticated, cfg, w, passes[1..]);
        Outcome(delivered + rest.replies, rest.authenticated, rest.end)
  }

  /** Once authenticated, the session stays authenticated. */
  lemma {:induction false} RunKeepsAuth(authenticated: bool, cfg: Config, w: Wire, passes: seq<Pass>)
    requires forall i :: 0 <= i < |passes| ==> Fits(w, passes[i])
    requires authenticated
    ensures Run(authenticated, cfg, w, passes).authenticated
    decreases |passes|
  {
    if |passes| > 0 {
      var rcv := RecvPass(w, passes[0]);
      var t := Step(authenticated, cfg, Event(rcv.result, passes[0].sendFailed));
      if t.next == Loop {
        RunKeepsAuth(t.authenticated, cfg, w, passes[1..]);
      }
    }
  }

  /** A session in which no request carries the configured credentials
      never becomes authenticated. */
  lemma {:induction false} RunWithoutCredentials(cfg: Config, w: Wire, passes: seq<Pass>)
    requires forall i :: 0 <= i < |passes| ==> Fits(w, passes[i])
    requires forall i :: 0 <= i < |passes| ==>
      RecvPass(w, passes[i]).result != Ok(Auth(cfg.username, cfg.password))
    ensures !Run(false, cfg, w, passes).authenticated
    decreases |passes|
  {
    if |passes| > 0 {
      var rcv := RecvPass(w, passes[0]);
      var t := Step(false, cfg, Event(rcv.result, passes[0].sendFailed));
      assert !t.authenticated;
      if t.next == Loop {
        assert forall i :: 0 <= i < |passes[1..]| ==> passes[1..][i] == passes[i + 1];
        RunWithoutCredentials(cfg, w, passes[1..]);
      }
    }
  }

  /** `disconnect()` runs only after `recv` read nothing, that is, after
      the peer closed the connection. */
  lemma {:induction false} DisconnectOnlyOnClose(authenticated: bool, cfg: Config, w: Wire, passes: seq<Pass>)
    requires forall i :: 0 <= i < |passes| ==> Fits(w, passes[i])
    ensures Run(authenticated, cfg, w, passes).end == Disconnected ==>
      exists i :: 0 <= i < |passes| && passes[i].read == ReadBytes([])
    decreases |passes|
  {
    if |passes| > 0 {
      var rcv := RecvPass(w, passes[0]);
      var t := Step(authenticated, cfg, Event(rcv.result, passes[0].sendFailed));
      if t.next == Loop {
        DisconnectOnlyOnClose(t.authenticated, cfg, w, passes[1..]);
        if Run(authenticated, cfg, w, passes).end == Disconnected {
          var i :| 0 <= i < |passes[1..]| && passes[1..][i].read == ReadBytes([]);
          assert passes[i + 1].read == ReadBytes([]);
        }
      }
    }
  }

  /** As written, a buffer that does not decode is answered "Malformed
      request", and once that reply is delivered the loop returns and the
      session ends; with the flag corrected, the loop waits for the next
      request. */
  lemma MalformedDeliveredEndsSession(authenticated: bool, cfg: Config, w: Wire, data: seq<byte>,
                                      rest: seq<Pass>)
    requires 0 < |data| <= w.maxBodySize && w.fromUtf8(Buffer(w.maxBodySize, data)).None?
    requires forall i :: 0 <= i < |rest| ==> Fits(w, rest[i])
    ensures var passes := [Pass(ReadBytes(data), false)] + rest;
      (forall i :: 0 <= i < |passes| ==> Fits(w, passes[i])) &&
      Run(authenticated, cfg, w, passes) == Outcome([MalformedReply], authenticated, Returned)
    ensures var r := RecvCorrected(w.maxBodySize, ReadBytes(data), w.fromUtf8, w.parse, false);
      r.sent == Some(MalformedReply) && Step(authenticated, cfg, Event(r.result, false)).next == Loop
  {
    var passes := [Pass(ReadBytes(data), false)] + rest;
    assert passes[0] == Pass(ReadBytes(data), false);
    assert forall i :: 1 <= i < |passes| ==> passes[i] == rest[i - 1];
    var rcv := RecvPass(w, passes[0]);
    assert rcv.sent == Some(MalformedReply);
    assert Delivered(rcv, Step(authenticated, cfg, Event(rcv.result, false)), false) == [MalformedReply];
  }

  /** A non-empty read whose buffer decodes and parses gives the request,
      and `recv` sends nothing. */
  lemma ParsedPass(w: Wire, data: seq<byte>, sendFailed: bool, req: Request)
    requires 0 < |data| <= w.maxBodySize && w.fromUtf8(Buffer(w.maxBodySize, data)).Some?
    requires w.parse(Trim(w.fromUtf8(Buffer(w.maxBodySize, data)).value)) == Some(req)
    ensures Fits(w, Pass(ReadBytes(data), sendFailed))
    ensures RecvPass(w, Pass(ReadBytes(data), sendFailed)) == Received(Ok(req), None)
  {
  }

  /** The first pass of a session, then the rest. */
  lemma RunCons(authenticated: bool, cfg: Config, w: Wire, p: Pass, rest: seq<Pass>)
    requires Fits(w, p) && forall i :: 0 <= i < |rest| ==> Fits(w, rest[i])
    ensures forall i :: 0 <= i < |[p] + rest| ==> Fits(w, ([p] + rest)[i])
    ensures var rcv := RecvPass(w, p);
      var t := Step(authenticated, cfg, Event(rcv.result, p.sendFailed));
      Run(authenticated, cfg, w, [p] + rest) ==
        if t.next != Loop then Outcome(Delivered(rcv, t, p.sendFailed), t.authenticated, EndOf(t.next))
        else
          var r := Run(t.authenticated, cfg, w, rest);
          Outcome(Delivered(rcv, t, p.sendFailed) + r.replies, r.authenticated, r.end)
  {
    assert ([p] + rest)[0] == p;
    assert ([p] + rest)[1..] == rest;
  }

  /** A second `Auth` after a successful one is answered "Already
      authenticated", whatever credentials it carries. (`ParsedPass` says
      which reads give such passes.) */
  lemma AuthTwice(cfg: Config, w: Wire, p1: Pass, p2: Pass)
    requires Fits(w, p1) && Fits(w, p2) && !p1.sendFailed && !p2.sendFailed
    requires RecvPass(w, p1).result == Ok(Auth(cfg.username, cfg.password))
    requires RecvPass(w, p2).result.Ok? && RecvPass(w, p2).result.value.Auth?
    ensures forall i :: 0 <= i < |[p1, p2]| ==> Fits(w, [p1, p2][i])
    ensures Run(false, cfg, w, [p1, p2]) ==
      Outcome([SuccessReply(Authenticated), ErrorReply(AlreadyAuthenticated)], true, Waiting)
  {
    var r1, r2 := RecvPass(w, p1), RecvPass(w, p2);
    var t1 := Step(false, cfg, Event(r1.result, false));
    var t2 := Step(true, cfg, Event(r2.result, false));
    assert t1 == Turn(Some(SuccessReply(Authenticated)), true, Loop);
    assert t2 == Turn(Some(ErrorReply(AlreadyAuthenticated)), true, Loop);
    assert Delivered(r1, t1, false) == [SuccessReply(Authenticated)];
    assert Delivered(r2, t2, false) == [ErrorReply(AlreadyAuthenticated)];
    RunCons(true, cfg, w, p2, []);
    assert [p2] + [] == [p2];
    RunCons(false, cfg, w, p1, [p2]);
    assert [p1] + [p2] == [p1, p2];
  }
}

=== FILE: base64.dfy ===
/** Base 64 as in section 4 of RFC 4648: the standard alphabet, padding with
    '=', and the strict decoder of the `base64` crate's `STANDARD` engine,
    which accepts only canonical input (padding required, and the unused
    bits of the last symbol zero). */
module Base64 {
  import opened Common

  type Sextet = x: int | 0 <= x < 64

  /** The symbol of a 6-bit value (Table 1 of section 4 of RFC 4648). */
  function Sym(i: Sextet): (c: char)
    ensures c as int < 0x80 && c != Pad
    ensures Index(c) == Some(i)
  {
    if i < 26 then ('A' as int + i) as char
    else if i < 52 then ('a' as int + (i - 26)) as char
    else if i < 62 then ('0' as int + (i - 52)) as char
    else if i == 62 then '+'
    else '/'
  }

  /** The value of a symbol of the alphabet; `None` for any other
      character, the pad included. */
  function Index(c: char): (r: Option<Sextet>)
    ensures c == Pad ==> r.None?
  {
    if 'A' <= c <= 'Z' then Some(c as int - 'A' as int)
    else if 'a' <= c <= 'z' then Some(c as int - 'a' as int + 26)
    else if '0' <= c <= '9' then Some(c as int - '0' as int + 52)
    else if c == '+' then Some(62)
    else if c == '/' then Some(63)
    else None
  }

  const Pad: char := '='

  /** `Sym` and `Index` are inverse on the alphabet. */
  lemma SymIndex(c: char)
    ensures Index(c).Some? ==> Sym(Index(c).value) == c
  {
  }

  // Splitting bytes into sextets and back. Each quantum of 24 bits is four
  // sextets; the functions below are the bit shuffles of section 4 of
  // RFC 4648.

  function Hi6(a: byte): Sextet { a as int / 4 }
  function Mid6(a: byte, b: byte): Sextet { (a as int % 4) * 16 + b as int / 16 }
  function Mid6b(b: byte, c: byte): Sextet { (b as int % 16) * 4 + c as int / 64 }
  function Lo6(c: byte): Sextet { c as int % 64 }

  function Byte0(v0: Sextet, v1: Sextet): byte { (v0 * 4 + v1 / 16) as byte }
  function Byte1(v1: Sextet, v2: Sextet): byte { ((v1 % 16) * 16 + v2 / 4) as byte }
  function Byte2(v2: Sextet, v3: Sextet): byte { ((v2 % 4) * 64 + v3) as byte }

  /** Re-assembling the sextets of a byte triple gives the triple back. */
  lemma SplitJoin(a: byte, b: byte, c: byte)
    ensures Byte0(Hi6(a), Mid6(a, b)) == a
    ensures Byte1(Mid6(a, b), Mid6b(b, c)) == b
    ensures Byte2(Mid6b(b, c), Lo6(c)) == c
  {
    var x, y, z := a as int, b as int, c as int;
    assert x == (x / 4) * 4 + x % 4;
    assert y == (y / 16) * 16 + y % 16;
    assert z == (z / 64) * 64 + z % 64;
    assert Mid6(a, b) / 16 == x % 4 && Mid6(a, b) % 16 == y / 16;
    assert Mid6b(b, c) / 4 == y % 16 && Mid6b(b, c) % 4 == z / 64;
  }

  /** Splitting the bytes of four sextets gives the sextets back. */
  lemma JoinSplit(v0: Sextet, v1: Sextet, v2: Sextet, v3: Sextet)
    ensures Hi6(Byte0(v0, v1)) == v0
    ensures Mid6(Byte0(v0, v1), Byte1(v1, v2)) == v1
    ensures Mid6b(Byte1(v1, v2), Byte2(v2, v3)) == v2
    ensures Lo6(Byte2(v2, v3)) == v3
  {
    assert v1 == (v1 / 16) * 16 + v1 % 16;
    assert v2 == (v2 / 4) * 4 + v2 % 4;
    assert (v0 * 4 + v1 / 16) / 4 == v0 && (v0 * 4 + v1 / 16) % 4 == v1 / 16;
    assert ((v1 % 16) * 16 + v2 / 4) / 16 == v1 % 16 && ((v1 % 16) * 16 + v2 / 4) % 16 == v2 / 4;
    assert ((v2 % 4) * 64 + v3) / 64 == v2 % 4 && ((v2 % 4) * 64 + v3) % 64 == v3;
  }

  /** The four symbols of a full three-byte group. */
  function Quad3(a: byte, b: byte, c: byte): string
  {
    [Sym(Hi6(a)), Sym(Mid6(a, b)), Sym(Mid6b(b, c)), Sym(Lo6(c))]
  }

  /** The final quantum of one byte: two symbols and two pads. */
  function Quad1(a: byte): string
  {
    [Sym(Hi6(a)), Sym(Mid6(a, 0)), Pad, Pad]
  }

  /** The final quantum of two bytes: three symbols and one pad. */
  function Quad2(a: byte, b: byte): string
  {
    [Sym(Hi6(a)), Sym(Mid6(a, b)), Sym(Mid6b(b, 0)), Pad]
  }

  /** `STANDARD.encode`. */
  function Encode(x: seq<byte>): (s: string)
    ensures |s| == 4 * ((|x| + 2) / 3)
    decreases |x|
  {
    if |x| == 0 then []
    else if |x| == 1 then Quad1(x[0])
    else if |x| == 2 then Quad2(x[0], x[1])
    else
      assert (|x| + 2) / 3 == (|x| - 1) / 3 + 1;
      Quad3(x[0], x[1], x[2]) + Encode(x[3..])
  }

  /** A full quantum of four alphabet symbols. */
  function DecodeQuad(q: string): (r: Option<seq<byte>>)
    requires |q| == 4
    ensures r.Some? ==> |r.value| == 3
  {
    if Index(q[0]).Some? && Index(q[1]).Some? && Index(q[2]).Some? && Index(q[3]).Some? then
      var v0, v1, v2, v3 := Index(q[0]).value, Index(q[1]).value, Index(q[2]).value, Index(q[3]).value;
      Some([Byte0(v0, v1), Byte1(v1, v2), Byte2(v2, v3)])
    else None
  }

  /** The last quantum, which may carry one or two pads; the bits the pads
      leave unused must be zero. */
  function DecodeLast(q: string): (r: Option<seq<byte>>)
    requires |q| == 4
    ensures r.Some? ==> 1 <= |r.value| <= 3
  {
    if q[2] == Pad && q[3] == Pad then
      if Index(q[0]).Some? && Index(q[1]).Some? && Index(q[1]).value % 16 == 0 then
        Some([Byte0(Index(q[0]).value, Index(q[1]).value)])
      else None
    else if q[3] == Pad then
      if Index(q[0]).Some? && Index(q[1]).Some? && Index(q[2]).Some? && Index(q[2]).value % 4 == 0 then
        var v0, v1, v2 := Index(q[0]).value, Index(q[1]).value, Index(q[2]).value;
        Some([Byte0(v0, v1), Byte1(v1, v2)])
      else None
    else DecodeQuad(q)
  }

  /** `STANDARD.decode`: `None` for any input that is not the canonical
      encoding of some bytes. */
  function Decode(s: string): (r: Option<seq<byte>>)
    ensures r.Some? ==> |s| % 4 == 0 && 4 * |r.value| <= 3 * |s|
    decreases |s|
  {
    if |s| == 0 then Some([])
    else if |s| < 4 then None
    else if |s| == 4 then DecodeLast(s)
    else
      var head := DecodeQuad(s[..4]);
      var tail := Decode(s[4..]);
      if head.Some? && tail.Some? then Some(head.value + tail.value) else None
  }

  /** A multiple of `d` leaves no remainder. */
  lemma LowBitsClear(k: int, d: int)
    requires 0 <= k < 16 && (d == 4 || d == 16)
    ensures (k * d) % d == 0
  {
    var m := k * d;
    assert m / d == k;
  }

  lemma DecodeQuad1(a: byte)
    ensures DecodeLast(Quad1(a)) == Some([a])
  {
    var v0, v1 := Hi6(a), Mid6(a, 0);
    assert Byte0(v0, v1) == a by { SplitJoin(a, 0, 0); }
    assert v1 % 16 == 0 by {
      assert v1 == (a as int % 4) * 16;
      LowBitsClear(a as int % 4, 16);
    }
    var q := Quad1(a);
    assert q[0] == Sym(v0) && q[1] == Sym(v1) && q[2] == Pad && q[3] == Pad;
  }

  lemma DecodeQuad2(a: byte, b: byte)
    ensures DecodeLast(Quad2(a, b)) == Some([a, b])
  {
    var v0, v1, v2 := Hi6(a), Mid6(a, b), Mid6b(b, 0);
    assert Byte0(v0, v1) == a && Byte1(v1, v2) == b by { SplitJoin(a, b, 0); }
    assert v2 % 4 == 0 by {
      assert v2 == (b as int % 16) * 4;
      LowBitsClear(b as int % 16, 4);
    }
    var q := Quad2(a, b);
    assert q[0] == Sym(v0) && q[1] == Sym(v1) && q[2] == Sym(v2) && q[3] == Pad;
  }

  lemma DecodeQuad3(a: byte, b: byte, c: byte)
    ensures DecodeQuad(Quad3(a, b, c)) == Some([a, b, c])
    ensures DecodeLast(Quad3(a, b, c)) == Some([a, b, c])
  {
    var v0, v1, v2, v3 := Hi6(a), Mid6(a, b), Mid6b(b, c), Lo6(c);
    var q := Quad3(a, b, c);
    assert q[0] == Sym(v0) && q[1] == Sym(v1) && q[2] == Sym(v2) && q[3] == Sym(v3);
    assert Index(q[0]) == Some(v0) && Index(q[1]) == Some(v1) && Index(q[2]) == Some(v2) && Index(q[3]) == Some(v3);
    assert DecodeQuad(q) == Some([Byte0(v0, v1), Byte1(v1, v2), Byte2(v2, v3)]);
    assert [Byte0(v0, v1), Byte1(v1, v2), Byte2(v2, v3)] == [a, b, c] by { SplitJoin(a, b, c); }
    assert q[2] != Pad && q[3] != Pad;
  }

  /** Decoding an encoding gives the bytes back. */
  lemma {:induction false} DecodeEncode(x: seq<byte>)
    ensures Decode(Encode(x)) == Some(x)
    decreases |x|
  {
    if |x| <= 3 {
      DecodeEncodeShort(x);
    } else {
      var s := Encode(x);
      var q := Quad3(x[0], x[1], x[2]);
      var t := Encode(x[3..]);
      assert s == q + t;
      assert s[..4] == q && s[4..] == t;
      assert DecodeQuad(q) == Some([x[0], x[1], x[2]]) by { DecodeQuad3(x[0], x[1], x[2]); }
      assert Decode(t) == Some(x[3..]) by { DecodeEncode(x[3..]); }
      assert Decode(s) == Some([x[0], x[1], x[2]] + x[3..]);
      assert x == [x[0], x[1], x[2]] + x[3..];
    }
  }

  /** The base cases: a final quantum, padded or not. */
  lemma DecodeEncodeShort(x: seq<byte>)
    requires |x| <= 3
    ensures Decode(Encode(x)) == Some(x)
  {
    if |x| == 1 {
      DecodeEncodeOne(x);
    } else if |x| == 2 {
      DecodeEncodeTwo(x);
    } else if |x| == 3 {
      DecodeEncodeThree(x);
    }
  }

  lemma DecodeEncodeOne(x: seq<byte>)
    requires |x| == 1
    ensures Decode(Encode(x)) == Some(x)
  {
    var q := Quad1(x[0]);
    assert Encode(x) == q;
    DecodeFour(q);
    DecodeQuad1(x[0]);
    assert x == [x[0]];
  }

  lemma DecodeEncodeTwo(x: seq<byte>)
    requires |x| == 2
    ensures Decode(Encode(x)) == Some(x)
  {
    var q := Quad2(x[0], x[1]);
    assert Encode(x) == q;
    DecodeFour(q);
    DecodeQuad2(x[0], x[1]);
    assert x == [x[0], x[1]];
  }

  lemma DecodeEncodeThree(x: seq<byte>)
    requires |x| == 3
    ensures Decode(Encode(x)) == Some(x)
  {
    var q := Quad3(x[0], x[1], x[2]);
    EncodeThree(x);
    DecodeFour(q);
    DecodeQuad3(x[0], x[1], x[2]);
    assert x == [x[0], x[1], x[2]];
  }

  /** A text of one quantum is decoded as the last one. */
  lemma DecodeFour(q: string)
    requires |q| == 4
    ensures Decode(q) == DecodeLast(q)
  {
  }

  lemma EncodeThree(x: seq<byte>)
    requires |x| == 3
    ensures Encode(x) == Quad3(x[0], x[1], x[2])
  {
    assert Encode(x[3..]) == [];
  }

  /** Decoding accepts only canonical encodings: whatever it accepts is
      exactly what encoding the result produces. */
  lemma {:induction false} EncodeDecode(s: string)
    requires Decode(s).Some?
    ensures Encode(Decode(s).value) == s
    decreases |s|
  {
    if |s| == 4 {
      EncodeLast(s);
    } else if |s| > 4 {
      var head := DecodeQuad(s[..4]).value;
      var tail := Decode(s[4..]).value;
      EncodeQuad(s[..4]);
      EncodeDecode(s[4..]);
      var x := head + tail;
      assert x[..3] == head && x[3..] == tail;
      assert s == s[..4] + s[4..];
    }
  }

  lemma EncodeQuad(q: string)
    requires |q| == 4 && DecodeQuad(q).Some?
    ensures var x := DecodeQuad(q).value; Quad3(x[0], x[1], x[2]) == q
  {
    var v0, v1, v2, v3 := Index(q[0]).value, Index(q[1]).value, Index(q[2]).value, Index(q[3]).value;
    JoinSplit(v0, v1, v2, v3);
    SymIndex(q[0]); SymIndex(q[1]); SymIndex(q[2]); SymIndex(q[3]);
  }

  lemma EncodeLast(q: string)
    requires |q| == 4 && DecodeLast(q).Some?
    ensures Encode(DecodeLast(q).value) == q
  {
    if q[2] == Pad && q[3] == Pad {
      EncodeLastTwoPads(q);
    } else if q[3] == Pad {
      EncodeLastOnePad(q);
    } else {
      EncodeQuad(q);
      var x := DecodeLast(q).value;
      assert Encode(x) == Quad3(x[0], x[1], x[2]) + Encode(x[3..]);
    }
  }

  lemma EncodeLastTwoPads(q: string)
    requires |q| == 4 && q[2] == Pad && q[3] == Pad && DecodeLast(q).Some?
    ensures Encode(DecodeLast(q).value) == q
  {
    var v0, v1 := Index(q[0]).value, Index(q[1]).value;
    var b0 := Byte0(v0, v1);
    assert Hi6(b0) == v0 && Mid6(b0, 0) == v1 by {
      JoinSplit(v0, v1, 0, 0);
      assert Byte1(v1, 0) == 0;
    }
    SymIndex(q[0]); SymIndex(q[1]);
    assert Encode([b0]) == Quad1(b0);
  }

  lemma EncodeLastOnePad(q: string)
    requires |q| == 4 && q[2] != Pad && q[3] == Pad && DecodeLast(q).Some?
    ensures Encode(DecodeLast(q).value) == q
  {
    var v0, v1, v2 := Index(q[0]).value, Index(q[1]).value, Index(q[2]).value;
    var b0, b1 := Byte0(v0, v1), Byte1(v1, v2);
    assert Hi6(b0) == v0 && Mid6(b0, b1) == v1 && Mid6b(b1, 0) == v2 by {
      JoinSplit(v0, v1, v2, 0);
      assert Byte2(v2, 0) == 0;
    }
    SymIndex(q[0]); SymIndex(q[1]); SymIndex(q[2]);
    assert Encode([b0, b1]) == Quad2(b0, b1);
  }

  /** Every symbol of an encoding is ASCII. */
  lemma {:induction false} EncodeAscii(x: seq<byte>)
    ensures IsAscii(Encode(x))
    decreases |x|
  {
    if |x| >= 3 {
      EncodeAscii(x[3..]);
      var q := Quad3(x[0], x[1], x[2]);
      assert Encode(x) == q + Encode(x[3..]);
      forall i | 0 <= i < |Encode(x)| ensures Encode(x)[i] as int < 0x80 {
        if i >= 4 {
          assert Encode(x)[i] == Encode(x[3..])[i - 4];
        }
      }
    }
  }
}

=== FILE: common.dfy ===
/** Shared vocabulary for every module of the model: optional values,
    results, bytes, fixed-width integers and the UTF-8 encoding of strings. */
module Common {

  datatype Option<+T> = None | Some(value: T)

  datatype Result<+T, +E> = Ok(value: T) | Err(error: E)

  newtype byte = x: int | 0 <= x < 256

  const TwoTo32: int := 0x1_0000_0000
  const TwoTo63: int := 0x8000_0000_0000_0000
  const TwoTo64: int := 0x1_0000_0000_0000_0000

  /** Nanoseconds per second: both the Go and the Rust clocks are modelled as
      integer nanoseconds since the Unix epoch. */
  const NanosPerSecond: int := 1_000_000_000

  /** A Rust `as u32` cast: keeps the low 32 bits. */
  function TruncU32(n: nat): (r: nat)
    ensures r < TwoTo32
    ensures n < TwoTo32 ==> r == n
    ensures (n - r) % TwoTo32 == 0
  {
    n % TwoTo32
  }

  /** Two's-complement wrap-around of a 64-bit signed integer (Go `int64`). */
  function WrapInt64(x: int): (r: int)
    ensures -TwoTo63 <= r < TwoTo63
    ensures -TwoTo63 <= x < TwoTo63 ==> r == x
    ensures (x - r) % TwoTo64 == 0
  {
    (x + TwoTo63) % TwoTo64 - TwoTo63
  }

  /** The Unicode White_Space property: Go's `unicode.IsSpace` and Rust's
      `char::is_whitespace` both test exactly this set. NUL is not in it. */
  predicate IsWhiteSpace(c: char)
  {
    c == ' ' || c == '\t' || c == '\n' || c == '\r' || c == 11 as char || c == 12 as char
    || c == 0x85 as char || c == 0xA0 as char || c == 0x1680 as char
    || (0x2000 as char <= c <= 0x200A as char)
    || c == 0x2028 as char || c == 0x2029 as char || c == 0x202F as char
    || c == 0x205F as char || c == 0x3000 as char
  }

  /** The UTF-8 encoding of one Unicode scalar value. */
  function Utf8Char(c: char): (r: seq<byte>)
    ensures 1 <= |r| <= 4
    ensures |r| == 1 <==> c as int < 0x80
    ensures |r| == 1 ==> r[0] as int == c as int
    ensures forall i :: 0 <= i < |r| ==> (r[i] == 0 <==> c == 0 as char)
  {
    var n := c as int;
    if n < 0x80 then [n as byte]
    else if n < 0x800 then [(0xC0 + n / 64) as byte, (0x80 + n % 64) as byte]
    else if n < 0x1_0000 then
      [(0xE0 + n / 4096) as byte, (0x80 + (n / 64) % 64) as byte, (0x80 + n % 64) as byte]
    else
      [(0xF0 + n / 262144) as byte, (0x80 + (n / 4096) % 64) as byte,
       (0x80 + (n / 64) % 64) as byte, (0x80 + n % 64) as byte]
  }

  /** The UTF-8 encoding of a string (Rust `str::as_bytes`). */
  function Utf8(s: string): (r: seq<byte>)
    ensures |r| >= |s|
    ensures |s| == 0 <==> |r| == 0
  {
    if |s| == 0 then [] else Utf8Char(s[0]) + Utf8(s[1..])
  }

  predicate IsAscii(s: string)
  {
    forall i :: 0 <= i < |s| ==> s[i] as int < 0x80
  }

  /** An ASCII string encodes to one byte per character. */
  lemma {:induction false} Utf8Ascii(s: string)
    requires IsAscii(s)
    ensures |Utf8(s)| == |s|
    ensures forall i :: 0 <= i < |s| ==> Utf8(s)[i] as int == s[i] as int
  {
    if |s| > 0 {
      assert IsAscii(s[1..]) by {
        forall i | 0 <= i < |s[1..]| ensures s[1..][i] as int < 0x80 {
          assert s[1..][i] == s[i + 1];
        }
      }
      Utf8Ascii(s[1..]);
    }
  }

  /** The encoding holds a zero byte exactly when the string holds NUL:
      multi-byte sequences never contain a zero byte. */
  lemma {:induction false} Utf8ZeroFree(s: string)
    ensures (0 as byte in Utf8(s)) <==> (0 as char in s)
  {
    if |s| > 0 {
      Utf8ZeroFree(s[1..]);
      var head := Utf8Char(s[0]);
      assert Utf8(s) == head + Utf8(s[1..]);
      assert s == [s[0]] + s[1..];
      if s[0] == 0 as char {
        assert head[0] == 0;
      } else {
        assert 0 as byte !in head;
      }
    }
  }

  // Decimal digits

  predicate IsDigit(c: char)
  {
    '0' <= c <= '9'
  }

  predicate AllDigits(s: string)
  {
    forall i :: 0 <= i < |s| ==> IsDigit(s[i])
  }

  /** The value of a string of decimal digits. */
  function DigitsValue(s: string): (v: nat)
    requires AllDigits(s)
  {
    if |s| == 0 then 0
    else DigitsValue(s[..|s| - 1]) * 10 + (s[|s| - 1] as int - '0' as int)
  }

  /** Decimal digits of a natural number, most significant first. */
  function NatDigits(n: nat): (s: string)
    ensures |s| > 0 && AllDigits(s)
    ensures DigitsValue(s) == n
  {
    if n < 10 then [('0' as int + n) as char]
    else
      var p := NatDigits(n / 10);
      var s := p + [('0' as int + n % 10) as char];
      assert s[..|s| - 1] == p;
      s
  }
}

=== FILE: compression.dfy ===
/** The compression-mode byte of the binary frame (server/src/compression/mod.rs):
    eight modes, one bit each, a decoder from the byte, and the bit-set reader
    `tcpset`. */
module Compression {
  import opened Common

  datatype Mode = Lz4 | Zstd | Snappy | Brotli | Deflate | Zlib | Gzip | Lzw

  /** The error text of a byte that names no single mode. */
  const TooManyModes: string := "Too many compression modes selected"

  /** A byte with exactly one bit set. */
  predicate SingleBit(v: bv8)
  {
    v != 0 && v & (v - 1) == 0
  }

  /** The `#[repr(u8)]` discriminant: a distinct power of two per mode, and
      the decoder maps it back to the mode. */
  function Discriminant(m: Mode): (b: bv8)
    ensures SingleBit(b)
    ensures TryFrom(b) == Ok(m)
  {
    match m
    case Lz4 => 0x01
    case Zstd => 0x02
    case Snappy => 0x04
    case Brotli => 0x08
    case Deflate => 0x10
    case Zlib => 0x20
    case Gzip => 0x40
    case Lzw => 0x80
  }

  /** `Mode::try_from(u8)`: only the eight single-bit bytes name a mode. */
  function TryFrom(v: bv8): (r: Result<Mode, string>)
    ensures r.Ok? <==> SingleBit(v)
    ensures r.Err? ==> r.error == TooManyModes
  {
    if v == 0x01 then Ok(Lz4)
    else if v == 0x02 then Ok(Zstd)
    else if v == 0x04 then Ok(Snappy)
    else if v == 0x08 then Ok(Brotli)
    else if v == 0x10 then Ok(Deflate)
    else if v == 0x20 then Ok(Zlib)
    else if v == 0x40 then Ok(Gzip)
    else if v == 0x80 then Ok(Lzw)
    else Err(TooManyModes)
  }

  /** Different modes have different discriminants, and a byte the decoder
      accepts is the discriminant of the mode it returns. */
  lemma DiscriminantInjective(m1: Mode, m2: Mode, v: bv8)
    ensures Discriminant(m1) == Discriminant(m2) ==> m1 == m2
    ensures TryFrom(v).Ok? ==> Discriminant(TryFrom(v).value) == v
  {
    if Discriminant(m1) == Discriminant(m2) {
      assert TryFrom(Discriminant(m1)) == Ok(m1);
    }
  }

  /** The bits of `v` that a `tcpset` test looks at: `value & bit`. */
  function Masked(v: bv8, m: Mode): bv8
  {
    v & Discriminant(m)
  }

  /** `Mode::tcpset` as written: each test reads `(value & bit) == 1`, which
      can hold only for the lowest bit. */
  function TcpSetAsWritten(v: bv8): (r: set<Mode>)
    ensures Lz4 in r <==> v & 1 == 1
    ensures forall m :: m in r ==> m == Lz4
  {
    (if Masked(v, Lz4) == 1 then {Lz4} else {}) +
    (if Masked(v, Zstd) == 1 then {Zstd} else {}) +
    (if Masked(v, Snappy) == 1 then {Snappy} else {}) +
    (if Masked(v, Brotli) == 1 then {Brotli} else {}) +
    (if Masked(v, Deflate) == 1 then {Deflate} else {}) +
    (if Masked(v, Zlib) == 1 then {Zlib} else {}) +
    (if Masked(v, Gzip) == 1 then {Gzip} else {}) +
    (if Masked(v, Lzw) == 1 then {Lzw} else {})
  }

  const AllModes: set<Mode> := {Lz4, Zstd, Snappy, Brotli, Deflate, Zlib, Gzip, Lzw}

  lemma AllModesComplete(m: Mode)
    ensures m in AllModes
  {
    match m
    case Lz4 =>
    case Zstd =>
    case Snappy =>
    case Brotli =>
    case Deflate =>
    case Zlib =>
    case Gzip =>
    case Lzw =>
  }

  /** `Mode::tcpset` with each test read as "the mode's bit is set". */
  function TcpSet(v: bv8): (r: set<Mode>)
    ensures forall m :: m in r <==> Masked(v, m) != 0
  {
    forall m ensures m in AllModes { AllModesComplete(m); }
    set m | m in AllModes && Masked(v, m) != 0
  }

  /** The single-bit byte of every mode is read back as that mode alone by
      the corrected reader, and as nothing at all by the reader as written
      unless the mode is `Lz4`. */
  lemma TcpSetOfDiscriminant(m: Mode)
    ensures TcpSet(Discriminant(m)) == {m}
    ensures m != Lz4 ==> TcpSetAsWritten(Discriminant(m)) == {}
  {
    assert forall n :: n in TcpSet(Discriminant(m)) <==> n == m;
    if m != Lz4 {
      assert Lz4 !in TcpSetAsWritten(Discriminant(m));
    }
  }

  /** The byte 0b10 selects `Zstd`, which the reader as written drops. */
  lemma TcpSetAsWrittenDropsZstd()
    ensures TcpSetAsWritten(0x02) == {}
    ensures TcpSet(0x02) == {Zstd}
  {
    TcpSetOfDiscriminant(Zstd);
  }
}

=== FILE: conn_error.dfy ===
/** Connection errors of the binary server (server/src/connection/error.rs):
    the error kinds, the conversions from I/O and WebSocket errors, and the
    text they display. The loop's reaction to each kind
    (server/src/connection/mod.rs) is here too, since every conversion is
    only interesting through it. */
module ConnError {
  import opened Common

  /** The response statuses the binary server uses. */
  datatype Status =
    | Success | BadRequest | ServerError | RequestTooLarge | ResponseTooLarge
    | Unauthorized | AlreadyExists | NoSuchTable | NoSuchKey | KeyExpired

  /** `std::io::ErrorKind`: the kinds the conversion names, and the rest. */
  datatype IoKind =
    | ConnectionRefused | ConnectionReset | ConnectionAborted | BrokenPipe | UnexpectedEof
    | OutOfMemory | WriteZero | InvalidInput | Interrupted | TimedOut
    | OtherIo(name: string)

  /** An I/O error: its kind and the text it displays. */
  datatype IoError = IoError(kind: IoKind, message: string)

  /** `tungstenite::Error`, with the text of the variants that get boxed as
      a reason. */
  datatype WsError =
    | WsConnectionClosed | WsAlreadyClosed | WsIo(io: IoError)
    | WsCapacity(message: string) | WsWriteBufferFull(message: string)
    | WsOther(message: string)

  datatype ErrorKind = Closed | Ignored | Continue | Io(io: IoKind) | StatusKind(status: Status)

  /** `Error { kind, reason }`: the reason is kept as the text it displays. */
  datatype Error = Error(kind: ErrorKind, reason: Option<string>)

  /** `From<ErrorKind> for Error`: no reason. */
  function FromKind(k: ErrorKind): (e: Error)
    ensures e.kind == k && e.reason == None
  {
    Error(k, None)
  }

  /** `Error::new`: always a reason. */
  function NewError(k: ErrorKind, reason: string): (e: Error)
    ensures e.kind == k && e.reason == Some(reason)
  {
    Error(k, Some(reason))
  }

  /** `From<Status> for Error` as written: its body converts the status
      into an `Error` again, which resolves to this same conversion. The
      call is unfolded at most `depth` times; the result is the error the
      conversion gives, if any nesting depth ever gives one. */
  function FromStatusAsWritten(s: Status, depth: nat): Option<Error>
  {
    if depth == 0 then None else FromStatusAsWritten(s, depth - 1)
  }

  /** However deeply the self-call is followed, the conversion as written
      never produces an error: it does not return. */
  lemma {:induction false} FromStatusNeverReturns(s: Status, depth: nat)
    ensures FromStatusAsWritten(s, depth).None?
  {
    if depth > 0 {
      FromStatusNeverReturns(s, depth - 1);
    }
  }

  /** `From<Status> for Error` corrected: the conversion through `ErrorKind`
      that was evidently meant. The error carries the status and no reason,
      so the loop answers it with that status. */
  function FromStatus(s: Status): (e: Error)
    ensures e == FromKind(StatusKind(s))
    ensures e.kind.StatusKind? && e.kind.status == s && e.reason.None?
    ensures EffectOf(e.kind) == Reply(s)
  {
    FromKind(StatusKind(s))
  }

  /** The I/O kinds that mean the peer has gone. */
  predicate PeerGone(k: IoKind)
  {
    k == ConnectionRefused || k == ConnectionReset || k == ConnectionAborted ||
    k == BrokenPipe || k == UnexpectedEof
  }

  /** `From<IoError> for Error`. */
  function FromIo(e: IoError): (r: Error)
    ensures r.reason.Some? <==> e.kind == InvalidInput
    ensures r.reason.Some? ==> r.reason.value == e.message
  {
    match e.kind
    case ConnectionRefused => FromKind(Closed)
    case ConnectionReset => FromKind(Closed)
    case ConnectionAborted => FromKind(Closed)
    case BrokenPipe => FromKind(Closed)
    case UnexpectedEof => FromKind(Closed)
    case OutOfMemory => FromKind(Io(e.kind))
    case WriteZero => FromKind(Io(e.kind))
    case InvalidInput => NewError(StatusKind(ServerError), e.message)
    case Interrupted => FromKind(Continue)
    case TimedOut => FromKind(Continue)
    case OtherIo(_) => FromKind(Closed)
  }

  /** `From<WsError> for Error`. */
  function FromWs(e: WsError): (r: Error)
    ensures e.WsIo? ==> r == FromIo(e.io)
  {
    match e
    case WsConnectionClosed => FromKind(Closed)
    case WsAlreadyClosed => FromKind(Closed)
    case WsIo(io) => FromIo(io)
    case WsCapacity(_) => FromStatus(RequestTooLarge)
    case WsWriteBufferFull(m) => NewError(StatusKind(ServerError), m)
    case WsOther(m) => NewError(StatusKind(BadRequest), m)
  }

  /** `From<WsError> for Error` as written, with the `Capacity` arm going
      through the as-written status conversion; `None` is a conversion that
      has not returned within `depth` nested calls. */
  function FromWsAsWritten(e: WsError, depth: nat): (r: Option<Error>)
    ensures !e.WsCapacity? ==> r == Some(FromWs(e))
  {
    if e.WsCapacity? then FromStatusAsWritten(RequestTooLarge, depth) else Some(FromWs(e))
  }

  /** As written, converting a `Capacity` error never returns. */
  lemma CapacityNeverConverted(e: WsError, depth: nat)
    requires e.WsCapacity?
    ensures FromWsAsWritten(e, depth).None?
  {
    FromStatusNeverReturns(RequestTooLarge, depth);
  }

  /** What the request loop of `handle_conn` does with a receive error. */
  datatype Effect = Stop | Skip | Reply(status: Status)

  function EffectOf(k: ErrorKind): (r: Effect)
    ensures r == Stop <==> k == Closed || k.Io?
    ensures r == Skip <==> k == Ignored || k == Continue
    ensures r.Reply? <==> k.StatusKind?
    ensures r.Reply? ==> r.status == k.status
  {
    match k
    case Closed => Stop
    case Ignored => Skip
    case Continue => Skip
    case Io(_) => Stop
    case StatusKind(s) => Reply(s)
  }

  /** An I/O error ends the session, except that an interrupted or timed-out
      operation is retried and invalid input is answered as a server error. */
  lemma IoEffect(e: IoError)
    ensures EffectOf(FromIo(e).kind) == Skip <==> e.kind == Interrupted || e.kind == TimedOut
    ensures EffectOf(FromIo(e).kind) == Reply(ServerError) <==> e.kind == InvalidInput
    ensures EffectOf(FromIo(e).kind) == Stop <==>
      !(e.kind in {Interrupted, TimedOut, InvalidInput})
    ensures PeerGone(e.kind) ==> FromIo(e) == Error(Closed, None)
    ensures e.kind == OutOfMemory || e.kind == WriteZero ==> FromIo(e) == Error(Io(e.kind), None)
  {
  }

  /** A WebSocket error stops the session exactly when the socket is closed
      or the I/O error beneath it would; the rest are answered. */
  lemma WsEffect(e: WsError)
    ensures e.WsConnectionClosed? || e.WsAlreadyClosed? ==> EffectOf(FromWs(e).kind) == Stop
    ensures e.WsCapacity? ==> FromWs(e) == Error(StatusKind(RequestTooLarge), None)
    ensures e.WsWriteBufferFull? ==> FromWs(e) == Error(StatusKind(ServerError), Some(e.message))
    ensures e.WsOther? ==> FromWs(e) == Error(StatusKind(BadRequest), Some(e.message))
    ensures !e.WsIo? ==> (EffectOf(FromWs(e).kind) == Stop <==> e.WsConnectionClosed? || e.WsAlreadyClosed?)
  {
  }

  /** The text of `Ignored`, "Ignoring unimplemented connection protocol spec",
      written in two pieces so that the verifier can index into it. */
  const IgnoredText: string := "Ignoring unimplemented " + "connection protocol spec"

  /** `Display for ErrorKind`. The texts of an I/O kind and of a status come
      from code outside this model and are parameters. */
  function KindText(k: ErrorKind, ioText: IoKind -> string, statusText: Status -> string): (t: string)
    ensures |t| > 0
    ensures k.Io? ==> t == "I/O error: " + ioText(k.io)
    ensures k == StatusKind(ServerError) ==> t == "Internal error (this is a bug!)"
    ensures k.StatusKind? && k.status != ServerError ==> t == "Request failed | status: " + statusText(k.status)
    ensures k == Closed ==> t == "Connection closed"
    ensures k == Ignored ==> t == IgnoredText
    ensures k == Continue ==> t == "Non-fatal error occurred, continuing..."
  {
    match k
    case Closed => "Connection closed"
    case Ignored => IgnoredText
    case Continue => "Non-fatal error occurred, continuing..."
    case Io(e) => "I/O error: " + ioText(e)
    case StatusKind(s) =>
      if s == ServerError then "Internal error (this is a bug!)"
      else "Request failed | status: " + statusText(s)
  }

  /** Distinct kinds display distinct texts, as long as the I/O kinds and
      the statuses do: the fixed prefixes already tell the variants apart. */
  lemma KindTextInjective(k1: ErrorKind, k2: ErrorKind, ioText: IoKind -> string, statusText: Status -> string)
    requires forall a, b :: ioText(a) == ioText(b) ==> a == b
    requires forall a, b :: statusText(a) == statusText(b) ==> a == b
    ensures KindText(k1, ioText, statusText) == KindText(k2, ioText, statusText) ==> k1 == k2
  {
    var t1, t2 := KindText(k1, ioText, statusText), KindText(k2, ioText, statusText);
    if t1 == t2 {
      KindTextLead(k1, ioText, statusText);
      KindTextLead(k2, ioText, statusText);
      if k1.Io? && k2.Io? {
        assert ioText(k1.io) == t1[11..] == t2[11..] == ioText(k2.io);
      } else if k1.StatusKind? && k2.StatusKind? && k1.status != ServerError && k2.status != ServerError {
        assert statusText(k1.status) == t1[25..] == t2[25..] == statusText(k2.status);
      }
    }
  }

  /** The first two characters of each kind's text. */
  function Lead(k: ErrorKind): (char, char)
  {
    match k
    case Closed => ('C', 'o')
    case Ignored => ('I', 'g')
    case Continue => ('N', 'o')
    case Io(_) => ('I', '/')
    case StatusKind(s) => if s == ServerError then ('I', 'n') else ('R', 'e')
  }

  lemma KindTextLead(k: ErrorKind, ioText: IoKind -> string, statusText: Status -> string)
    ensures var t := KindText(k, ioText, statusText);
      |t| >= 2 && (t[0], t[1]) == Lead(k)
  {
    var t := KindText(k, ioText, statusText);
    match k
    case Io(e) =>
      assert t == "I/O error: " + ioText(e);
      assert t[0] == 'I' && t[1] == '/';
    case StatusKind(s) =>
      if s != ServerError {
        assert t == "Request failed | status: " + statusText(s);
        assert t[0] == 'R' && t[1] == 'e';
      } else {
        assert t == "Internal error (this is a bug!)";
      }
    case Closed => assert t == "Connection closed";
    case Ignored =>
      assert t == IgnoredText;
    case Continue => assert t == "Non-fatal error occurred, continuing...";
  }

  const ReasonSeparator: string := " | reason: "

  /** `Display for Error`: the kind, then the reason after a separator when
      there is one. */
  function Text(e: Error, ioText: IoKind -> string, statusText: Status -> string): (t: string)
    ensures KindText(e.kind, ioText, statusText) <= t
    ensures e.reason.None? <==> |t| == |KindText(e.kind, ioText, statusText)|
  {
    var kind := KindText(e.kind, ioText, statusText);
    match e.reason
    case None => kind
    case Some(r) => kind + ReasonSeparator + r
  }

  /** The reason can be read back from the text: it is what follows the
      kind's text and the separator. */
  lemma TextReason(e: Error, ioText: IoKind -> string, statusText: Status -> string)
    requires e.reason.Some?
    ensures var k := |KindText(e.kind, ioText, statusText)|;
      var t := Text(e, ioText, statusText);
      |t| == k + |ReasonSeparator| + |e.reason.value| &&
      t[k..k + |ReasonSeparator|] == ReasonSeparator &&
      t[k + |ReasonSeparator|..] == e.reason.value
  {
    var kind := KindText(e.kind, ioText, statusText);
    assert Text(e, ioText, statusText) == kind + ReasonSeparator + e.reason.value;
    assert (kind + ReasonSeparator + e.reason.value)[|kind|..|kind| + |ReasonSeparator|] == ReasonSeparator;
    assert (kind + ReasonSeparator + e.reason.value)[|kind| + |ReasonSeparator|..] == e.reason.value;
  }
}

=== FILE: datetime.dfy ===
/** The log timestamp of the first server generation (src/datetime.rs): a
    date and a time of day computed from the seconds since the Unix epoch
    with plain arithmetic. The year is taken as 1970 plus the whole 365-day
    periods elapsed, with no correction for leap days; only the month table
    of that year knows about February 29. */
module DateTime {
  import opened Common

  const SecondsPerDay: nat := 24 * 60 * 60

  /** The message of the `expect` on a clock before the epoch (a panic). */
  const BackwardsText: string := "Time went backwards"

  /** A time of day after a number of whole days. */
  datatype Clock = Clock(days: nat, hours: nat, minutes: nat, seconds: nat)

  /** The days, hours, minutes and seconds of `secs` seconds, as the source
      computes each one from the total. */
  function ClockOf(secs: nat): (c: Clock)
    ensures c.hours < 24 && c.minutes < 60 && c.seconds < 60
    ensures c.days * SecondsPerDay + c.hours * 3600 + c.minutes * 60 + c.seconds == secs
  {
    var c := Clock(secs / SecondsPerDay, (secs / 3600) % 24, (secs / 60) % 60, secs % 60);
    ClockRecomposes(secs);
    c
  }

  lemma ClockRecomposes(secs: nat)
    ensures (secs / SecondsPerDay) * SecondsPerDay + ((secs / 3600) % 24) * 3600 + ((secs / 60) % 60) * 60 + secs % 60
            == secs
  {
    var m := secs / 60;
    var h := secs / 3600;
    var d := secs / SecondsPerDay;
    assert secs == m * 60 + secs % 60;
    assert h == m / 60 by {
      assert secs == (m / 60) * 3600 + (m % 60) * 60 + secs % 60;
    }
    assert m == h * 60 + m % 60;
    assert d == h / 24 by {
      assert secs == (h / 24) * SecondsPerDay + (h % 24) * 3600 + (m % 60) * 60 + secs % 60;
    }
    assert h == d * 24 + h % 24;
  }

  /** The Gregorian leap-year rule. */
  predicate IsLeap(year: nat)
  {
    year % 4 == 0 && (year % 100 != 0 || year % 400 == 0)
  }

  /** The lengths of the twelve months of `year`. */
  function DaysPerMonth(year: nat): (dims: seq<nat>)
    ensures |dims| == 12
    ensures dims[1] == 29 <==> IsLeap(year)
    ensures forall i :: 0 <= i < 12 ==> 28 <= dims[i] <= 31
  {
    [31, if IsLeap(year) then 29 else 28, 31, 30, 31, 30, 31, 31, 30, 31, 30, 31]
  }

  /** The sum of a sequence of day counts. */
  function Sum(s: seq<nat>): nat
  {
    if |s| == 0 then 0 else Sum(s[..|s| - 1]) + s[|s| - 1]
  }

  /** A year's months hold 365 days, and 366 in a leap year. */
  lemma YearLength(year: nat)
    ensures Sum(DaysPerMonth(year)) == if IsLeap(year) then 366 else 365
  {
    var d := DaysPerMonth(year);
    assert Sum(d[..1]) == 31 by { assert d[..1][..0] == []; }
    assert Sum(d[..2]) == 31 + d[1] by { assert d[..2][..1] == d[..1]; }
    assert Sum(d[..3]) == 62 + d[1] by { assert d[..3][..2] == d[..2]; }
    assert Sum(d[..4]) == 92 + d[1] by { assert d[..4][..3] == d[..3]; }
    assert Sum(d[..5]) == 123 + d[1] by { assert d[..5][..4] == d[..4]; }
    assert Sum(d[..6]) == 153 + d[1] by { assert d[..6][..5] == d[..5]; }
    assert Sum(d[..7]) == 184 + d[1] by { assert d[..7][..6] == d[..6]; }
    assert Sum(d[..8]) == 215 + d[1] by { assert d[..8][..7] == d[..7]; }
    assert Sum(d[..9]) == 245 + d[1] by { assert d[..9][..8] == d[..8]; }
    assert Sum(d[..10]) == 276 + d[1] by { assert d[..10][..9] == d[..9]; }
    assert Sum(d[..11]) == 306 + d[1] by { assert d[..11][..10] == d[..10]; }
    assert d[..12] == d;
  }

  /** The month loop from month index `i` with `day` days still to place:
      skip whole months while the day lies beyond the current one. The
      months skipped plus the day reached add up to the days to place, and
      a day within the months given ends inside one of them, at a day that
      month has. */
  function MonthLoop(day: nat, dims: seq<nat>, i: nat): (r: (nat, nat))
    requires day >= 1 && i <= |dims|
    ensures i <= r.0 <= |dims| && r.1 >= 1
    ensures r.0 < |dims| ==> r.1 <= dims[r.0]
    ensures Sum(dims[..r.0]) + r.1 == Sum(dims[..i]) + day
    ensures Sum(dims[..i]) + day <= Sum(dims) ==> r.0 < |dims|
    decreases |dims| - i
  {
    if i == |dims| || day <= dims[i] then
      assert dims[..|dims|] == dims;
      (i, day)
    else
      assert dims[..i + 1][..i] == dims[..i];
      var r := MonthLoop(day - dims[i], dims, i + 1);
      assert dims[..|dims|] == dims;
      r
  }

  /** The numbers a timestamp shows. */
  datatype Calendar = Calendar(year: nat, month: nat, day: nat, hours: nat, minutes: nat, seconds: nat)

  /** The arithmetic of `DateTime::new` on the seconds since the epoch. */
  function CalendarOf(secs: nat): (c: Calendar)
    ensures c.year == 1970 + (secs / SecondsPerDay) / 365
    ensures 1 <= c.month <= 12 && 1 <= c.day <= DaysPerMonth(c.year)[c.month - 1]
    ensures Sum(DaysPerMonth(c.year)[..c.month - 1]) + c.day == (secs / SecondsPerDay) % 365 + 1
    ensures c.hours < 24 && c.minutes < 60 && c.seconds < 60
    ensures (secs / SecondsPerDay) * SecondsPerDay + c.hours * 3600 + c.minutes * 60 + c.seconds == secs
  {
    var clock := ClockOf(secs);
    var year := 1970 + clock.days / 365;
    var dims := DaysPerMonth(year);
    YearLength(year);
    assert dims[..0] == [];
    var (index, day) := MonthLoop(clock.days % 365 + 1, dims, 0);
    Calendar(year, index + 1, day, clock.hours, clock.minutes, clock.seconds)
  }

  /** The date ignores leap days in the year count: midnight of 1 January
      2000 (946684800 seconds) is shown as 8 January 2000. */
  lemma CalendarDrift()
    ensures CalendarOf(946684800) == Calendar(2000, 1, 8, 0, 0, 0)
  {
    var secs := 946684800;
    assert ClockOf(secs) == Clock(10957, 0, 0, 0) by {
      assert secs / SecondsPerDay == 10957;
      assert secs / 3600 == 262968 && 262968 % 24 == 0;
      assert secs / 60 == 15778080 && 15778080 % 60 == 0;
      assert secs % 60 == 0;
    }
    assert 10957 / 365 == 30 && 10957 % 365 == 7;
    var dims := DaysPerMonth(2000);
    assert dims[0] == 31;
    assert MonthLoop(8, dims, 0) == (0, 8);
  }

  /** `{:0w}`: the decimal digits of `n`, padded with zeros on the left to
      at least `width` characters. */
  function Padded(n: nat, width: nat): (s: string)
    ensures AllDigits(s) && DigitsValue(s) == n
    ensures |s| == if |NatDigits(n)| >= width then |NatDigits(n)| else width
  {
    var d := NatDigits(n);
    if |d| >= width then d
    else
      var zeros := seq(width - |d|, _ => '0');
      LeadingZeros(zeros, d);
      zeros + d
  }

  /** Zeros in front of digits do not change their value. */
  lemma {:induction false} LeadingZeros(zeros: string, d: string)
    requires forall i :: 0 <= i < |zeros| ==> zeros[i] == '0'
    requires AllDigits(d)
    ensures AllDigits(zeros + d) && DigitsValue(zeros + d) == DigitsValue(d)
    decreases |d|
  {
    var s := zeros + d;
    assert AllDigits(s) by {
      forall i | 0 <= i < |s| ensures IsDigit(s[i]) {
        if i < |zeros| { assert s[i] == zeros[i]; } else { assert s[i] == d[i - |zeros|]; }
      }
    }
    if |d| == 0 {
      assert s == zeros;
      AllZeros(zeros);
    } else {
      var d' := d[..|d| - 1];
      assert s[..|s| - 1] == zeros + d';
      LeadingZeros(zeros, d');
    }
  }

  lemma {:induction false} AllZeros(zeros: string)
    requires forall i :: 0 <= i < |zeros| ==> zeros[i] == '0'
    ensures AllDigits(zeros) && DigitsValue(zeros) == 0
  {
    if |zeros| > 0 {
      AllZeros(zeros[..|zeros| - 1]);
    }
  }

  /** The two strings `DateTime::new` produces. */
  datatype Stamp = Stamp(date: string, time: string)

  /** `format!("{:02}/{:02}/{:04}", ..)` and `format!("{:02}:{:02}:{:02}", ..)`. */
  function Format(c: Calendar): Stamp
  {
    Stamp(Fields(c.day, c.month, c.year, 4, '/'), Fields(c.hours, c.minutes, c.seconds, 2, ':'))
  }

  /** Three numbers written with at least two, two and `w` digits, joined
      by a separator. */
  function Fields(x: nat, y: nat, z: nat, w: nat, sep: char): string
  {
    Padded(x, 2) + [sep] + Padded(y, 2) + [sep] + Padded(z, w)
  }

  /** `DateTime::new` at an instant given in nanoseconds since the epoch; a
      clock before the epoch panics with `BackwardsText`. */
  function New(nanos: int): (r: Result<Stamp, string>)
    ensures r.Err? <==> nanos < 0
    ensures r.Err? ==> r.error == BackwardsText
    ensures r.Ok? ==> |r.value.date| >= 10 && |r.value.time| == 8
    ensures r.Ok? ==> var c := CalendarOf(nanos / NanosPerSecond);
      ShowsFields(r.value.time, ':', c.hours, c.minutes, c.seconds) &&
      (c.year < 10000 ==> ShowsFields(r.value.date, '/', c.day, c.month, c.year))
  {
    if nanos < 0 then Err(BackwardsText)
    else
      var c := CalendarOf(nanos / NanosPerSecond);
      assert ShowsFields(Format(c).time, ':', c.hours, c.minutes, c.seconds) &&
        (c.year < 10000 ==> ShowsFields(Format(c).date, '/', c.day, c.month, c.year)) by {
        if c.year < 10000 {
          FormatReadsBack(c);
        } else {
          Joined(c.hours, c.minutes, c.seconds, 2, ':');
          TwoDigits(c.seconds);
        }
      }
      assert |NatDigits(c.year)| >= 1;
      TwoDigits(c.day);
      TwoDigits(c.month);
      TwoDigits(c.hours);
      TwoDigits(c.minutes);
      TwoDigits(c.seconds);
      Ok(Format(c))
  }

  /** A number below 100 has at most two digits. */
  lemma TwoDigits(n: nat)
    requires n < 100
    ensures |NatDigits(n)| <= 2
  {
    if n >= 10 {
      assert |NatDigits(n / 10)| == 1;
    }
  }

  /** `s` shows `x`, `y` and `z` in that order, split by `sep` after two
      and after five characters. */
  predicate ShowsFields(s: string, sep: char, x: nat, y: nat, z: nat)
  {
    |s| >= 6 && s[2] == sep && s[5] == sep &&
    AllDigits(s[..2]) && DigitsValue(s[..2]) == x &&
    AllDigits(s[3..5]) && DigitsValue(s[3..5]) == y &&
    AllDigits(s[6..]) && DigitsValue(s[6..]) == z
  }

  /** Of three numbers below 100, 100 and any, the first two sit at fixed
      places, and each reads back as the number written. */
  lemma Joined(x: nat, y: nat, z: nat, w: nat, sep: char)
    requires x < 100 && y < 100
    ensures |Fields(x, y, z, w, sep)| == 6 + |Padded(z, w)|
    ensures ShowsFields(Fields(x, y, z, w, sep), sep, x, y, z)
  {
    TwoDigits(x);
    TwoDigits(y);
    var px, py, pz := Padded(x, 2), Padded(y, 2), Padded(z, w);
    var s := px + [sep] + py + [sep] + pz;
    assert s[..2] == px;
    assert s[3..5] == py;
    assert s[6..] == pz;
  }

  /** Each field of a timestamp before the year 10000 sits at a fixed place
      and reads back as the number it shows: `DD/MM/YYYY` and
      `HH:MM:SS`. (Every calendar `CalendarOf` gives has its other fields
      below 100.) */
  lemma FormatReadsBack(c: Calendar)
    requires c.year < 10000 && c.month < 100 && c.day < 100
    requires c.hours < 100 && c.minutes < 100 && c.seconds < 100
    ensures |Format(c).date| == 10 && ShowsFields(Format(c).date, '/', c.day, c.month, c.year)
    ensures |Format(c).time| == 8 && ShowsFields(Format(c).time, ':', c.hours, c.minutes, c.seconds)
  {
    Joined(c.day, c.month, c.year, 4, '/');
    FourDigits(c.year);
    Joined(c.hours, c.minutes, c.seconds, 2, ':');
    TwoDigits(c.seconds);
  }

  /** A number below 10000 has at most four digits. */
  lemma FourDigits(n: nat)
    requires n < 10000
    ensures |NatDigits(n)| <= 4
  {
    if n >= 10 {
      TwoDigitsOrMore(n / 10);
    }
  }

  lemma TwoDigitsOrMore(n: nat)
    requires n < 1000
    ensures |NatDigits(n)| <= 3
  {
    if n >= 10 {
      TwoDigits(n / 10);
    }
  }
}

=== FILE: dispatcher.dfy ===
/** The request loop of the binary server (`handle_conn` in
    server/src/connection/mod.rs): a session with an `authenticated` flag
    over a database of named tables of keyed values with optional expiry.

    The database is global in the server; here it is part of the state a
    step returns, so that a change made before a failed reply is kept. The
    clock is the instant `now` each request is handled at, in nanoseconds
    since the Unix epoch; the configured credentials are a parameter. */
module Dispatcher {
  import opened Common
  import opened ConnError
  import opened Table

  type TableMap = map<string, TableValue>

  type Db = map<string, TableMap>

  datatype Request =
    | Ping
    | Auth(username: string, password: string)
    | ListTables
    | InsertTable(table: string, contents: Option<map<string, InsertTableValue>>)
    | GetTable(table: string)
    | DeleteTable(table: string)
    | List(table: string)
    | Get(table: string, key: string)
    | Delete(table: string, key: string)
    | Insert(table: string, key: string, value: InsertTableValue)

  /** The payload of a successful response. The names of tables and keys
      come in the database's iteration order, which is unspecified; they are
      kept as sets. */
  datatype Payload =
    | Pong
    | Tables(tables: set<string>)
    | TablePayload(contents: TableMap)
    | Keys(keys: set<string>)
    | ValuePayload(table: string, key: string, value: TableValue)

  datatype Response = Response(status: Status, payload: Option<Payload>)

  /** `Response::OK`. */
  const OkReply: Response := Response(Success, None)

  /** `Response::status(s)`. */
  function StatusReply(s: Status): Response
  {
    Response(s, None)
  }

  /** `Response::ok(payload)`. */
  function PayloadReply(p: Payload): Response
  {
    Response(Success, Some(p))
  }

  datatype Config = Config(username: string, password: string)

  datatype State = State(authenticated: bool, db: Db)

  /** Whether a request is an `Auth` with exactly the configured
      credentials. */
  predicate GoodAuth(req: Request, cfg: Config)
  {
    req.Auth? && req.username == cfg.username && req.password == cfg.password
  }

  /** The instant a value inserted at `now` with the given lifetime in
      seconds expires. */
  function ExpiryOf(lifetime: Option<nat>, now: int): (r: Option<int>)
    ensures r.None? <==> lifetime.None?
    ensures r.Some? ==> r.value - now == lifetime.value * NanosPerSecond
  {
    match lifetime
    case None => None
    case Some(secs) => Some(now + secs * NanosPerSecond)
  }

  /** A stored value as `Insert` and `InsertTable` build it. */
  function Stored(v: InsertTableValue, now: int): TableValue
  {
    TableValue(v.value, ExpiryOf(v.lifetime, now))
  }

  /** The table `InsertTable` builds from the optional contents. */
  function BuildTable(contents: Option<map<string, InsertTableValue>>, now: int): (t: TableMap)
    ensures contents.None? ==> t == map[]
    ensures contents.Some? ==> t.Keys == contents.value.Keys
    ensures contents.Some? ==> forall k :: k in t ==> t[k] == Stored(contents.value[k], now)
  {
    match contents
    case None => map[]
    case Some(c) => map k | k in c :: Stored(c[k], now)
  }

  /** Whether a stored value has expired at `now`: its expiry is at or
      before it. */
  predicate ExpiredAt(v: TableValue, now: int)
  {
    v.expiry.Some? && v.expiry.value <= now
  }

  /** The table a request names, if any. */
  function Target(req: Request): Option<string>
  {
    match req
    case InsertTable(t, _) => Some(t)
    case GetTable(t) => Some(t)
    case DeleteTable(t) => Some(t)
    case List(t) => Some(t)
    case Get(t, _) => Some(t)
    case Delete(t, _) => Some(t)
    case Insert(t, _, _) => Some(t)
    case _ => None
  }

  /** One request, already received: the reply to send, if any, and the new
      state. Anything but `Ping` and `Auth` needs an authenticated session
      (the guards of the arms in the source, with `Unauthorized` as the
      fallback arm). */
  function Handle(st: State, cfg: Config, req: Request, now: int): (r: (Option<Response>, State))
    ensures !st.authenticated && !req.Ping? && !req.Auth? ==> r == (Some(StatusReply(Unauthorized)), st)
    ensures r.1.authenticated == (st.authenticated || GoodAuth(req, cfg))
    ensures r.0.None? <==>
      st.authenticated && req.Insert? && req.table in st.db && req.key !in st.db[req.table]
  {
    if !st.authenticated && !req.Ping? && !req.Auth? then (Some(StatusReply(Unauthorized)), st)
    else Dispatch(st, cfg, req, now)
  }

  /** The arm of the loop's `match` for each request, once it is allowed. */
  function Dispatch(st: State, cfg: Config, req: Request, now: int): (r: (Option<Response>, State))
    ensures r.1.authenticated == (st.authenticated || GoodAuth(req, cfg))
    ensures Target(req).None? ==> r.1.db == st.db
    ensures r.0.None? <==> req.Insert? && req.table in st.db && req.key !in st.db[req.table]
    ensures r.0.Some? && r.0.value.status != Success ==> r.1.db == st.db || req.Get?
  {
    var db := st.db;
    match req
    case Ping => (Some(PayloadReply(Pong)), st)
    case Auth(u, p) =>
      if u == cfg.username && p == cfg.password then (Some(OkReply), st.(authenticated := true))
      else (Some(StatusReply(Unauthorized)), st)
    case ListTables => (Some(PayloadReply(Tables(db.Keys))), st)
    case InsertTable(t, contents) =>
      if t !in db then (Some(OkReply), st.(db := db[t := BuildTable(contents, now)]))
      else (Some(StatusReply(AlreadyExists)), st)
    case GetTable(t) =>
      if t in db then (Some(PayloadReply(TablePayload(db[t]))), st)
      else (Some(StatusReply(NoSuchTable)), st)
    case DeleteTable(t) => (Some(OkReply), st.(db := db - {t}))
    case List(t) =>
      if t in db then (Some(PayloadReply(Keys(db[t].Keys))), st)
      else (Some(StatusReply(NoSuchTable)), st)
    case Get(t, k) =>
      if t !in db then (Some(StatusReply(NoSuchTable)), st)
      else if k !in db[t] then (Some(StatusReply(NoSuchKey)), st)
      else if ExpiredAt(db[t][k], now) then
        (Some(StatusReply(KeyExpired)), st.(db := db[t := db[t] - {k}]))
      else (Some(PayloadReply(ValuePayload(t, k, db[t][k]))), st)
    case Delete(t, k) =>
      if t in db then (Some(OkReply), st.(db := db[t := db[t] - {k}])) else (Some(OkReply), st)
    case Insert(t, k, v) =>
      if t !in db then (Some(StatusReply(NoSuchTable)), st)
      else if k in db[t] then (Some(StatusReply(AlreadyExists)), st)
      else (None, st.(db := db[t := db[t][k := Stored(v, now)]]))
  }

  /** A request touches only the table it names: every other table is
      present afterwards exactly when it was before, with the same
      contents. */
  lemma OnlyTargetChanges(st: State, cfg: Config, req: Request, now: int, t: string)
    requires Target(req) != Some(t)
    ensures var db' := Handle(st, cfg, req, now).1.db;
      (t in db' <==> t in st.db) && (t in db' ==> db'[t] == st.db[t])
  {
  }

  /** `Auth` replies OK exactly for the configured credentials, answers
      anything else with `Unauthorized`, and never touches the database. */
  lemma AuthReply(st: State, cfg: Config, u: string, p: string, now: int)
    ensures var r := Handle(st, cfg, Auth(u, p), now);
      r.1.db == st.db &&
      (r.0 == Some(OkReply) <==> u == cfg.username && p == cfg.password) &&
      (r.0 == Some(StatusReply(Unauthorized)) <==> !(u == cfg.username && p == cfg.password))
  {
  }

  /** `InsertTable` creates an absent table, each value expiring its
      lifetime after `now`; an existing table is left as it was. */
  lemma InsertTableEffect(st: State, cfg: Config, t: string, contents: Option<map<string, InsertTableValue>>,
                          now: int)
    requires st.authenticated
    ensures var r := Handle(st, cfg, InsertTable(t, contents), now);
      (t !in st.db ==> r.0 == Some(OkReply) && t in r.1.db && r.1.db[t] == BuildTable(contents, now)) &&
      (t in st.db ==> r == (Some(StatusReply(AlreadyExists)), st))
  {
  }

  /** `Get` on a present key: an expired value (expiry at or before `now`)
      is removed and reported as `KeyExpired`; a live one is returned as
      stored and nothing changes. */
  lemma GetEffect(st: State, cfg: Config, t: string, k: string, now: int)
    requires st.authenticated
    ensures var r := Handle(st, cfg, Get(t, k), now);
      (t !in st.db ==> r == (Some(StatusReply(NoSuchTable)), st)) &&
      (t in st.db && k !in st.db[t] ==> r == (Some(StatusReply(NoSuchKey)), st)) &&
      (t in st.db && k in st.db[t] && ExpiredAt(st.db[t][k], now) ==>
        r.0 == Some(StatusReply(KeyExpired)) && t in r.1.db && r.1.db[t] == st.db[t] - {k}) &&
      (t in st.db && k in st.db[t] && !ExpiredAt(st.db[t][k], now) ==>
        r == (Some(PayloadReply(ValuePayload(t, k, st.db[t][k]))), st))
  {
  }

  /** `Insert` fills only a vacant key, silently; an occupied key keeps its
      old value. */
  lemma InsertEffect(st: State, cfg: Config, t: string, k: string, v: InsertTableValue, now: int)
    requires st.authenticated
    ensures var r := Handle(st, cfg, Insert(t, k, v), now);
      (t !in st.db ==> r == (Some(StatusReply(NoSuchTable)), st)) &&
      (t in st.db && k in st.db[t] ==> r == (Some(StatusReply(AlreadyExists)), st)) &&
      (t in st.db && k !in st.db[t] ==>
        r.0.None? && t in r.1.db && r.1.db[t] == st.db[t][k := Stored(v, now)])
  {
  }

  /** `Delete` and `DeleteTable` reply OK whether or not their target
      existed, and afterwards it does not. */
  lemma DeleteAlwaysOk(st: State, cfg: Config, t: string, k: string, now: int)
    requires st.authenticated
    ensures var r := Handle(st, cfg, Delete(t, k), now);
      r.0 == Some(OkReply) && (t in r.1.db <==> t in st.db) && (t in r.1.db ==> k !in r.1.db[t])
    ensures var r := Handle(st, cfg, DeleteTable(t), now);
      r.0 == Some(OkReply) && t !in r.1.db
  {
  }

  /** `ListTables` and `List` name exactly the tables, and the keys of the
      table, that exist. */
  lemma ListingsExact(st: State, cfg: Config, t: string, now: int)
    requires st.authenticated
    ensures forall name :: name in Handle(st, cfg, ListTables, now).0.value.payload.value.tables <==> name in st.db
    ensures t in st.db ==>
      forall k :: k in Handle(st, cfg, List(t), now).0.value.payload.value.keys <==> k in st.db[t]
  {
  }

  /** A value inserted with a lifetime is returned unchanged by a `Get`
      before it expires, and reported expired (and dropped) by one at or
      after its expiry. */
  lemma InsertThenGet(st: State, cfg: Config, t: string, k: string, v: InsertTableValue, now: int, later: int)
    requires st.authenticated && t in st.db && k !in st.db[t] && now <= later
    ensures var st' := Handle(st, cfg, Insert(t, k, v), now).1;
      var stored := Stored(v, now);
      var r := Handle(st', cfg, Get(t, k), later);
      (!ExpiredAt(stored, later) ==> r.0 == Some(PayloadReply(ValuePayload(t, k, stored)))) &&
      (ExpiredAt(stored, later) ==> r.0 == Some(StatusReply(KeyExpired)) && k !in r.1.db[t])
  {
    var st' := Handle(st, cfg, Insert(t, k, v), now).1;
    assert st'.db[t][k] == Stored(v, now);
    GetEffect(st', cfg, t, k, later);
  }

  /** An expired key answers `KeyExpired` once; a second `Get` finds no
      key. */
  lemma ExpiredGetTwice(st: State, cfg: Config, t: string, k: string, now: int)
    requires st.authenticated && t in st.db && k in st.db[t] && ExpiredAt(st.db[t][k], now)
    ensures var st' := Handle(st, cfg, Get(t, k), now).1;
      Handle(st', cfg, Get(t, k), now).0 == Some(StatusReply(NoSuchKey))
  {
    GetEffect(st, cfg, t, k, now);
  }

  /** One pass of the loop: what `recv` gave (a request or an error), the
      instant the request is handled at, and whether sending the reply
      succeeds. */
  datatype Event = Event(received: Result<Request, Error>, now: int, sendOk: bool)

  /** The reply to send, the state, and whether the loop goes on. */
  datatype Turn = Turn(reply: Option<Response>, state: State, goOn: bool)

  /** One pass of the loop. A receive error ends the loop, is skipped, or
      is answered with its status; a failed send ends the loop. */
  function Step(st: State, cfg: Config, ev: Event): (t: Turn)
    ensures ev.received.Err? ==> t.state == st
    ensures ev.received.Err? ==>
      (t.goOn <==> EffectOf(ev.received.error.kind) == Skip || (EffectOf(ev.received.error.kind).Reply? && ev.sendOk))
    ensures t.reply.Some? && !ev.sendOk ==> !t.goOn
    ensures ev.received.Err? && EffectOf(ev.received.error.kind).Reply? ==>
      t.reply == Some(StatusReply(EffectOf(ev.received.error.kind).status))
    ensures ev.received.Err? && !EffectOf(ev.received.error.kind).Reply? ==> t.reply.None?
    ensures ev.received.Ok? ==>
      (t.reply, t.state) == Handle(st, cfg, ev.received.value, ev.now) && (t.goOn <==> t.reply.None? || ev.sendOk)
  {
    match ev.received
    case Err(e) =>
      (match EffectOf(e.kind)
       case Stop => Turn(None, st, false)
       case Skip => Turn(None, st, true)
       case Reply(s) => Turn(Some(StatusReply(s)), st, ev.sendOk))
    case Ok(req) =>
      var (reply, st') := Handle(st, cfg, req, ev.now);
      Turn(reply, st', reply.None? || ev.sendOk)
  }

  /** What a session ends with: the replies delivered and the state. */
  datatype Outcome = Outcome(replies: seq<Response>, state: State)

  /** The loop over a sequence of events, up to the first that ends it. */
  function Run(st: State, cfg: Config, events: seq<Event>): (r: Outcome)
    ensures |r.replies| <= |events|
    ensures (forall i :: 0 <= i < |events| ==> events[i].received.Err?) ==> r.state == st
    decreases |events|
  {
    if |events| == 0 then Outcome([], st)
    else
      var t := Step(st, cfg, events[0]);
      var delivered := if t.reply.Some? && events[0].sendOk then [t.reply.value] else [];
      if !t.goOn then Outcome(delivered, t.state)
      else
        var rest := Run(t.state, cfg, events[1..]);
        Outcome(delivered + rest.replies, rest.state)
  }

  /** Once authenticated, a session stays authenticated: no request clears
      the flag. */
  lemma {:induction false} RunKeepsAuth(st: State, cfg: Config, events: seq<Event>)
    requires st.authenticated
    ensures Run(st, cfg, events).state.authenticated
    decreases |events|
  {
    if |events| > 0 {
      var t := Step(st, cfg, events[0]);
      if t.goOn {
        RunKeepsAuth(t.state, cfg, events[1..]);
      }
    }
  }

  /** A session that never presents the configured credentials never
      changes the database and never becomes authenticated. */
  lemma {:induction false} RunWithoutCredentials(st: State, cfg: Config, events: seq<Event>)
    requires !st.authenticated
    requires forall i :: 0 <= i < |events| && events[i].received.Ok? ==> !GoodAuth(events[i].received.value, cfg)
    ensures Run(st, cfg, events).state == st
    decreases |events|
  {
    if |events| > 0 {
      var t := Step(st, cfg, events[0]);
      if events[0].received.Ok? {
        var req := events[0].received.value;
        assert !GoodAuth(req, cfg);
        assert t.state == st;
      }
      if t.goOn {
        assert forall i :: 0 <= i < |events[1..]| ==> events[1..][i] == events[i + 1];
        RunWithoutCredentials(t.state, cfg, events[1..]);
      }
    }
  }
}

=== FILE: frame.dfy ===
/** The binary wire frame of the TCP transport
    (server/src/connection/tcp.rs, and the same `send`/`recv` in
    server/src/connection/mod.rs): a little-endian u32 body length, a
    compression byte, then the body. A compressed body is preceded by a
    second u32, its uncompressed length.

    The serialiser, the deserialiser and the decompressors are code outside
    this model and are parameters. The input stream is the finite sequence of
    bytes the peer sends; running out of it is the `UnexpectedEof` I/O
    error. */
module Frame {
  import opened Common
  import opened Compression
  import opened ConnError

  /** `u32::to_le_bytes`. */
  function Le32(n: nat): (b: seq<byte>)
    requires n < TwoTo32
    ensures |b| == 4
  {
    [(n % 0x100) as byte, (n / 0x100 % 0x100) as byte,
     (n / 0x1_0000 % 0x100) as byte, (n / 0x100_0000) as byte]
  }

  /** `u32::from_le_bytes`, as `read_u32_le` assembles it. */
  function FromLe32(b: seq<byte>): (n: nat)
    requires |b| == 4
    ensures n < TwoTo32
  {
    b[0] as int + 0x100 * b[1] as int + 0x1_0000 * b[2] as int + 0x100_0000 * b[3] as int
  }

  /** The two conversions are inverse. */
  lemma Le32RoundTrip(n: nat, b: seq<byte>)
    requires n < TwoTo32 && |b| == 4
    ensures FromLe32(Le32(n)) == n
    ensures Le32(FromLe32(b)) == b
  {
    FromLe32Le32(n);
    Le32FromLe32(b);
  }

  lemma FromLe32Le32(n: nat)
    requires n < TwoTo32
    ensures FromLe32(Le32(n)) == n
  {
    var q1, q2 := n / 0x100, n / 0x1_0000;
    assert n == n % 0x100 + 0x100 * q1;
    assert q1 == q1 % 0x100 + 0x100 * (q1 / 0x100);
    assert q1 / 0x100 == q2;
    assert q2 == q2 % 0x100 + 0x100 * (n / 0x100_0000);
  }

  lemma Le32FromLe32(b: seq<byte>)
    requires |b| == 4
    ensures Le32(FromLe32(b)) == b
  {
    var m := FromLe32(b);
    var b0, b1, b2, b3 := b[0] as int, b[1] as int, b[2] as int, b[3] as int;
    var q2 := b2 + 0x100 * b3;
    var q1 := b1 + 0x100 * q2;
    assert m == b0 + 0x100 * q1;
    Digit(b0, q1);
    Digit(b1, q2);
    Digit(b2, b3);
    ShiftTwice(m);
    ShiftTwice(m / 0x100);
  }

  /** Splitting off the low byte of a number. */
  lemma Digit(lo: int, hi: int)
    requires 0 <= lo < 0x100 && 0 <= hi
    ensures (lo + 0x100 * hi) % 0x100 == lo && (lo + 0x100 * hi) / 0x100 == hi
  {
  }

  /** Shifting right by two bytes is shifting right by one byte twice. */
  lemma ShiftTwice(n: nat)
    ensures n / 0x1_0000 == n / 0x100 / 0x100
  {
    var q, r := n / 0x100, n % 0x100;
    var q2, r2 := q / 0x100, q % 0x100;
    assert n == 0x1_0000 * q2 + (0x100 * r2 + r);
  }

  const Uncompressed: byte := 0

  /** The text of the `UnexpectedEof` error (it is never shown: the
      conversion drops it). */
  const EofText: string := "early eof"

  const Eof: IoError := IoError(UnexpectedEof, EofText)

  /** `Connection::send` / `TcpConnection::send`. The serialiser gives the
      body or the text of its error; `writeError` is what `write_all`
      reports, if anything. The result is the frame written. */
  function Send<R>(res: R, serialise: R -> Result<seq<byte>, string>, maxSize: nat,
                   writeError: Option<IoError>): (r: Result<seq<byte>, Error>)
    ensures serialise(res).Err? ==> r == Err(NewError(StatusKind(ServerError), serialise(res).error))
    ensures serialise(res).Ok? && |serialise(res).value| > maxSize ==> r == Err(FromStatus(ResponseTooLarge))
    ensures r.Ok? ==>
      serialise(res).Ok? && |serialise(res).value| <= maxSize && writeError.None? &&
      |r.value| == 5 + |serialise(res).value| && r.value[5..] == serialise(res).value && r.value[4] == Uncompressed
    ensures r.Ok? ==> r.value[..4] == Le32(TruncU32(|serialise(res).value|))
    ensures serialise(res).Ok? && |serialise(res).value| <= maxSize && writeError.Some? ==>
      r == Err(FromIo(writeError.value))
  {
    match serialise(res)
    case Err(e) => Err(NewError(StatusKind(ServerError), e))
    case Ok(msg) =>
      if |msg| > maxSize then Err(FromStatus(ResponseTooLarge))
      else
        var frame := Le32(TruncU32(|msg|)) + [Uncompressed] + msg;
        match writeError
        case Some(e) => Err(FromIo(e))
        case None => Ok(frame)
  }

  /** `send` as written: over the limit it converts `ResponseTooLarge`
      through the as-written status conversion. `None` is a call that has
      not returned within `depth` nested conversions. */
  function SendAsWritten<R>(res: R, serialise: R -> Result<seq<byte>, string>, maxSize: nat,
                            writeError: Option<IoError>, depth: nat): (r: Option<Result<seq<byte>, Error>>)
    ensures !(serialise(res).Ok? && |serialise(res).value| > maxSize) ==>
      r == Some(Send(res, serialise, maxSize, writeError))
  {
    if serialise(res).Ok? && |serialise(res).value| > maxSize then
      match FromStatusAsWritten(ResponseTooLarge, depth)
      case None => None
      case Some(e) => Some(Err(e))
    else Some(Send(res, serialise, maxSize, writeError))
  }

  /** As written, `send` of a response whose body is over the limit never
      returns, so the loop never learns of it. */
  lemma OversizedResponseNeverSent<R>(res: R, serialise: R -> Result<seq<byte>, string>, maxSize: nat,
                                      writeError: Option<IoError>, depth: nat)
    requires serialise(res).Ok? && |serialise(res).value| > maxSize
    ensures SendAsWritten(res, serialise, maxSize, writeError, depth).None?
  {
    FromStatusNeverReturns(ResponseTooLarge, depth);
  }

  /** What one `recv` produces, and the bytes it leaves unread. A read
      that runs out of stream has consumed what was there, so after the
      EOF error nothing is left. */
  datatype Received<Q> = Received(result: Result<Q, Error>, rest: seq<byte>)

  /** `read_u32_le`. */
  function ReadU32(s: seq<byte>): (r: Result<(nat, seq<byte>), Error>)
    ensures r.Ok? <==> |s| >= 4
    ensures r.Ok? ==> r.value == (FromLe32(s[..4]), s[4..])
    ensures r.Err? ==> r.error == FromIo(Eof)
  {
    if |s| < 4 then Err(FromIo(Eof)) else Ok((FromLe32(s[..4]), s[4..]))
  }

  /** `read_to_bytes` with a given mode: from the stream, the compressed
      length and the uncompressed length, the uncompressed bytes and what is
      left of the stream, or the text of the decompressor's error. */
  type Inflate = (seq<byte>, nat, nat, Mode) -> Result<(seq<byte>, seq<byte>), string>

  /** `Connection::recv` / `TcpConnection::recv`. */
  function Recv<Q>(s: seq<byte>, maxSize: nat, deserialise: seq<byte> -> Result<Q, string>,
                   inflate: Inflate): (r: Received<Q>)
    ensures |s| < 4 ==> r == Received(Err(FromIo(Eof)), [])
    ensures |s| >= 4 && FromLe32(s[..4]) > maxSize ==> r == Received(Err(FromStatus(RequestTooLarge)), s[4..])
    ensures r.result == Err(FromIo(Eof)) ==> r.rest == []
  {
    match ReadU32(s)
    case Err(e) => Received(Err(e), [])
    case Ok((len, s1)) =>
      if len > maxSize then Received(Err(FromStatus(RequestTooLarge)), s1)
      else if |s1| < 1 then Received(Err(FromIo(Eof)), [])
      else
        var comp, s2 := s1[0], s1[1..];
        if comp == Uncompressed then
          if |s2| < len then Received(Err(FromIo(Eof)), [])
          else
            var body := s2[..len];
            Received(Deserialised(deserialise(body)), s2[len..])
        else
          match TryFrom(comp as bv8)
          case Err(e) => Received(Err(NewError(StatusKind(BadRequest), e)), s2)
          case Ok(mode) =>
            match ReadU32(s2)
            case Err(e) => Received(Err(e), [])
            case Ok((fullLen, s3)) =>
              match inflate(s3, len, fullLen, mode)
              case Err(e) => Received(Err(NewError(StatusKind(BadRequest), e)), s3)
              case Ok((body, s4)) => Received(Deserialised(deserialise(body)), s4)
  }

  /** `check!(req: from_slice(..))`: a deserialisation error is a bad
      request carrying the deserialiser's text. */
  function Deserialised<Q>(d: Result<Q, string>): (r: Result<Q, Error>)
    ensures d.Ok? <==> r.Ok?
    ensures d.Ok? ==> r.value == d.value
    ensures d.Err? ==> r.error == NewError(StatusKind(BadRequest), d.error)
  {
    match d
    case Ok(q) => Ok(q)
    case Err(e) => Err(NewError(StatusKind(BadRequest), e))
  }

  /** An uncompressed frame carries exactly the `len` bytes after the
      compression byte to the deserialiser. */
  lemma RecvUncompressed<Q>(s: seq<byte>, maxSize: nat, deserialise: seq<byte> -> Result<Q, string>,
                            inflate: Inflate)
    requires |s| >= 5 && FromLe32(s[..4]) <= maxSize && s[4] == Uncompressed
    requires |s| >= 5 + FromLe32(s[..4])
    ensures var len := FromLe32(s[..4]);
      Recv(s, maxSize, deserialise, inflate) == Received(Deserialised(deserialise(s[5..5 + len])), s[5 + len..])
  {
    var len := FromLe32(s[..4]);
    assert s[4..][1..] == s[5..];
    assert s[5..][..len] == s[5..5 + len];
    assert s[5..][len..] == s[5 + len..];
  }

  /** A compression byte with more or less than one bit set is a bad
      request, and nothing after it is read. */
  lemma RecvBadMode<Q>(s: seq<byte>, maxSize: nat, deserialise: seq<byte> -> Result<Q, string>,
                       inflate: Inflate)
    requires |s| >= 5 && FromLe32(s[..4]) <= maxSize && s[4] != Uncompressed && !SingleBit(s[4] as bv8)
    ensures Recv(s, maxSize, deserialise, inflate) ==
      Received(Err(NewError(StatusKind(BadRequest), TooManyModes)), s[5..])
  {
    assert s[4..][1..] == s[5..];
  }

  /** A compressed frame: the single-bit compression byte names the mode, a
      second little-endian u32 gives the uncompressed length, and the
      decompressor gets the rest of the stream with both lengths and the
      mode. Its error is a bad request carrying its text; its output goes to
      the deserialiser. */
  lemma RecvCompressed<Q>(s: seq<byte>, maxSize: nat, deserialise: seq<byte> -> Result<Q, string>,
                          inflate: Inflate)
    requires |s| >= 9 && FromLe32(s[..4]) <= maxSize && s[4] != Uncompressed && SingleBit(s[4] as bv8)
    ensures var mode := TryFrom(s[4] as bv8).value;
      Discriminant(mode) == s[4] as bv8 &&
      var r := Recv(s, maxSize, deserialise, inflate);
      match inflate(s[9..], FromLe32(s[..4]), FromLe32(s[5..9]), mode)
      case Err(e) => r == Received(Err(NewError(StatusKind(BadRequest), e)), s[9..])
      case Ok((body, rest)) => r == Received(Deserialised(deserialise(body)), rest)
  {
    DiscriminantInjective(TryFrom(s[4] as bv8).value, TryFrom(s[4] as bv8).value, s[4] as bv8);
    assert s[4..][1..] == s[5..];
    assert s[5..][..4] == s[5..9];
    assert s[5..][4..] == s[9..];
  }

  /** A compressed frame cut short before its uncompressed length is the
      early-EOF error. */
  lemma RecvCompressedShort<Q>(s: seq<byte>, maxSize: nat, deserialise: seq<byte> -> Result<Q, string>,
                               inflate: Inflate)
    requires 5 <= |s| < 9 && FromLe32(s[..4]) <= maxSize && s[4] != Uncompressed && SingleBit(s[4] as bv8)
    ensures Recv(s, maxSize, deserialise, inflate) == Received(Err(FromIo(Eof)), [])
  {
    assert |s[4..][1..]| < 4;
  }

  /** `recv` as written: over the limit it converts `RequestTooLarge`
      through the as-written status conversion. `None` is a call that has
      not returned within `depth` nested conversions. */
  function RecvAsWritten<Q>(s: seq<byte>, maxSize: nat, deserialise: seq<byte> -> Result<Q, string>,
                            inflate: Inflate, depth: nat): (r: Option<Received<Q>>)
    ensures !(|s| >= 4 && FromLe32(s[..4]) > maxSize) ==> r == Some(Recv(s, maxSize, deserialise, inflate))
  {
    if |s| >= 4 && FromLe32(s[..4]) > maxSize then
      match FromStatusAsWritten(RequestTooLarge, depth)
      case None => None
      case Some(e) => Some(Received(Err(e), s[4..]))
    else Some(Recv(s, maxSize, deserialise, inflate))
  }

  /** As written, a frame whose length prefix is over the limit makes
      `recv` never return: the request is never answered. */
  lemma OversizedRequestNeverAnswered<Q>(s: seq<byte>, maxSize: nat, deserialise: seq<byte> -> Result<Q, string>,
                                         inflate: Inflate, depth: nat)
    requires |s| >= 4 && FromLe32(s[..4]) > maxSize
    ensures RecvAsWritten(s, maxSize, deserialise, inflate, depth).None?
  {
    FromStatusNeverReturns(RequestTooLarge, depth);
  }

  /** A stream that ends right after an acceptable length prefix, before
      the compression byte, is the EOF error. */
  lemma RecvNoModeByte<Q>(s: seq<byte>, maxSize: nat, deserialise: seq<byte> -> Result<Q, string>,
                          inflate: Inflate)
    requires |s| == 4 && FromLe32(s) <= maxSize
    ensures Recv(s, maxSize, deserialise, inflate) == Received(Err(FromIo(Eof)), [])
  {
    assert s[..4] == s;
  }

  /** An uncompressed frame whose body is shorter than its length prefix is
      the EOF error. */
  lemma RecvUncompressedShort<Q>(s: seq<byte>, maxSize: nat, deserialise: seq<byte> -> Result<Q, string>,
                                 inflate: Inflate)
    requires |s| >= 5 && FromLe32(s[..4]) <= maxSize && s[4] == Uncompressed && |s| - 5 < FromLe32(s[..4])
    ensures Recv(s, maxSize, deserialise, inflate) == Received(Err(FromIo(Eof)), [])
  {
    assert s[4..][1..] == s[5..];
  }

  /** What `recv` reads back from a frame `send` wrote is the original
      message, when the deserialiser undoes the serialiser on it; the bytes
      after the frame are left for the next call. */
  lemma SendRecv<R, Q>(res: R, req: Q, serialise: R -> Result<seq<byte>, string>,
                       deserialise: seq<byte> -> Result<Q, string>, inflate: Inflate,
                       maxSize: nat, tail: seq<byte>)
    requires maxSize < TwoTo32
    requires Send(res, serialise, maxSize, None).Ok?
    requires deserialise(serialise(res).value) == Ok(req)
    ensures Recv(Send(res, serialise, maxSize, None).value + tail, maxSize, deserialise, inflate) ==
      Received(Ok(req), tail)
  {
    var msg := serialise(res).value;
    var frame := Send(res, serialise, maxSize, None).value;
    var s := frame + tail;
    assert frame == Le32(|msg|) + [Uncompressed] + msg;
    assert s[..4] == Le32(|msg|);
    Le32RoundTrip(|msg|, s[..4]);
    assert s[4] == Uncompressed;
    RecvUncompressed(s, maxSize, deserialise, inflate);
    assert s[5..5 + |msg|] == msg;
    assert s[5 + |msg|..] == tail;
  }
}

=== FILE: global_cell.dfy ===
/** The write-once global of the server (server/src/util.rs): a `OnceLock`
    that can be set once and read after, and the `wrap_fatal!` macro. A
    panic and a fatal exit end the process; both are results here. */
module GlobalCell {
  import opened Common

  /** A `Global<T>`: empty, or holding the value it was set to. */
  datatype Global<T> = Global(cell: Option<T>)

  /** How an operation that may end the process ends: with a value, with a
      panic (an `unwrap` on an error), or with `fatal!` and its message. */
  datatype Outcome<T> = Done(value: T) | Panic | Fatal(message: string)

  /** `Global::new`. */
  function New<T>(): (g: Global<T>)
    ensures Get(g) == None
  {
    Global(None)
  }

  /** `Global::get`. */
  function Get<T>(g: Global<T>): Option<T>
  {
    g.cell
  }

  /** `Global::set`: `OnceLock::set(..).unwrap()` panics on a cell that is
      already set. */
  function Set<T>(g: Global<T>, v: T): (r: Outcome<Global<T>>)
    ensures r.Done? <==> Get(g).None?
    ensures r.Done? ==> Get(r.value) == Some(v)
    ensures !r.Fatal?
  {
    match g.cell
    case None => Done(Global(Some(v)))
    case Some(_) => Panic
  }

  const DerefFailed: string := "Global deref failed"

  /** `Deref for Global`: the value, or a fatal exit on an empty cell. */
  function Deref<T>(g: Global<T>): (r: Outcome<T>)
    ensures r.Done? <==> Get(g).Some?
    ensures r.Done? ==> Some(r.value) == Get(g)
    ensures !r.Done? ==> r == Fatal(DerefFailed)
  {
    match g.cell
    case Some(v) => Done(v)
    case None => Fatal(DerefFailed)
  }

  /** A fresh global, once set, reads back the value through `get` and
      `deref`; setting it again panics and leaves nothing changed. */
  lemma SetOnce<T>(v: T, w: T)
    ensures var g := New<T>();
      Set(g, v).Done? && Get(Set(g, v).value) == Some(v) && Deref(Set(g, v).value) == Done(v) &&
      Set(Set(g, v).value, w) == Panic
    ensures Deref(New<T>()) == Fatal(DerefFailed)
  {
  }

  /** `wrap_fatal!(expr, fmt)`: the value of an `Ok`, or a fatal exit whose
      message is the format applied to the error. */
  function WrapFatal<T, E>(x: Result<T, E>, format: E -> string): (r: Outcome<T>)
    ensures r.Done? <==> x.Ok?
    ensures r.Done? ==> r.value == x.value
    ensures x.Err? ==> r == Fatal(format(x.error))
  {
    match x
    case Ok(o) => Done(o)
    case Err(e) => Fatal(format(e))
  }
}

=== FILE: legacy_actions.dfy ===
/** Credential checking of the first server generation (src/actions.rs):
    the request payload's username and password are optional.

    The payload type and `Response::success` are not part of the source
    modelled here; the payload is the two optional fields `auth` reads, and
    a success is an OK response carrying the message and no data. */
module LegacyActions {
  import opened Common
  import opened LegacyResponse

  datatype Config = Config(username: string, password: string)

  datatype RequestPayload = RequestPayload(username: Option<string>, password: Option<string>)

  datatype AuthResult = AuthResult(isAuthenticated: bool, response: Response)

  const MissingCredentials: string := "Missing username or password"
  const IncorrectCredentials: string := "Incorrect username or password"
  const Authenticated: string := "Authenticated"

  /** `Response::success`. */
  function SuccessResponse(msg: string): (r: Response)
    ensures !r.error && r.msg == Some(msg) && r.data == None
  {
    OkResponse(Some(msg), None)
  }

  /** `auth(payload)`. */
  function Auth(cfg: Config, payload: RequestPayload): (r: AuthResult)
    ensures r.isAuthenticated <==>
      payload.username == Some(cfg.username) && payload.password == Some(cfg.password)
    ensures r.isAuthenticated <==> !r.response.error
    ensures payload.username.None? || payload.password.None? ==> r.response == ErrorResponse(MissingCredentials)
    ensures payload.username.Some? && payload.password.Some? && !r.isAuthenticated ==>
      r.response == ErrorResponse(IncorrectCredentials)
    ensures r.isAuthenticated ==> r.response == SuccessResponse(Authenticated)
  {
    if payload.username.None? || payload.password.None? then
      AuthResult(false, ErrorResponse(MissingCredentials))
    else
      var username := payload.username.value;
      var password := payload.password.value;
      if username != cfg.username || password != cfg.password then
        AuthResult(false, ErrorResponse(IncorrectCredentials))
      else AuthResult(true, SuccessResponse(Authenticated))
  }

  /** On the wire, the first byte tells a failed attempt from a successful
      one, and the message follows it intact. */
  lemma AuthOnTheWire(cfg: Config, payload: RequestPayload)
    ensures var r := Auth(cfg, payload);
      var b := ToBytes(r.response);
      (b[0] == 0 <==> r.isAuthenticated) && Split(b) == Some((!r.isAuthenticated, Utf8(r.response.msg.value), []))
  {
    var r := Auth(cfg, payload);
    assert 0 as char !in r.response.msg.value;
    SplitToBytes(r.response);
  }
}

=== FILE: legacy_response.dfy ===
/** The byte response of the first server generation (src/response.rs): an
    error flag byte, the message, a zero byte, then the data. */
module LegacyResponse {
  import opened Common

  datatype Response = Response(error: bool, msg: Option<string>, data: Option<seq<byte>>)

  /** `Response::error`. */
  function ErrorResponse(msg: string): (r: Response)
    ensures r.error && r.msg == Some(msg) && r.data == None
  {
    Response(true, Some(msg), None)
  }

  /** `Response::ok`. */
  function OkResponse(msg: Option<string>, data: Option<seq<byte>>): (r: Response)
    ensures !r.error && r.msg == msg && r.data == data
  {
    Response(false, msg, data)
  }

  /** The bytes of the message, none when it is absent. */
  function MsgBytes(r: Response): seq<byte>
  {
    match r.msg
    case None => []
    case Some(m) => Utf8(m)
  }

  /** The data, none when it is absent. */
  function DataBytes(r: Response): seq<byte>
  {
    match r.data
    case None => []
    case Some(d) => d
  }

  /** `Response::to_bytes`. */
  function ToBytes(r: Response): (b: seq<byte>)
    ensures |b| == 2 + |MsgBytes(r)| + |DataBytes(r)|
    ensures b[0] == if r.error then 1 else 0
    ensures b[1 + |MsgBytes(r)|] == 0
  {
    [if r.error then 1 else 0] + MsgBytes(r) + [0] + DataBytes(r)
  }

  /** The first zero byte of a sequence, if any. */
  function FirstZero(s: seq<byte>): (r: Option<nat>)
    ensures r.None? <==> 0 !in s
    ensures r.Some? ==> r.value < |s| && s[r.value] == 0 && 0 !in s[..r.value]
  {
    if |s| == 0 then None
    else if s[0] == 0 then Some(0)
    else
      match FirstZero(s[1..])
      case None => None
      case Some(i) =>
        assert s[..i + 1] == [s[0]] + s[1..][..i];
        Some(i + 1)
  }

  /** How a reader takes the bytes apart: the flag byte, the bytes up to the
      first zero after it, and the rest. */
  function Split(b: seq<byte>): (r: Option<(bool, seq<byte>, seq<byte>)>)
    ensures r.Some? ==> |b| >= 2 && 2 + |r.value.1| + |r.value.2| == |b| && 0 !in r.value.1
  {
    if |b| == 0 || b[0] > 1 then None
    else
      match FirstZero(b[1..])
      case None => None
      case Some(i) => Some((b[0] == 1, b[1..][..i], b[1..][i + 1..]))
  }

  /** The reader takes apart any flag, zero-free message and data joined
      with a zero byte. */
  lemma SplitJoined(flag: byte, m: seq<byte>, d: seq<byte>)
    requires flag <= 1 && 0 !in m
    ensures Split([flag] + m + [0] + d) == Some((flag == 1, m, d))
  {
    var b := [flag] + m + [0] + d;
    var tail := b[1..];
    assert tail == m + [0] + d;
    assert tail[|m|] == 0 && tail[..|m|] == m;
    assert FirstZero(tail) == Some(|m|);
    assert tail[|m| + 1..] == d;
  }

  /** When the message holds no NUL, the reader recovers the flag, the
      message's bytes and the data from the encoding. */
  lemma SplitToBytes(r: Response)
    requires r.msg.Some? ==> 0 as char !in r.msg.value
    ensures Split(ToBytes(r)) == Some((r.error, MsgBytes(r), DataBytes(r)))
  {
    if r.msg.Some? {
      Utf8ZeroFree(r.msg.value);
    }
    SplitJoined(if r.error then 1 else 0, MsgBytes(r), DataBytes(r));
  }

  /** A message with a NUL is cut short on reading: the reader's message is
      only what precedes the NUL. */
  lemma NulInMessageTruncates(pre: string, post: string, data: Option<seq<byte>>)
    requires 0 as char !in pre
    ensures var r := OkResponse(Some(pre + [0 as char] + post), data);
      Split(ToBytes(r)).Some? && Split(ToBytes(r)).value.1 == Utf8(pre)
  {
    var rest := [0 as char] + post;
    assert pre + [0 as char] + post == pre + rest;
    Utf8Concat(pre, rest);
    assert Utf8(rest) == [0] + Utf8(post) by { assert rest[1..] == post; }
    Utf8ZeroFree(pre);
    var r := OkResponse(Some(pre + [0 as char] + post), data);
    var u, v, e := Utf8(pre), Utf8(post), DataBytes(r);
    var d := v + [0] + e;
    assert MsgBytes(r) == u + ([0] + v);
    assert ToBytes(r) == [0] + (u + ([0] + v)) + [0] + e;
    Regroup(u, v, e);
    SplitJoined(0, Utf8(pre), d);
  }

  lemma Regroup(u: seq<byte>, v: seq<byte>, e: seq<byte>)
    ensures [0] + (u + ([0] + v)) + [0] + e == [0] + u + [0] + (v + [0] + e)
  {
  }

  /** The encoding of a concatenation is the concatenation of the
      encodings. */
  lemma {:induction false} Utf8Concat(a: string, b: string)
    ensures Utf8(a + b) == Utf8(a) + Utf8(b)
  {
    if |a| > 0 {
      assert (a + b)[1..] == a[1..] + b;
      Utf8Concat(a[1..], b);
    } else {
      assert a + b == b;
    }
  }
}

=== FILE: ping_payload.dfy ===
/** The ping payload codec of the binary protocol (protocol/src/lib.rs): a
    payload of at most 125 bytes travels as standard Base 64 text. */
module PingPayload {
  import opened Common
  import opened Base64

  /** The largest payload a ping may carry. */
  const MaxPayload: nat := 125

  /** The early length limit on the text as written in the decoder. */
  const TextLimitAsWritten: nat := 18

  /** The length of the Base 64 text of a largest payload: 4 * ceil(125 / 3). */
  const TextLimit: nat := 168

  datatype PingError = TooLarge | InvalidBase64

  /** The message of each error; a decoding error carries the `base64`
      crate's own text, which is not part of this model. */
  function Message(e: PingError, decodeText: string): string
  {
    match e
    case TooLarge => "Ping payload over 125 bytes"
    case InvalidBase64 => decodeText
  }

  /** A text of at most `limit` characters decodes to at most three bytes
      per whole group of four characters the limit allows. */
  lemma DecodedLength(s: string, limit: nat)
    requires Decode(s).Some? && |s| <= limit
    ensures |Decode(s).value| <= 3 * (limit / 4)
  {
    var k := |s| / 4;
    assert |s| == 4 * k;
    assert k <= limit / 4;
  }

  /** `to_b64`. */
  function ToB64(x: seq<byte>): (r: Result<string, PingError>)
    ensures r.Ok? <==> |x| <= MaxPayload
    ensures r.Err? ==> r.error == TooLarge
    ensures r.Ok? ==> Decode(r.value) == Some(x) && IsAscii(r.value)
  {
    if |x| > MaxPayload then Err(TooLarge)
    else
      DecodeEncode(x);
      EncodeAscii(x);
      Ok(Encode(x))
  }

  /** `from_b64` with the early limit it has (on the UTF-8 length of the
      text), then decoding, then the payload limit. */
  function FromB64AsWritten(s: string): (r: Result<seq<byte>, PingError>)
    ensures r.Ok? <==> |Utf8(s)| <= TextLimitAsWritten && Decode(s).Some?
    ensures r.Ok? ==> Encode(r.value) == s && |r.value| <= 12
  {
    if |Utf8(s)| > TextLimitAsWritten then Err(TooLarge)
    else
      match Decode(s)
      case None => Err(InvalidBase64)
      case Some(bytes) =>
        EncodeDecode(s);
        DecodedLength(s, TextLimitAsWritten);
        if |bytes| > MaxPayload then Err(TooLarge) else Ok(bytes)
  }

  /** `from_b64` with the early limit at the length of the longest valid
      text: the limit then rejects only texts the decoder would reject
      anyway. */
  function FromB64(s: string): (r: Result<seq<byte>, PingError>)
    ensures r.Ok? <==> Decode(s).Some? && |Decode(s).value| <= MaxPayload
    ensures r.Ok? ==> Encode(r.value) == s
  {
    if |Utf8(s)| > TextLimit then
      LongTextRejected(s);
      Err(TooLarge)
    else
      match Decode(s)
      case None => Err(InvalidBase64)
      case Some(bytes) =>
        EncodeDecode(s);
        if |bytes| > MaxPayload then Err(TooLarge) else Ok(bytes)
  }

  /** The text of a payload the codec allows is never longer than the
      corrected limit. */
  lemma LongTextRejected(s: string)
    requires |Utf8(s)| > TextLimit
    ensures !(Decode(s).Some? && |Decode(s).value| <= MaxPayload)
  {
    if Decode(s).Some? && |Decode(s).value| <= MaxPayload {
      EncodeDecode(s);
      PayloadTextLength(Decode(s).value);
    }
  }

  /** The text of a payload of at most 125 bytes has at most 168 bytes. */
  lemma PayloadTextLength(x: seq<byte>)
    requires |x| <= MaxPayload
    ensures |Utf8(Encode(x))| == |Encode(x)| <= TextLimit
  {
    EncodeAscii(x);
    Utf8Ascii(Encode(x));
  }

  /** As written, a payload survives the codec exactly when it has at most
      12 bytes: the text of 13 bytes or more is longer than 18 symbols. */
  lemma RoundTripAsWritten(x: seq<byte>)
    requires |x| <= MaxPayload
    ensures FromB64AsWritten(ToB64(x).value) == Ok(x) <==> |x| <= 12
  {
    var s := Encode(x);
    EncodeAscii(x);
    Utf8Ascii(s);
    DecodeEncode(x);
  }

  /** A 13-byte payload can be sent but not received. */
  lemma ThirteenBytesRejected()
    ensures var x: seq<byte> := seq(13, _ => 0);
      ToB64(x).Ok? && FromB64AsWritten(ToB64(x).value) == Err(TooLarge)
  {
    var x: seq<byte> := seq(13, _ => 0);
    RoundTripAsWritten(x);
    EncodeAscii(x);
    Utf8Ascii(Encode(x));
  }

  /** With the corrected limit every payload the encoder accepts comes back,
      and everything the decoder accepts is re-encoded to the same text. */
  lemma RoundTrip(x: seq<byte>, s: string)
    ensures |x| <= MaxPayload ==> FromB64(ToB64(x).value) == Ok(x)
    ensures FromB64(s).Ok? ==> ToB64(FromB64(s).value) == Ok(s)
  {
    if |x| <= MaxPayload {
      var t := Encode(x);
      EncodeAscii(x);
      Utf8Ascii(t);
      DecodeEncode(x);
      assert |t| == 4 * ((|x| + 2) / 3);
    }
  }
}

=== FILE: server_actions.dfy ===
/** Credential checking of the auth-only server (server/src/actions.rs). */
module ServerActions {

  /** The protocol's reply to a client: an error or a success carrying a
      message. (The constructors `Response::error` and `Response::success`
      are not part of the protocol snapshot modelled here; only the kind and
      message of the reply are.) */
  datatype Reply = ErrorReply(message: string) | SuccessReply(message: string)

  datatype Config = Config(username: string, password: string)

  datatype AuthResult = AuthResult(isAuthenticated: bool, response: Reply)

  const IncorrectCredentials: string := "Incorrect username or password"
  const Authenticated: string := "Authenticated"

  /** `auth(username, password)`: exact comparison of both strings with the
      configured ones, no normalisation. */
  function Auth(cfg: Config, username: string, password: string): (r: AuthResult)
    ensures r.isAuthenticated <==> username == cfg.username && password == cfg.password
    ensures r.isAuthenticated <==> r.response.SuccessReply?
    ensures r.response.SuccessReply? ==> r.response.message == Authenticated
    ensures r.response.ErrorReply? ==> r.response.message == IncorrectCredentials
  {
    if username != cfg.username || password != cfg.password then
      AuthResult(false, ErrorReply(IncorrectCredentials))
    else AuthResult(true, SuccessReply(Authenticated))
  }

  /** Every failed attempt gets the same result, whichever of the two
      strings was wrong and however little it differs (in case or
      surrounding space, say). */
  lemma AuthFailureUniform(cfg: Config, u1: string, p1: string, u2: string, p2: string)
    requires u1 != cfg.username || p1 != cfg.password
    requires u2 != cfg.username || p2 != cfg.password
    ensures Auth(cfg, u1, p1) == Auth(cfg, u2, p2) == AuthResult(false, ErrorReply(IncorrectCredentials))
  {
  }
}

=== FILE: table.dfy ===
/** Table values of the binary protocol (protocol/src/table.rs) and the codec
    that carries an expiry instant as whole seconds since the Unix epoch.
    An instant is an integer count of nanoseconds since the epoch; instants
    before the epoch are negative. */
module Table {
  import opened Common

  /** `PrimitiveValue`. A float is kept as its bit pattern: no arithmetic is
      done on it. */
  datatype PrimitiveValue =
    | Str(s: string)
    | Int(i: int)
    | Uint(u: nat)
    | Float(bits: bv64)
    | Boolean(b: bool)
    | Array(items: seq<PrimitiveValue>)

  /** A value as a client sends it: a lifetime in seconds, if any. */
  datatype InsertTableValue = InsertTableValue(value: PrimitiveValue, lifetime: Option<nat>)

  /** A value as the server stores it: the absolute expiry instant, if any. */
  datatype TableValue = TableValue(value: PrimitiveValue, expiry: Option<int>)

  /** The error `duration_since` reports for an instant before the epoch. */
  const BeforeEpoch: string := "second time provided was later than self"

  /** `to_unix`: whole seconds since the epoch, rounded down; an instant
      before the epoch cannot be written. */
  function ToUnix(x: Option<int>): (r: Result<Option<nat>, string>)
    ensures x.None? ==> r == Ok(None)
    ensures x.Some? && x.value < 0 ==> r == Err(BeforeEpoch)
    ensures x.Some? && x.value >= 0 ==>
      r.Ok? && r.value.Some? && r.value.value * NanosPerSecond <= x.value < (r.value.value + 1) * NanosPerSecond
  {
    match x
    case None => Ok(None)
    case Some(t) => if t < 0 then Err(BeforeEpoch) else Ok(Some(t / NanosPerSecond))
  }

  /** `from_unix`: the epoch plus the given whole seconds. */
  function FromUnix(x: Option<nat>): (r: Option<int>)
    ensures r.None? <==> x.None?
    ensures r.Some? ==> r.value >= 0 && r.value % NanosPerSecond == 0 && r.value / NanosPerSecond == x.value
  {
    match x
    case None => None
    case Some(secs) => Some(secs * NanosPerSecond)
  }

  /** An instant the codec carries exactly: none, or a whole second at or
      after the epoch. */
  predicate WholeSeconds(x: Option<int>)
  {
    x.None? || (x.value >= 0 && x.value % NanosPerSecond == 0)
  }

  /** Reading back what was written gives the instant back exactly when it
      is a whole second at or after the epoch; otherwise the sub-second part
      is lost. */
  lemma ToUnixFromUnix(x: Option<int>)
    requires ToUnix(x).Ok?
    ensures FromUnix(ToUnix(x).value) == x <==> WholeSeconds(x)
  {
  }

  /** Every encoded value is written back unchanged. */
  lemma FromUnixToUnix(y: Option<nat>)
    ensures ToUnix(FromUnix(y)) == Ok(y)
  {
  }

  /** The wire form of a `TableValue`: its expiry as seconds. */
  datatype WireTableValue = WireTableValue(value: PrimitiveValue, expiry: Option<nat>)

  /** Serialising a `TableValue` (`serialize_with = "to_unix"`). */
  function EncodeValue(v: TableValue): (r: Result<WireTableValue, string>)
    ensures r.Ok? <==> ToUnix(v.expiry).Ok?
    ensures r.Ok? ==> r.value.value == v.value
  {
    match ToUnix(v.expiry)
    case Ok(secs) => Ok(WireTableValue(v.value, secs))
    case Err(e) => Err(e)
  }

  /** Deserialising a `TableValue` (`deserialize_with = "from_unix"`). */
  function DecodeValue(w: WireTableValue): (r: TableValue)
    ensures r.value == w.value && (r.expiry.None? <==> w.expiry.None?)
  {
    TableValue(w.value, FromUnix(w.expiry))
  }

  /** A stored value survives the round trip exactly when its expiry is a
      whole second at or after the epoch, and a wire value always does. */
  lemma ValueRoundTrip(v: TableValue, w: WireTableValue)
    ensures WholeSeconds(v.expiry) ==> EncodeValue(v).Ok? && DecodeValue(EncodeValue(v).value) == v
    ensures EncodeValue(DecodeValue(w)) == Ok(w)
  {
    if WholeSeconds(v.expiry) && v.expiry.Some? {
      ToUnixFromUnix(v.expiry);
    }
    FromUnixToUnix(w.expiry);
  }
}

=== FILE: tea_session.dfy ===
/** The Go server's TCP session (main.go `handleConnection`): read a
    newline-terminated line, split it into whitespace-separated fields, and
    run `SET key value ttl` or `GET key` against the store. */
module TeaSession {
  import opened Common
  import opened TeaStore

  // strings.Fields

  predicate NoSpace(w: string)
  {
    forall i :: 0 <= i < |w| ==> !IsWhiteSpace(w[i])
  }

  /** Length of the run of non-space characters at the start of `s`. */
  function TokenLength(s: string): (n: nat)
    ensures n <= |s|
    ensures NoSpace(s[..n])
    ensures n == |s| || IsWhiteSpace(s[n])
  {
    if |s| == 0 || IsWhiteSpace(s[0]) then 0
    else
      var m := TokenLength(s[1..]);
      assert s[..m + 1] == [s[0]] + s[1..][..m];
      m + 1
  }

  /** `strings.Fields`: the maximal runs of non-space characters. */
  function Fields(s: string): (r: seq<string>)
    ensures forall i :: 0 <= i < |r| ==> |r[i]| > 0 && NoSpace(r[i])
    decreases |s|
  {
    if |s| == 0 then []
    else if IsWhiteSpace(s[0]) then Fields(s[1..])
    else
      var n := TokenLength(s);
      [s[..n]] + Fields(s[n..])
  }

  /** The words joined by single spaces, as a client would type a command. */
  function Unwords(ws: seq<string>): string
  {
    if |ws| == 0 then ""
    else if |ws| == 1 then ws[0]
    else ws[0] + " " + Unwords(ws[1..])
  }

  lemma {:induction false} TokenLengthOfWord(w: string, rest: string)
    requires NoSpace(w)
    requires |rest| == 0 || IsWhiteSpace(rest[0])
    ensures TokenLength(w + rest) == |w|
    decreases |w|
  {
    if |w| == 0 {
      assert w + rest == rest;
    } else {
      assert (w + rest)[1..] == w[1..] + rest;
      TokenLengthOfWord(w[1..], rest);
    }
  }

  /** Splitting undoes joining, for non-empty words without spaces. */
  lemma {:induction false} FieldsUnwords(ws: seq<string>)
    requires forall i :: 0 <= i < |ws| ==> |ws[i]| > 0 && NoSpace(ws[i])
    ensures Fields(Unwords(ws)) == ws
    decreases |ws|
  {
    if |ws| == 0 {
    } else if |ws| == 1 {
      var w := ws[0];
      TokenLengthOfWord(w, "");
      assert w + "" == w;
      assert w[..|w|] == w && w[|w|..] == [];
    } else {
      var w := ws[0];
      var rest := Unwords(ws[1..]);
      var s := w + " " + rest;
      assert s == w + (" " + rest);
      TokenLengthOfWord(w, " " + rest);
      assert s[..|w|] == w;
      assert s[|w|..] == " " + rest;
      assert (" " + rest)[1..] == rest;
      FieldsUnwords(ws[1..]);
      assert Fields(s[|w|..]) == Fields(rest);
    }
  }

  // strconv.Atoi

  /** `strconv.Atoi` on a 64-bit platform: an optional sign and at least one
      decimal digit, with the value in the int64 range. */
  function Atoi(s: string): (r: Option<int>)
    ensures r.Some? ==> -TwoTo63 <= r.value < TwoTo63
    ensures r.Some? ==> |s| > 0
    // unsigned digits
    ensures |s| > 0 && AllDigits(s) ==>
      r == if DigitsValue(s) < TwoTo63 then Some(DigitsValue(s)) else None
    // a sign followed by digits
    ensures |s| > 1 && s[0] == '+' && AllDigits(s[1..]) ==>
      r == if DigitsValue(s[1..]) < TwoTo63 then Some(DigitsValue(s[1..])) else None
    ensures |s| > 1 && s[0] == '-' && AllDigits(s[1..]) ==>
      r == if DigitsValue(s[1..]) <= TwoTo63 then Some(-(DigitsValue(s[1..]) as int)) else None
    // no digits, or a non-digit after the optional sign
    ensures |s| == 0 || s == "+" || s == "-" ==> r.None?
    ensures (exists i :: 1 <= i < |s| && !IsDigit(s[i])) ==> r.None?
    ensures |s| > 0 && !IsDigit(s[0]) && s[0] != '+' && s[0] != '-' ==> r.None?
  {
    var neg := |s| > 0 && s[0] == '-';
    var digits := if |s| > 0 && (s[0] == '-' || s[0] == '+') then s[1..] else s;
    if |digits| == 0 || !AllDigits(digits) then None
    else
      var v: int := if neg then -(DigitsValue(digits) as int) else DigitsValue(digits);
      if -TwoTo63 <= v < TwoTo63 then Some(v) else None
  }

  /** `strconv.Itoa`. */
  function Itoa(n: int): string
  {
    if n < 0 then "-" + NatDigits(-n) else NatDigits(n)
  }

  /** `Atoi` reads back what `Itoa` writes, for every int64. */
  lemma AtoiItoa(n: int)
    requires -TwoTo63 <= n < TwoTo63
    ensures Atoi(Itoa(n)) == Some(n)
  {
    if n < 0 {
      assert ("-" + NatDigits(-n))[1..] == NatDigits(-n);
    }
  }

  // The command loop

  /** What the session writes back, by the datum each `Fprintf` carries. */
  datatype Reply =
    | Greeting                                   // "Connected to TeaDB \n"
    | Added(key: string, value: string, ttl: int) // "Key: %s Value: %s with TTL of %d seconds added to store \n"
    | KeyExists(key: string)                     // "Key %s already exists\n"
    | BadTtl(token: string)                      // "Invalid ttl format: %s"
    | ValueLine(value: string)                   // " %s \n" around the JSON-encoded value
    | InvalidCommand(command: string)            // "Invalid command: %s\n"

  /** How an iteration leaves the loop: go on reading, end the session
      (the handler returns and the deferred Close runs), or panic on an
      out-of-range `fields[i]`, which takes down the whole process. */
  datatype Outcome = Continue | Ended | Panicked

  datatype Step = Step(replies: seq<Reply>, store: Store, outcome: Outcome)

  /** The values written by `GET key`: one line per entry holding the key,
      in store order, expired or not. */
  function MatchingValues(s: Store, key: string): (r: seq<string>)
    ensures |r| <= |s|
    ensures |r| == 0 <==> !HasKey(s, key)
  {
    if |s| == 0 then []
    else if s[0].key == key then [s[0].value] + MatchingValues(s[1..], key)
    else
      assert !HasKey(s, key) ==> !HasKey(s[1..], key);
      assert HasKey(s[1..], key) ==> HasKey(s, key) by {
        if HasKey(s[1..], key) {
          var i :| 0 <= i < |s[1..]| && s[1..][i].key == key;
          assert s[i + 1].key == key;
        }
      }
      MatchingValues(s[1..], key)
  }

  /** Appending an entry adds its value at the end of the answer exactly
      when its key matches, and leaves the answer alone otherwise. */
  lemma MatchingValuesSnoc(s: Store, e: Entry, key: string)
    ensures MatchingValues(s + [e], key) ==
      MatchingValues(s, key) + (if e.key == key then [e.value] else [])
  {
    MatchingValuesAppend(s, [e], key);
    assert [e][1..] == [];
  }

  /** `GET` answers in store order: the matches of a concatenation are the
      matches of the front followed by those of the back. */
  lemma {:induction false} MatchingValuesAppend(s1: Store, s2: Store, key: string)
    ensures MatchingValues(s1 + s2, key) == MatchingValues(s1, key) + MatchingValues(s2, key)
    decreases |s1|
  {
    if |s1| == 0 {
      assert s1 + s2 == s2;
    } else {
      assert (s1 + s2)[0] == s1[0];
      assert (s1 + s2)[1..] == s1[1..] + s2;
      MatchingValuesAppend(s1[1..], s2, key);
    }
  }

  /** Every value written is the value of an entry holding the key, and
      every such entry's value is written. */
  lemma {:induction false} MatchingValuesMembers(s: Store, key: string)
    ensures forall i :: 0 <= i < |s| && s[i].key == key ==> s[i].value in MatchingValues(s, key)
    ensures forall v :: v in MatchingValues(s, key) ==>
      exists i :: 0 <= i < |s| && s[i].key == key && s[i].value == v
    decreases |s|
  {
    if |s| > 0 {
      MatchingValuesMembers(s[1..], key);
      forall i | 1 <= i < |s| ensures s[i] == s[1..][i - 1] { }
      forall v | v in MatchingValues(s, key)
        ensures exists i :: 0 <= i < |s| && s[i].key == key && s[i].value == v
      {
        if s[0].key == key && v == s[0].value {
          assert s[0].key == key && s[0].value == v;
        } else {
          var j :| 0 <= j < |s[1..]| && s[1..][j].key == key && s[1..][j].value == v;
          assert s[j + 1].key == key && s[j + 1].value == v;
        }
      }
    }
  }

  /** With unique keys, `GET` writes exactly the value of the one entry. */
  lemma {:induction false} MatchingValuesUnique(s: Store, key: string)
    requires UniqueKeys(s)
    ensures FirstIndex(s, key).Some? ==> MatchingValues(s, key) == [s[FirstIndex(s, key).value].value]
    ensures FirstIndex(s, key).None? ==> MatchingValues(s, key) == []
    decreases |s|
  {
    if |s| > 0 {
      assert UniqueKeys(s[1..]) by {
        forall i, j | 0 <= i < j < |s[1..]| ensures s[1..][i].key != s[1..][j].key {
          assert s[1..][i] == s[i + 1] && s[1..][j] == s[j + 1];
        }
      }
      MatchingValuesUnique(s[1..], key);
      if s[0].key == key {
        assert !HasKey(s[1..], key) by {
          forall i | 0 <= i < |s[1..]| ensures s[1..][i].key != key {
            assert s[1..][i] == s[i + 1];
          }
        }
      }
    }
  }

  /** One iteration of the loop on the line `cmd` (its newline removed). */
  function Command(s: Store, now: int, cmd: string): (r: Step)
    ensures r.outcome != Continue ==> r.store == s
    ensures r.outcome == Panicked ==> r.replies == []
  {
    var fields := Fields(cmd);
    if |fields| == 0 then Step([], s, Panicked)
    else if fields[0] == "SET" then
      if |fields| < 4 then Step([], s, Panicked)
      else
        var key, value := fields[1], fields[2];
        match Atoi(fields[3])
        case None => Step([BadTtl(fields[3])], s, Ended)
        case Some(ttl) =>
          match Create(s, key, value, ttl, now)
          case None => Step([KeyExists(key)], s, Ended)
          case Some(s') => Step([Added(key, value, ttl)], s', Continue)
    else if fields[0] == "GET" then
      if |fields| < 2 then Step([], s, Panicked)
      else
        var vs := MatchingValues(s, fields[1]);
        Step(seq(|vs|, i requires 0 <= i < |vs| => ValueLine(vs[i])), s, Continue)
    else Step([InvalidCommand(cmd)], s, Continue)
  }

  /** A blank line, or `SET`/`GET` with too few fields, indexes past the end
      of `fields` and panics. */
  lemma CommandPanics(s: Store, now: int, cmd: string)
    ensures Command(s, now, cmd).outcome == Panicked <==>
      var f := Fields(cmd);
      |f| == 0 || (f[0] == "SET" && |f| < 4) || (f[0] == "GET" && |f| < 2)
  {
  }

  /** An unknown first field is reported and the loop goes on. */
  lemma CommandUnknown(s: Store, now: int, cmd: string)
    requires |Fields(cmd)| > 0 && Fields(cmd)[0] != "SET" && Fields(cmd)[0] != "GET"
    ensures Command(s, now, cmd) == Step([InvalidCommand(cmd)], s, Continue)
  {
  }

  /** `SET key value ttl`: a bad TTL or a present key ends the session with
      the store unchanged; otherwise the entry is appended with expiry
      `now + ttl` seconds and the loop goes on. Fields past the fourth are
      ignored. */
  lemma CommandSet(s: Store, now: int, cmd: string)
    requires |Fields(cmd)| >= 4 && Fields(cmd)[0] == "SET"
    ensures var f := Fields(cmd); var r := Command(s, now, cmd);
      && (Atoi(f[3]).None? ==> r == Step([BadTtl(f[3])], s, Ended))
      && (Atoi(f[3]).Some? && HasKey(s, f[1]) ==> r == Step([KeyExists(f[1])], s, Ended))
      && (Atoi(f[3]).Some? && !HasKey(s, f[1]) ==>
            r == Step([Added(f[1], f[2], Atoi(f[3]).value)],
                      s + [Entry(f[1], f[2], Expiry(now, Atoi(f[3]).value))], Continue))
  {
  }

  /** `GET key`: one line per entry holding the key, nothing for an absent
      key; the store is unchanged and the loop goes on. */
  lemma CommandGet(s: Store, now: int, cmd: string)
    requires |Fields(cmd)| >= 2 && Fields(cmd)[0] == "GET"
    ensures var r := Command(s, now, cmd); var vs := MatchingValues(s, Fields(cmd)[1]);
      && r.outcome == Continue && r.store == s
      && |r.replies| == |vs|
      && (forall i :: 0 <= i < |vs| ==> r.replies[i] == ValueLine(vs[i]))
      && (!HasKey(s, Fields(cmd)[1]) ==> r.replies == [])
  {
  }

  /** `reader.ReadString('\n')`: the text before the first newline and what
      follows it; `None` when the stream ends first, which `ReadString`
      reports as an error. */
  function ReadLine(stream: string): (r: Option<(string, string)>)
    ensures r.Some? ==> |r.value.1| < |stream|
  {
    if |stream| == 0 then None
    else if stream[0] == '\n' then Some(("", stream[1..]))
    else
      match ReadLine(stream[1..])
      case None => None
      case Some((line, rest)) => Some(([stream[0]] + line, rest))
  }

  /** `ReadLine` splits the stream at its first newline, and fails exactly
      when there is none. */
  lemma {:induction false} ReadLineSplits(stream: string)
    ensures ReadLine(stream).None? <==> '\n' !in stream
    ensures ReadLine(stream).Some? ==>
      var (line, rest) := ReadLine(stream).value;
      stream == line + "\n" + rest && '\n' !in line
    decreases |stream|
  {
    if |stream| > 0 {
      assert stream == [stream[0]] + stream[1..];
      if stream[0] != '\n' {
        ReadLineSplits(stream[1..]);
        if ReadLine(stream[1..]).Some? {
          var (line, rest) := ReadLine(stream[1..]).value;
          assert stream == [stream[0]] + line + "\n" + rest;
        }
      } else {
        assert stream == "" + "\n" + stream[1..];
      }
    }
  }

  datatype Session = Session(replies: seq<Reply>, store: Store, outcome: Outcome)

  /** The `for` loop of `handleConnection`. The `n`-th command runs at time
      `clock(n)`. A read error ends the session with the connection closed;
      so do a bad TTL and a duplicate key. */
  function Serve(s: Store, stream: string, clock: nat -> int, n: nat): (r: Session)
    ensures r.outcome != Continue
    decreases |stream|
  {
    match ReadLine(stream)
    case None => Session([], s, Ended)
    case Some((line, rest)) =>
      var step := Command(s, clock(n), line);
      if step.outcome == Continue then
        var tail := Serve(step.store, rest, clock, n + 1);
        Session(step.replies + tail.replies, tail.store, tail.outcome)
      else Session(step.replies, step.store, step.outcome)
  }

  /** The loop only ever appends to the store, and never a second entry
      for a key it already holds. */
  lemma {:induction false} ServeExtendsStore(s: Store, stream: string, clock: nat -> int, n: nat)
    ensures s <= Serve(s, stream, clock, n).store
    ensures UniqueKeys(s) ==> UniqueKeys(Serve(s, stream, clock, n).store)
    decreases |stream|
  {
    match ReadLine(stream)
    case None =>
    case Some((line, rest)) =>
      var step := Command(s, clock(n), line);
      if step.outcome == Continue {
        CreatePreservesUniqueKeysAny(s, step.store, clock(n), line);
        ServeExtendsStore(step.store, rest, clock, n + 1);
      }
  }

  /** A command that continues only ever appends a fresh key. */
  lemma CreatePreservesUniqueKeysAny(s: Store, s': Store, now: int, cmd: string)
    requires Command(s, now, cmd).outcome == Continue && s' == Command(s, now, cmd).store
    ensures s <= s'
    ensures UniqueKeys(s) ==> UniqueKeys(s')
  {
  }

  /** `handleConnection`: greet, then run the loop. */
  function HandleConnection(s: Store, stream: string, clock: nat -> int): (r: Session)
    ensures |r.replies| > 0 && r.replies[0] == Greeting
  {
    var run := Serve(s, stream, clock, 0);
    Session([Greeting] + run.replies, run.store, run.outcome)
  }

  /** A line without a newline after it is never executed: the session ends
      at the read error and the store is unchanged. */
  lemma UnterminatedLineIgnored(s: Store, line: string, clock: nat -> int)
    requires '\n' !in line
    ensures HandleConnection(s, line, clock) == Session([Greeting], s, Ended)
  {
    ReadLineSplits(line);
  }

  /** `ReadLine` stops at the first newline. */
  lemma {:induction false} ReadLineOf(line: string, rest: string)
    requires '\n' !in line
    ensures ReadLine(line + "\n" + rest) == Some((line, rest))
    decreases |line|
  {
    if |line| > 0 {
      assert (line + "\n" + rest)[1..] == line[1..] + "\n" + rest;
      ReadLineOf(line[1..], rest);
      assert [line[0]] + line[1..] == line;
    }
  }

  /** Joined space-free words contain no newline. */
  lemma {:induction false} UnwordsNoNewline(ws: seq<string>)
    requires forall i :: 0 <= i < |ws| ==> NoSpace(ws[i])
    ensures '\n' !in Unwords(ws)
    decreases |ws|
  {
    if |ws| > 1 {
      UnwordsNoNewline(ws[1..]);
    }
  }

  lemma ItoaWord(n: int)
    ensures |Itoa(n)| > 0 && NoSpace(Itoa(n))
  {
    var d := NatDigits(if n < 0 then -n else n);
    assert forall i :: 0 <= i < |d| ==> !IsWhiteSpace(d[i]);
    if n < 0 {
      assert forall i :: 1 <= i < |Itoa(n)| ==> Itoa(n)[i] == d[i - 1];
    }
  }

  /** One loop iteration of `Serve` on a complete line whose command lets
      the loop go on. */
  lemma ServeLine(s: Store, stream: string, line: string, rest: string, clock: nat -> int, n: nat, m: nat,
                  replies: seq<Reply>, s': Store, next: Session)
    requires stream == line + "\n" + rest && '\n' !in line && m == n + 1
    requires Command(s, clock(n), line) == Step(replies, s', Continue)
    requires next == Serve(s', rest, clock, m)
    ensures Serve(s, stream, clock, n) == Session(replies + next.replies, next.store, next.outcome)
  {
    ReadLineOf(line, rest);
  }

  /** At the end of the stream the loop stops with nothing written. */
  lemma ServeEnd(s: Store, clock: nat -> int, n: nat)
    ensures Serve(s, "", clock, n) == Session([], s, Ended)
  {
  }

  /** The last complete line of a stream, when its command lets the loop go
      on, is followed by the end of the session. */
  lemma ServeLast(s: Store, clock: nat -> int, b: string, line: string, n: nat, replies: seq<Reply>, s': Store)
    requires b == line + "\n" + "" && '\n' !in line
    requires Command(s, clock(n), line) == Step(replies, s', Continue)
    ensures Serve(s, b, clock, n) == Session(replies, s', Ended)
  {
    ServeEnd(s', clock, n + 1);
    ServeLine(s, b, line, "", clock, n, n + 1, replies, s', Session([], s', Ended));
    assert replies + [] == replies;
  }

  /** Two complete lines whose commands both let the loop go on, and then
      the end of the stream. */
  lemma ServeTwo(s: Store, clock: nat -> int, a: string, b: string, line1: string, line2: string,
                 r1: seq<Reply>, s1: Store, r2: seq<Reply>, s2: Store)
    requires a == line1 + "\n" + b && b == line2 + "\n" + ""
    requires '\n' !in line1 && '\n' !in line2
    requires Command(s, clock(0), line1) == Step(r1, s1, Continue)
    requires Command(s1, clock(1), line2) == Step(r2, s2, Continue)
    ensures Serve(s, a, clock, 0) == Session(r1 + r2, s2, Ended)
  {
    ServeLast(s1, clock, b, line2, 1, r2, s2);
    ServeLine(s, a, line1, b, clock, 0, 1, r1, s1, Session(r2, s2, Ended));
  }

  /** A session of two complete lines whose commands both let the loop go
      on ends at the end of the stream with both commands' effects. */
  lemma TwoCommands(s: Store, clock: nat -> int, stream: string, line1: string, line2: string,
                    r1: seq<Reply>, s1: Store, r2: seq<Reply>, s2: Store)
    requires stream == line1 + "\n" + line2 + "\n"
    requires '\n' !in line1 && '\n' !in line2
    requires Command(s, clock(0), line1) == Step(r1, s1, Continue)
    requires Command(s1, clock(1), line2) == Step(r2, s2, Continue)
    ensures HandleConnection(s, stream, clock) == Session([Greeting] + r1 + r2, s2, Ended)
  {
    ServeTwo(s, clock, stream, line2 + "\n", line1, line2, r1, s1, r2, s2);
    assert [Greeting] + (r1 + r2) == [Greeting] + r1 + r2;
  }

  lemma SetLine(s: Store, now: int, k: string, v: string, ttl: int)
    requires !HasKey(s, k)
    requires |k| > 0 && NoSpace(k) && |v| > 0 && NoSpace(v)
    requires -MaxTtlSeconds <= ttl <= MaxTtlSeconds
    ensures '\n' !in Unwords(["SET", k, v, Itoa(ttl)])
    ensures Command(s, now, Unwords(["SET", k, v, Itoa(ttl)])) ==
      Step([Added(k, v, ttl)], s + [Entry(k, v, now + ttl * NanosPerSecond)], Continue)
  {
    var words := ["SET", k, v, Itoa(ttl)];
    var line := Unwords(words);
    assert forall i :: 0 <= i < |words| ==> |words[i]| > 0 && NoSpace(words[i]) by {
      ItoaWord(ttl);
      assert NoSpace("SET");
    }
    assert Fields(line) == words by { FieldsUnwords(words); }
    UnwordsNoNewline(words);
    assert Atoi(Itoa(ttl)) == Some(ttl) by { AtoiItoa(ttl); }
    assert Expiry(now, ttl) == now + ttl * NanosPerSecond;
    CommandSet(s, now, line);
  }

  lemma GetLine(s: Store, now: int, k: string, v: string)
    requires |k| > 0 && NoSpace(k)
    requires MatchingValues(s, k) == [v]
    ensures '\n' !in Unwords(["GET", k])
    ensures Command(s, now, Unwords(["GET", k])) == Step([ValueLine(v)], s, Continue)
  {
    var words := ["GET", k];
    var line := Unwords(words);
    assert forall i :: 0 <= i < |words| ==> |words[i]| > 0 && NoSpace(words[i]) by {
      assert NoSpace("GET");
    }
    assert Fields(line) == words by { FieldsUnwords(words); }
    UnwordsNoNewline(words);
    CommandGet(s, now, line);
  }

  /** End to end: `SET k v ttl` then `GET k` writes the value back, and the
      entry expires `ttl` seconds after the first command's clock reading. */
  lemma SetThenGet(s: Store, clock: nat -> int, k: string, v: string, ttl: int, stream: string)
    requires !HasKey(s, k) && UniqueKeys(s)
    requires |k| > 0 && NoSpace(k) && |v| > 0 && NoSpace(v)
    requires -MaxTtlSeconds <= ttl <= MaxTtlSeconds
    requires stream == Unwords(["SET", k, v, Itoa(ttl)]) + "\n" + Unwords(["GET", k]) + "\n"
    ensures HandleConnection(s, stream, clock) ==
      Session([Greeting, Added(k, v, ttl), ValueLine(v)], s + [Entry(k, v, clock(0) + ttl * NanosPerSecond)], Ended)
  {
    var e := Entry(k, v, clock(0) + ttl * NanosPerSecond);
    var setLine, getLine := Unwords(["SET", k, v, Itoa(ttl)]), Unwords(["GET", k]);
    SetLine(s, clock(0), k, v, ttl);
    GetAdded(s, e, clock(1));
    TwoSingleReplies(s, clock, stream, setLine, getLine, Added(k, v, ttl), s + [e], ValueLine(v), s + [e]);
  }

  /** Two continuing commands with one reply each: the session writes the
      greeting and the two replies, in order. */
  lemma TwoSingleReplies(s: Store, clock: nat -> int, stream: string, line1: string, line2: string,
                         x: Reply, s1: Store, y: Reply, s2: Store)
    requires stream == line1 + "\n" + line2 + "\n"
    requires '\n' !in line1 && '\n' !in line2
    requires Command(s, clock(0), line1) == Step([x], s1, Continue)
    requires Command(s1, clock(1), line2) == Step([y], s2, Continue)
    ensures HandleConnection(s, stream, clock) == Session([Greeting, x, y], s2, Ended)
  {
    TwoCommands(s, clock, stream, line1, line2, [x], s1, [y], s2);
    assert [Greeting] + [x] + [y] == [Greeting, x, y];
  }

  /** `GET k` right after `k` was appended writes back the appended value. */
  lemma GetAdded(s: Store, e: Entry, now: int)
    requires UniqueKeys(s) && !HasKey(s, e.key)
    requires |e.key| > 0 && NoSpace(e.key)
    ensures '\n' !in Unwords(["GET", e.key])
    ensures Command(s + [e], now, Unwords(["GET", e.key])) == Step([ValueLine(e.value)], s + [e], Continue)
  {
    AddedKeyMatches(s, e);
    GetLine(s + [e], now, e.key, e.value);
  }

  /** A GET of a key just appended to a store of unique keys finds exactly
      the appended value. */
  lemma AddedKeyMatches(s: Store, e: Entry)
    requires UniqueKeys(s) && !HasKey(s, e.key)
    ensures MatchingValues(s + [e], e.key) == [e.value]
  {
    var s' := s + [e];
    assert s'[|s|] == e;
    assert HasKey(s', e.key);
    assert FirstIndex(s', e.key) == Some(|s|);
    assert UniqueKeys(s') by {
      forall a, b | 0 <= a < b < |s'| ensures s'[a].key != s'[b].key {
        if b < |s| {
          assert s'[a] == s[a] && s'[b] == s[b];
        } else {
          assert s'[a] == s[a];
        }
      }
    }
    MatchingValuesUnique(s', e.key);
  }
}

=== FILE: tea_store.dfy ===
/** The Go server's store (main.go): an ordered slice of key/value/expiry
    records, the HTTP handlers over it, and the background expiry sweep.
    The clock is the parameter `now`, in nanoseconds since the Unix epoch. */
module TeaStore {
  import opened Common

  /** One element of the store slice; `ttl` is the absolute expiry instant. */
  datatype Entry = Entry(key: string, value: string, ttl: int)

  type Store = seq<Entry>

  /** Largest TTL, in seconds, whose conversion to a Go `time.Duration`
      (int64 nanoseconds) does not wrap. */
  const MaxTtlSeconds: int := 9_223_372_036

  predicate HasKey(s: Store, key: string)
  {
    exists i :: 0 <= i < |s| && s[i].key == key
  }

  /** At most one entry per key. */
  predicate UniqueKeys(s: Store)
  {
    forall i, j :: 0 <= i < j < |s| ==> s[i].key != s[j].key
  }

  /** `now.Add(time.Duration(seconds) * time.Second)`: the multiplication is
      int64 arithmetic and wraps. */
  function Expiry(now: int, seconds: int): (t: int)
    ensures -MaxTtlSeconds <= seconds <= MaxTtlSeconds ==> t == now + seconds * NanosPerSecond
    ensures now - TwoTo63 <= t < now + TwoTo63
  {
    now + WrapInt64(seconds * NanosPerSecond)
  }

  /** The index of the first entry holding `key` (the `for i, ds := range
      store` scans that stop at the first match). */
  function FirstIndex(s: Store, key: string): (r: Option<nat>)
    ensures r.None? <==> !HasKey(s, key)
    ensures r.Some? ==> r.value < |s| && s[r.value].key == key
    ensures r.Some? ==> forall j :: 0 <= j < r.value ==> s[j].key != key
  {
    if |s| == 0 then None
    else if s[0].key == key then Some(0)
    else
      match FirstIndex(s[1..], key)
      case None =>
        assert forall j :: 1 <= j < |s| ==> s[j] == s[1..][j - 1];
        None
      case Some(i) =>
        assert forall j :: 1 <= j <= i ==> s[j] == s[1..][j - 1];
        Some(i + 1)
  }

  /** The slice with the element at `i` spliced out
      (`append(store[:i], store[i+1:]...)`). */
  function RemoveAt(s: Store, i: nat): (r: Store)
    requires i < |s|
    ensures |r| == |s| - 1
    ensures forall j :: 0 <= j < i ==> r[j] == s[j]
    ensures forall j :: i <= j < |r| ==> r[j] == s[j + 1]
  {
    s[..i] + s[i + 1..]
  }

  /** The create step shared by HTTP `createKey` and TCP `SET`: append a new
      entry unless some entry already has the key. */
  function Create(s: Store, key: string, value: string, seconds: int, now: int): (r: Option<Store>)
    ensures r.None? <==> HasKey(s, key)
    ensures r.Some? ==> |r.value| == |s| + 1 && r.value[..|s|] == s
    ensures r.Some? ==> r.value[|s|] == Entry(key, value, Expiry(now, seconds))
  {
    if HasKey(s, key) then None else Some(s + [Entry(key, value, Expiry(now, seconds))])
  }

  lemma CreatePreservesUniqueKeys(s: Store, key: string, value: string, seconds: int, now: int)
    requires UniqueKeys(s)
    ensures Create(s, key, value, seconds, now).Some? ==> UniqueKeys(Create(s, key, value, seconds, now).value)
  {
  }

  // HTTP handlers

  const StatusOK: int := 200
  const StatusBadRequest: int := 400
  const StatusNotFound: int := 404
  const StatusMethodNotAllowed: int := 405
  const StatusInternalServerError: int := 500

  /** One piece written to the response body. */
  datatype Body =
    | Text(message: string)             // http.Error or a plain w.Write
    | JsonValue(value: string)          // json.Marshal of a stored value
    | JsonCount(count: nat)             // json.Marshal of len(store)
    | JsonEntries(entries: seq<Entry>)  // json.Marshal of the whole store
    | JsonCreated(key: string)          // {"created": "true", "key": key}

  /** The status sent (the first one written wins) and the body pieces in
      the order they were written. */
  datatype HttpReply = HttpReply(status: int, body: seq<Body>)

  datatype Handled = Handled(reply: HttpReply, store: Store)

  function Reply1(status: int, b: Body): HttpReply
  {
    HttpReply(status, [b])
  }

  /** The JSON request body of `POST /create`. */
  datatype CreateBody = CreateBody(key: string, value: string, second: int)

  /** `createKey`. A failed body read or a failed JSON decode writes a 500
      but does not return, so the handler goes on with whatever `data`
      holds; a duplicate key is a 400. */
  function HttpCreate(s: Store, now: int, verb: string, readOk: bool, decodeOk: bool, data: CreateBody): (h: Handled)
    ensures verb != "POST" ==> h == Handled(Reply1(StatusMethodNotAllowed, Text("Invalid request method")), s)
    ensures verb == "POST" && HasKey(s, data.key) ==> h.store == s
    ensures verb == "POST" && !HasKey(s, data.key) ==>
      h.store == s + [Entry(data.key, data.value, Expiry(now, data.second))]
    ensures verb == "POST" ==>
      h.reply.status == (if !readOk || !decodeOk then StatusInternalServerError
                         else if HasKey(s, data.key) then StatusBadRequest else StatusOK)
    ensures verb == "POST" && readOk && decodeOk && !HasKey(s, data.key) ==>
      h.reply == HttpReply(StatusOK, [JsonCreated(data.key)])
  {
    if verb != "POST" then Handled(Reply1(StatusMethodNotAllowed, Text("Invalid request method")), s)
    else
      var early :=
        (if readOk then [] else [Text("Error reading request body")]) +
        (if decodeOk then [] else [Text("Error Unmarshal req body")]);
      var first := if |early| > 0 then StatusInternalServerError else -1;
      match Create(s, data.key, data.value, data.second, now)
      case None =>
        Handled(HttpReply(if first > 0 then first else StatusBadRequest, early + [Text("Key already exists")]), s)
      case Some(s') =>
        Handled(HttpReply(if first > 0 then first else StatusOK, early + [JsonCreated(data.key)]), s')
  }

  /** `getKey`: the value of the first entry with the key. The entry's
      expiry is not consulted. */
  function HttpGet(s: Store, verb: string, key: string): (r: HttpReply)
    ensures verb != "GET" ==> r.status == StatusMethodNotAllowed
    ensures verb == "GET" && key == "" ==> r == Reply1(StatusBadRequest, Text("Key not provided"))
    ensures verb == "GET" && key != "" && !HasKey(s, key) ==> r == Reply1(StatusNotFound, Text("Key not found"))
    ensures r.status == StatusOK <==> verb == "GET" && key != "" && HasKey(s, key)
    ensures r.status == StatusOK ==>
      exists i :: 0 <= i < |s| && s[i].key == key && r.body == [JsonValue(s[i].value)] &&
                  forall j :: 0 <= j < i ==> s[j].key != key
  {
    if verb != "GET" then Reply1(StatusMethodNotAllowed, Text("Invalid request method"))
    else if key == "" then Reply1(StatusBadRequest, Text("Key not provided"))
    else
      match FirstIndex(s, key)
      case None => Reply1(StatusNotFound, Text("Key not found"))
      case Some(i) => Reply1(StatusOK, JsonValue(s[i].value))
  }

  /** `deleteKey`: splice out the first entry with the key. */
  function HttpDelete(s: Store, verb: string, key: string): (h: Handled)
    ensures h.reply.status != StatusOK ==> h.store == s
    ensures verb != "DELETE" ==> h.reply.status == StatusMethodNotAllowed
    ensures verb == "DELETE" && key == "" ==> h.reply == Reply1(StatusBadRequest, Text("Key parameter is missing"))
    ensures verb == "DELETE" && key != "" && !HasKey(s, key) ==>
      h.reply == Reply1(StatusNotFound, Text("Key was not found"))
    ensures h.reply.status == StatusOK <==> verb == "DELETE" && key != "" && HasKey(s, key)
    ensures h.reply.status == StatusOK ==>
      exists i :: 0 <= i < |s| && s[i].key == key && (forall j :: 0 <= j < i ==> s[j].key != key) &&
                  h.store == s[..i] + s[i + 1..]
  {
    if verb != "DELETE" then Handled(Reply1(StatusMethodNotAllowed, Text("Invalid request method")), s)
    else if key == "" then Handled(Reply1(StatusBadRequest, Text("Key parameter is missing")), s)
    else
      match FirstIndex(s, key)
      case None => Handled(Reply1(StatusNotFound, Text("Key was not found")), s)
      case Some(i) => Handled(Reply1(StatusOK, Text("Key was deleted successfully")), RemoveAt(s, i))
  }

  /** `count`: the number of entries in the slice, expired or not. */
  function HttpCount(s: Store, verb: string): (r: HttpReply)
    ensures verb == "GET" ==> r == Reply1(StatusOK, JsonCount(|s|))
    ensures verb != "GET" ==> r.status == StatusMethodNotAllowed
  {
    if verb != "GET" then Reply1(StatusMethodNotAllowed, Text("Invalid request method"))
    else Reply1(StatusOK, JsonCount(|s|))
  }

  /** `getAllKeys`: the whole slice, in order, expired entries included. */
  function HttpList(s: Store, verb: string): (r: HttpReply)
    ensures verb == "GET" ==> r == Reply1(StatusOK, JsonEntries(s))
    ensures verb != "GET" ==> r.status == StatusMethodNotAllowed
  {
    if verb != "GET" then Reply1(StatusMethodNotAllowed, Text("Invalid request method"))
    else Reply1(StatusOK, JsonEntries(s))
  }

  /** A successful create is immediately visible to `getKey`, whatever the
      TTL: the lookup does not check expiry. */
  lemma CreateThenGet(s: Store, now: int, data: CreateBody)
    requires data.key != "" && !HasKey(s, data.key)
    ensures var h := HttpCreate(s, now, "POST", true, true, data);
      h.reply.status == StatusOK && HttpGet(h.store, "GET", data.key) == Reply1(StatusOK, JsonValue(data.value))
  {
    var h := HttpCreate(s, now, "POST", true, true, data);
    assert FirstIndex(h.store, data.key) == Some(|s|);
  }

  /** A second create of a present key is refused and the stored value is
      kept. */
  lemma DuplicateCreateKeepsValue(s: Store, now: int, data: CreateBody, v: string)
    requires data.key != "" && FirstIndex(s, data.key).Some? && s[FirstIndex(s, data.key).value].value == v
    ensures var h := HttpCreate(s, now, "POST", true, true, data);
      h.reply.status == StatusBadRequest && HttpGet(h.store, "GET", data.key) == Reply1(StatusOK, JsonValue(v))
  {
  }

  /** With unique keys, a successful delete leaves no entry for the key, so
      a following `getKey` is a 404. */
  lemma DeleteThenGet(s: Store, key: string)
    requires UniqueKeys(s) && key != ""
    ensures var h := HttpDelete(s, "DELETE", key);
      !HasKey(h.store, key) && HttpGet(h.store, "GET", key).status == StatusNotFound
  {
    var h := HttpDelete(s, "DELETE", key);
    if HasKey(s, key) {
      var i := FirstIndex(s, key).value;
      assert h.store == RemoveAt(s, i);
      forall j | 0 <= j < |h.store| ensures h.store[j].key != key {
        if j < i {
          assert h.store[j] == s[j];
        } else {
          assert h.store[j] == s[j + 1];
        }
      }
    }
  }

  // The expiry sweep

  /** `time.Now().After(e.TTL)`: strictly after the expiry instant. */
  predicate Expired(e: Entry, now: int)
  {
    now > e.ttl
  }

  /** What one pass of `checkExpired` leaves, read off the loop: after a
      splice at index i the loop still increments i, so the element that
      slid into position i is never examined in that pass. */
  function SweepPass(s: Store, now: int): (r: Store)
    ensures |r| <= |s|
  {
    if |s| == 0 then []
    else if Expired(s[0], now) then
      (if |s| == 1 then [] else [s[1]] + SweepPass(s[2..], now))
    else [s[0]] + SweepPass(s[1..], now)
  }

  /** A pass only removes: every entry it keeps comes from the store. */
  lemma {:induction false} SweepPassFromStore(s: Store, now: int)
    ensures forall e :: e in SweepPass(s, now) ==> e in s
    decreases |s|
  {
    if |s| > 0 {
      if Expired(s[0], now) {
        if |s| > 1 {
          SweepPassFromStore(s[2..], now);
          assert forall e :: e in s[2..] ==> e in s;
        }
      } else {
        SweepPassFromStore(s[1..], now);
        assert forall e :: e in s[1..] ==> e in s;
      }
    }
  }

  /** The sweep loop's invariant: `out` is what the iterations so far have
      kept and `s[k..]` what is left to examine. */
  ghost predicate PassSoFar(s: Store, now: int, out: Store, k: nat)
    requires k <= |s|
  {
    SweepPass(s, now) == out + SweepPass(s[k..], now)
  }

  /** One iteration of the sweep loop on `store == out + s[k..]`, examining
      `store[i]`: returns what the iteration keeps and where the next one
      starts, and shows that the store after the iteration is again of the
      form `out' + s[k'..]`. */
  lemma SweepStep(s: Store, k: nat, now: int, out: Store, store: Store, i: nat) returns (out': Store, k': nat)
    requires k < |s| && store == out + s[k..] && i == |out|
    requires PassSoFar(s, now, out, k)
    ensures k < k' <= |s|
    ensures PassSoFar(s, now, out', k')
    ensures store[i] == s[k]
    ensures Expired(s[k], now) ==> store[..i] + store[i + 1..] == out' + s[k'..]
    ensures !Expired(s[k], now) ==> store == out' + s[k'..]
    ensures |out'| == i + 1 || (|out'| == i && k' == |s|)
  {
    var t := s[k..];
    assert t[0] == s[k];
    assert t[1..] == s[k + 1..];
    assert store[..i] == out && store[i + 1..] == s[k + 1..];
    if Expired(s[k], now) {
      if k + 1 < |s| {
        assert t[1] == s[k + 1] && t[2..] == s[k + 2..];
        out', k' := out + [s[k + 1]], k + 2;
        assert s[k + 1..] == [s[k + 1]] + s[k + 2..];
        var rest := SweepPass(s[k + 2..], now);
        assert SweepPass(t, now) == [s[k + 1]] + rest;
        assert out + ([s[k + 1]] + rest) == out' + rest;
      } else {
        out', k' := out, |s|;
        assert SweepPass(t, now) == [] == SweepPass(s[k'..], now);
      }
    } else {
      out', k' := out + [s[k]], k + 1;
      assert s[k..] == [s[k]] + s[k + 1..];
      var rest := SweepPass(s[k + 1..], now);
      assert SweepPass(t, now) == [s[k]] + rest;
      assert out + ([s[k]] + rest) == out' + rest;
    }
  }

  /** The loop of `checkExpired`, one pass over the slice, as written: index
      `i` advances after every iteration, splice or not. */
  method Sweep(s: Store, now: int) returns (store: Store)
    ensures store == SweepPass(s, now)
  {
    store := s;
    var i := 0;
    ghost var out: Store := [];
    ghost var k: nat := 0;
    while i < |store|
      invariant k <= |s|
      invariant store == out + s[k..]
      invariant i == |out| || (i == |out| + 1 && k == |s|)
      invariant PassSoFar(s, now, out, k)
      decreases |s| - k
    {
      out, k := SweepStep(s, k, now, out, store, i);
      if Expired(store[i], now) {
        store := store[..i] + store[i + 1..];
      }
      i := i + 1;
    }
    assert s[k..] == [];
  }

  /** `r` is `s` with some entries deleted, every deleted entry expired,
      and the survivors in their original order. */
  ghost predicate DropsOnlyExpired(s: Store, r: Store, now: int)
    decreases |s|
  {
    if |s| == 0 then |r| == 0
    else
      (|r| > 0 && r[0] == s[0] && DropsOnlyExpired(s[1..], r[1..], now))
      || (Expired(s[0], now) && DropsOnlyExpired(s[1..], r, now))
  }

  /** The sweep removes an entry only when `now` is strictly after its TTL,
      and keeps the others in order. */
  lemma {:induction false} SweepDropsOnlyExpired(s: Store, now: int)
    ensures DropsOnlyExpired(s, SweepPass(s, now), now)
    decreases |s|
  {
    if |s| == 0 {
    } else if Expired(s[0], now) {
      if |s| == 1 {
        assert DropsOnlyExpired(s[1..], [], now);
      } else {
        var rest := SweepPass(s[2..], now);
        SweepDropsOnlyExpired(s[2..], now);
        assert s[1..][1..] == s[2..];
        assert ([s[1]] + rest)[1..] == rest;
        assert DropsOnlyExpired(s[1..], [s[1]] + rest, now);
      }
    } else {
      SweepDropsOnlyExpired(s[1..], now);
      assert ([s[0]] + SweepPass(s[1..], now))[1..] == SweepPass(s[1..], now);
    }
  }

  /** An entry that has not expired survives the pass. */
  lemma {:induction false} SweepKeepsLive(s: Store, now: int, i: nat)
    requires i < |s| && !Expired(s[i], now)
    ensures s[i] in SweepPass(s, now)
    decreases |s|
  {
    if Expired(s[0], now) {
      if i >= 2 {
        SweepKeepsLive(s[2..], now, i - 2);
      }
    } else if i >= 1 {
      SweepKeepsLive(s[1..], now, i - 1);
    }
  }

  /** Whether the loop looks at position i of the store in a pass: the
      first entry always, and after each entry the next one, except that a
      splice moves the following entry into the spliced position after the
      loop has left it. */
  predicate Examined(s: Store, now: int, i: nat)
    decreases |s|
  {
    i < |s| &&
    (i == 0 ||
     (if Expired(s[0], now) then i >= 2 && Examined(s[2..], now, i - 2)
      else Examined(s[1..], now, i - 1)))
  }

  /** Consequence of the skip: when the loop splices out an expired entry,
      the entry right after it is not examined in that pass and survives it,
      expired or not. */
  lemma {:induction false} SweepSkipsAfterSplice(s: Store, now: int, i: nat)
    requires i + 1 < |s| && Examined(s, now, i) && Expired(s[i], now)
    ensures !Examined(s, now, i + 1)
    ensures s[i + 1] in SweepPass(s, now)
    decreases |s|
  {
    if i > 0 {
      if Expired(s[0], now) {
        SweepSkipsAfterSplice(s[2..], now, i - 2);
        assert s[2..][i - 1] == s[i + 1];
      } else {
        SweepSkipsAfterSplice(s[1..], now, i - 1);
        assert s[1..][i] == s[i + 1];
      }
    }
  }

  /** The smallest instance: of a store holding two expired entries, one
      pass keeps the second. */
  lemma SweepTwoExpired(e1: Entry, e2: Entry, now: int)
    requires Expired(e1, now) && Expired(e2, now)
    ensures SweepPass([e1, e2], now) == [e2]
  {
    assert [e1, e2][2..] == [];
  }

  /** The evidently intended sweep: every expired entry goes, every live one
      stays, in order. */
  function SweepAll(s: Store, now: int): (r: Store)
    ensures forall e :: e in r ==> e in s && !Expired(e, now)
    ensures forall i :: 0 <= i < |s| && !Expired(s[i], now) ==> s[i] in r
    ensures DropsOnlyExpired(s, r, now)
  {
    if |s| == 0 then []
    else if Expired(s[0], now) then SweepAll(s[1..], now)
    else
      var rest := SweepAll(s[1..], now);
      assert ([s[0]] + rest)[1..] == rest;
      [s[0]] + rest
  }
}
